=== FILE: README.md ===
# AmazingRaceBot progression core in Dafny

This project models the core of the AmazingRaceBot, a Telegram bot that runs a multi-team scavenger race.

**The team store** of `game_state.py`:
- creating teams, joining them and adding members;
- removing members;
- completing challenges strictly in sequence, with the finish time stamped after the last one;
- looking up a user's team;
- the leaderboard;
- renaming and removing teams;
- the game's start, end and reset.

**The progression gates** of `bot.py`:
- `verify_answer`, in its four modes: checklist, acceptable answers, comma-separated keywords, single answer;
- `requires_photo_verification`, `get_expected_answer_format` and `is_admin` (with the admin setting resolved at start-up);
- `validate_image_url`;
- the one-shot unlock broadcast `check_and_broadcast_unlocked_challenge`;
- `broadcast_current_challenge`, including the tournament it creates for a tournament challenge and the completion it records when that tournament is decided at once;
- the hint confirmation callback `hint_callback_handler`;
- the `/submit` command's guard chain, and the state changes and broadcasts it causes.

Everything is pure functions on immutable values.
- The store is a `GameState`: a map from team name to `Team`, together with the keys in insertion order. Python dictionaries remember insertion order, and both the user lookup and the leaderboard's tie order depend on it.
- Four pieces of team data live in collaborators of the store that are not part of this model: photo approvals, unlock-broadcast records, checklist progress and used hints. They appear as plain fields of `Team`.
- The penalty unlock time the store reports for a challenge is the input `unlockAt`.
- The tournament part of the store is the input `Tournaments`: the challenges that already have a tournament, and `autoWinner`, the team a just-created tournament ranks first when it is complete at once (a single eligible team wins by default).
- Timestamps are natural numbers. The source stores ISO-8601 strings of one fixed format, which order like the instants they denote.
- `/submit` returns its reply as a `SubmitOutcome`, and the messages it would send besides that reply as a list of `Event`s.

Modules:
- `wrappers.dfy`: `Option`.
- `text.dfy`: Python's `lower`, `strip`, `in`, `split`, `join`, `int()` and `str()` on ASCII text.
- `teams.dfy`: the store.
- `store_invariants.dfy`: invariants over every sequence of store calls.
- `leaderboard.dfy`: the sorted leaderboard.
- `challenges.dfy`: challenge configuration, photo verification, answer format, admin.
- `verification.dfy`: `verify_answer` and checklist progress.
- `gates.dfy`: unlock broadcast, hint callback, `/submit`.
- `media.dfy`: `validate_image_url`.

Behaviour of the code worth knowing:
- The challenge pointer is 0-based. A consistent team's completions are exactly `1, 2, ..., pointer`.
- Hint order is not enforced. The `/hint` button offers the next unused index, but the callback accepts any index the guards let through. As written this includes negative ones (see Findings).
- While a penalty runs, `/submit` refuses the current challenge outright.
- The `checklist_completed` flag of a stored submission comes from the presence of the `checklist_items` key (bot.py:1759). `verify_answer` instead tests whether the list is non-empty.
- `create_team` itself does not check that the captain is in no other team. `/createteam` checks first (bot.py:947-950). `/addteam` does not: it creates every admin team with the placeholder captain id 0 (bot.py:2168), so that id can sit in many teams. Membership uniqueness (`UniqueMembership`) is therefore stated for real user ids, which Telegram makes positive, and a creation keeps it when its captain is in no team or is the placeholder.
- The unlock check runs before the "all done", penalty and photo guards. A submission refused for a missing photo can therefore still record an unlock broadcast.
- Broadcasting a tournament challenge that has no tournament yet creates one among every team whose pointer has reached it. When that tournament is complete at once, the store completes the challenge for its first-ranked team, with no submission. This happens in the unlock check at the start of `/submit` and in the broadcast of the next challenge after a completion. `/submit` reads the team's pointer after the unlock check (bot.py:1674), so a team credited there is judged on the challenge after the tournament.

## Model

| member | source | states |
|---|---|---|
| Teams.CreateTeam | game_state.py:48-63 | refused exactly when the name is taken, leaving the store unchanged; otherwise a new team with the captain as its only member, no completions and no finish time, appended to the key order; other teams untouched |
| Teams.JoinTeam | game_state.py:65-80 | accepted exactly when the team exists and the user is in no team; the user is appended to that team's members and nothing else changes |
| Teams.AddMemberToTeam | game_state.py:208-227 | as joining, and additionally refused when the team already has `max_team_size` members or more, so an accepted add never exceeds the limit |
| Teams.RemoveMemberFromTeam | game_state.py:229-249 | refused for a missing team or a captain who is the only member; otherwise the members become the order-preserving removal of every entry with that id, progress and all other fields except the captain are unchanged, and a removed captain is replaced by the first member, in the original order, whose id differs |
| Teams.WithoutId | game_state.py:241-246 | the survivors are exactly the entries with another id, and the first survivor is the earliest such entry of the original list |
| Teams.WithoutIdSelects | game_state.py:241 | the survivors are the subsequence of the original list at exactly the positions whose id differs, each kept once and in order |
| Teams.CompleteChallenge | game_state.py:82-125 | accepted exactly when the team exists, the id is not yet completed and equals pointer + 1; then the id is appended, the pointer advances by one, the submission is stored under that id (and no submission changes without one), every other submission and every other field of the team is unchanged, and the finish time is stamped once `total` challenges are completed; refusal changes nothing |
| Teams.CompleteChallengeProgress | game_state.py:96-111 | on a team whose completions are 1..pointer, a completion is accepted exactly for id pointer + 1, and the invariant survives |
| Teams.CompleteChallengeFinishesOnce | game_state.py:120-122 | below the last challenge there is no finish time yet; a completion stamps it exactly when it completes challenge `total`, and finish time and completion count stay consistent |
| Teams.GetTeamByUser | game_state.py:127-132 | the result is a team that has the user, and no team earlier in insertion order has the user; on a well-ordered store it is `None` exactly when the user is in no team |
| Teams.GetTeamByUserUnique | game_state.py:127-132 | when no real user is in two teams, the lookup returns a real user's one team |
| Teams.WithCaptain | game_state.py:178-187 | the captain is replaced only when both id and name are given; members and progress are untouched |
| Teams.UpdateTeam | game_state.py:172-197 | refused for a missing team or a rename onto a taken name; the captain change survives that refusal; a rename moves the record to the new key at the end of the key order; every other team is untouched and key order stays well formed |
| Teams.RemoveTeam | game_state.py:199-206 | refused exactly for a missing team; afterwards the name is gone from the teams and from the key order, and the other teams are untouched |
| Teams.ResetGame | game_state.py:164-170 | the result has no teams and is neither started nor ended, and it satisfies every store invariant |
| Teams.StartGame | game_state.py:154-157 | the game is started and nothing else changes |
| Teams.EndGame | game_state.py:159-162 | the game is ended and nothing else changes |
| StoreInvariants.CreateKeepsValid | game_state.py:48-63 | creating a team keeps the key order and every team's progression invariant |
| StoreInvariants.JoinKeepsValid | game_state.py:65-80 | joining keeps the store invariants |
| StoreInvariants.AddMemberKeepsValid | game_state.py:208-227 | adding a member keeps the store invariants |
| StoreInvariants.RemoveMemberKeepsValid | game_state.py:229-249 | removing a member keeps the store invariants |
| StoreInvariants.OneTeamChangedKeepsValid | game_state.py:229-249 | changing one team in place without touching its progress or the key order keeps the store invariants |
| StoreInvariants.EditKeepsValid | game_state.py:172-197 | renaming or changing captain keeps the store invariants |
| StoreInvariants.DropKeepsValid | game_state.py:199-206 | removing a team keeps the store invariants |
| StoreInvariants.ApplyPreservesValidStore | game_state.py:48-249 | every store operation keeps the key order in step with the teams and every team's completions equal to 1..pointer |
| StoreInvariants.RunKeepsProgression | game_state.py:48-249 | after any sequence of store calls from a valid store, every team's completions are exactly 1, 2, ..., its pointer |
| StoreInvariants.InitialIsValid | game_state.py:164-170 | the empty store satisfies every invariant |
| StoreInvariants.CreatePreservesUniqueMembership | game_state.py:48-63 | creating a team keeps every real user in at most one place, both for a captain who is in no team (the `/createteam` path) and for the placeholder captain of `/addteam`, which is created without any check |
| StoreInvariants.JoinPreservesUniqueMembership | game_state.py:65-80 | joining never places a user in two teams or twice in one |
| StoreInvariants.AddMemberPreservesUniqueMembership | game_state.py:208-227 | adding a member never places a user in two teams or twice in one |
| StoreInvariants.RemoveMemberPreservesUniqueMembership | game_state.py:229-249 | removing a member keeps membership unique |
| StoreInvariants.UpdateTeamPreservesUniqueMembership | game_state.py:172-197 | renaming or changing captain keeps membership unique |
| StoreInvariants.CompletePreservesUniqueMembership | game_state.py:82-125 | completing a challenge keeps membership unique |
| StoreInvariants.DropPreservesUniqueMembership | game_state.py:199-206 | removing a team keeps membership unique |
| StoreInvariants.ApplyPreservesUniqueMembership | game_state.py:48-249 | every store operation keeps real users' membership unique, given that a new captain is in no team or is the placeholder captain |
| Leaderboard.Insert | game_state.py:149 | inserting into a sorted list yields a sorted permutation of the list plus the new entry |
| Leaderboard.SortEntries | game_state.py:149 | the sort returns a permutation of its input ordered by the leaderboard key |
| Leaderboard.Entries | game_state.py:149-152 | one row per team, in dictionary order, holding the team's name, completion count and finish time |
| Leaderboard.GetLeaderboard | game_state.py:134-152 | every team appears once; finished teams come first, by ascending finish time, then unfinished teams by descending completion count |
| Leaderboard.SortedOrder | game_state.py:137-147 | the sort key `(0, finish)` / `(1, -completed)` means exactly this finished-first, earlier-first, more-completed-first order |
| Leaderboard.SortEntriesStable | game_state.py:149 | the sort is stable: the rows with any one key appear in their input order |
| Leaderboard.LeaderboardTiesKeepOrder | game_state.py:134-152 | teams with equal keys keep their dictionary (insertion) order on the leaderboard |
| Challenges.RequiresPhotoVerification | bot.py:192-218 | false for the first challenge; otherwise the challenge's own flag when present; otherwise false for photo-based types; otherwise the global flag |
| Challenges.GlobalFlagScope | bot.py:205-218 | the global flag changes the decision exactly for a challenge after the first that has no flag of its own and is not photo-based |
| Challenges.ExpectedAnswerFormat | bot.py:333-352 | photo exactly when the method is `photo` or absent, text exactly when it is `answer`, unknown otherwise |
| Challenges.ResolveAdmin | bot.py:39-46 | the `admin` value when it is truthy, otherwise `admins`; of a list only the first id counts, and an empty list gives no admin |
| Challenges.IsAdmin | bot.py:58-60 | a user is admin exactly when an admin id is configured and equals the user's id |
| Challenges.OnlyFirstListedAdmin | bot.py:39-46 | with a list of admins, exactly the first listed id is recognised |
| Verification.Matches | bot.py:325 | `expected == answer or expected in answer` holds exactly when the expected text occurs in the answer |
| Verification.MatchedItems | bot.py:259-267 | the matched items are exactly the configured items whose normalized form occurs in the answer |
| Verification.StripAll | bot.py:321 | every keyword is the stripped corresponding comma-separated piece |
| Verification.FirstAcceptable | bot.py:297-313 | the loop over acceptable answers returns true exactly when some acceptable answer, normalized, occurs in the answer |
| Verification.VerifyAnswer | bot.py:236-331 | rejected unless the method is `answer`. Checklist mode: the matched items are exactly those that occur; correct exactly when a team is given, something matched and every item is then recorded; partial exactly when something matched but it is not correct. Acceptable-answers mode: correct exactly when some entry occurs. Keyword mode: correct exactly when every stripped keyword occurs. Single-answer mode: correct exactly when the expected answer occurs. |
| Verification.TextOnlyForAnswerMethod | bot.py:250-252 | only a challenge whose expected format is text can accept a text answer |
| Verification.VerifyIgnoresCaseAndPadding | bot.py:255 | letter case and surrounding whitespace of the submission never change the verdict |
| Verification.ExpectedAnswerAccepted | bot.py:316-325 | in single-answer mode the configured answer itself is always accepted |
| Verification.AcceptableOverridesAnswer | bot.py:297-313 | when an acceptable-answers list is given, the `answer` field has no effect on the verdict |
| Verification.EmbeddedAnswerAccepted | bot.py:316-325 | in single-answer mode, any submission that contains the expected answer, with any text before and after it, is accepted |
| Text.StripOfMiddleOccurs | bot.py:255 | the stripped form of a piece of a text occurs in the stripped form of the whole text |
| Verification.ResubmissionIsNoOp | bot.py:269-273 | re-submitting items that are already recorded leaves the checklist progress unchanged |
| Verification.ProgressAfterAddsMatches | bot.py:269-273 | one submission adds exactly the items it matches to the recorded progress |
| Verification.ProgressOverIsUnion | bot.py:258-293 | after any series of submissions the recorded items are the starting items plus exactly those some submission matched, whatever their order |
| Verification.ChecklistCompletesByUnion | bot.py:258-293 | the checklist becomes complete exactly when every item not recorded at the start is matched by some submission |
| Verification.ChecklistCorrectMeansComplete | bot.py:269-280 | a checklist verdict is correct exactly when something matched and every item is recorded afterwards |
| Text.LowerSpec | bot.py:255 | lower-casing keeps the length, leaves no capital, and changes only capitals into their small letters |
| Text.StripSpec | bot.py:255 | the stripped text is a slice of the input, and everything cut off on either side is whitespace |
| Text.Strip | bot.py:255 | the stripped text neither starts nor ends with whitespace |
| Text.StripIdempotent | bot.py:255 | stripping twice is stripping once |
| Text.StripIgnoresSurroundingSpace | bot.py:255 | whitespace added on either side does not survive stripping |
| Text.NormalizeSpec | bot.py:255 | a normalized answer holds no capital and is no longer than the original |
| Text.NormalizeIgnoresCaseAndPadding | bot.py:255 | normalizing ignores case and surrounding whitespace |
| Text.ContainsMeansOccurs | bot.py:325 | the `in` scan holds exactly when the text occurs at some offset |
| Text.Split | bot.py:1537 | splitting yields at least one piece, and no piece contains the separator |
| Text.JoinSplit | bot.py:1537 | joining the pieces of a split with the separator gives back the original text |
| Text.SplitJoin | bot.py:1537 | splitting a join of separator-free pieces gives back the pieces |
| Text.IntToString | bot.py:1509 | the decimal text of an integer holds no underscore |
| Text.ParseIntToString | bot.py:1542-1543 | `int(str(i)) == i` for every integer |
| Text.ParseIntIgnoresPadding | bot.py:1542-1543 | like Python's `int()`, the parse ignores whitespace around the number |
| Text.ParseSignedToString | bot.py:1542-1543 | the sign and digits of `str(i)` read back as `i` |
| Gates.TeamOf | bot.py:1663-1668 | the sender's team exactly when the lookup finds one with a non-empty name, as the truthiness test demands; that team has the sender as a member |
| Gates.CheckUnlock | bot.py:441-481 | a broadcast is due exactly when the pointer is past the first challenge, the challenge's penalty has an unlock time that has passed, and it was not broadcast before; a due broadcast records the challenge, and nothing changes otherwise |
| Gates.NoBroadcastAfterRecorded | bot.py:470-481 | once the current challenge is recorded as broadcast, no later check broadcasts it |
| Gates.BroadcastAtMostOnce | bot.py:432-483 | however often and whenever the check runs, it broadcasts a team's current challenge at most once |
| Gates.NegativeHintIndexAcceptedAsWritten | bot.py:1558-1574 | as written, every unused index from `-len(hints)` to -1 passes the range check and Python's indexing reveals the hint counted from the end; the intended check refuses each of them |
| Gates.NegativeHintIndexExample | bot.py:1558-1574 | with hints `["first", "last"]`, index -1 passes the written check and reveals "last", and once -1 is used, index 1 still passes, so the same hint can be revealed twice |
| Gates.HintIndexCorrectionOnlyNegative | bot.py:1560 | the corrected range check differs from the written one only on negative indices |
| Gates.RevealHint | bot.py:1545-1574 | a hint is revealed only for the team's current challenge, an index within the hint list and not used before; the reveal records that index and nothing else; any refusal changes nothing |
| Gates.HintCallback | bot.py:1517-1574 | non-members, cancel, malformed data and unparsable numbers change nothing; a revealed hint is the current challenge's hint at an in-range unused index, recorded as used, with progress and other teams untouched |
| Gates.HintButtonDataParses | bot.py:1509-1543 | the confirmation button's data splits into `hint`, `yes` and two fields that parse back to the challenge id and the index |
| Gates.HintButtonDataSplits | bot.py:1509 | the confirmation button's data splits on `_` into `hint`, `yes`, the challenge id and the index |
| Gates.HintButtonAccepted | bot.py:1509-1574 | pressing the offered button for the current challenge with an in-range unused index reveals exactly that hint |
| Gates.HintCallbackKeepsHintsInRange | bot.py:1558-1571 | with ids that identify challenges, every recorded hint index names an existing hint of its challenge |
| Gates.ExcludeOf | bot.py:529 | a broadcast skips a member exactly when the given id is non-zero, as Python's truthiness test on the id demands, and then skips that id |
| Gates.Eligible | bot.py:557-560 | a team is eligible for a new tournament exactly when it is in the store and its pointer is at the broadcasting team's pointer or past it |
| Gates.AutoWinner | bot.py:552-577 | a tournament can complete at once only when this broadcast creates it: the challenge is shown, verified by tournament, has no tournament yet and some team is eligible |
| Gates.AutoWinIsStep | bot.py:570-577 | completing a tournament challenge for its winner with no submission changes only progress, and moves at most that one team past that challenge |
| Gates.BroadcastCurrent | bot.py:485-713 | nothing once the team is done; otherwise one message for the current challenge, or the photo request instead while its photo is pending; a tournament is created exactly when the shown tournament challenge has none and some team is eligible; the store changes only when that tournament completes at once, and then by completing the challenge for the winner with no submission; no team is added, removed or reordered |
| Gates.BroadcastMovesOnlyWinner | bot.py:552-577 | the team whose challenge is broadcast moves only if it wins the tournament at once, and then past exactly the broadcast challenge |
| Gates.UnlockCheckAt | bot.py:432-483 | nothing happens unless the unlock broadcast is due; when it is due, the current challenge is broadcast to every member, with that broadcast's tournament effect, and then recorded as broadcast; approved photos and checklist progress never change |
| Gates.UnlockEventsWhenDue | bot.py:470-474 | the unlock check sends a message exactly when the unlock broadcast is due |
| Gates.CompletionNotice | bot.py:1797-1828 | the completion notice of a finished team carries no unlock time and no photo request; otherwise it carries the next challenge's unlock time, and asks for a photo exactly when the next challenge needs one that has not been approved |
| Gates.FollowUp | bot.py:1833-1838 | after a completion, the next challenge (or the photo request) goes to every member but the submitter exactly when the team has not finished, no penalty delays the next challenge and a next challenge exists; that broadcast may credit a tournament; otherwise nothing changes |
| Gates.AnswerCompleted | bot.py:1761-1776 | the store accepts the completion exactly when the id is not yet completed and is pointer + 1; it then appends the id, advances the pointer, stamps the finish time after the last challenge and stores the joined answer with its sender; a refusal keeps progress; other teams are untouched |
| Gates.RecordChecklist | bot.py:269-273 | recording matched checklist items never touches progress, members or hints |
| Gates.SuccessEvents | bot.py:715-741 | the challenge's own success message is sent exactly when it is non-empty |
| Gates.SubmitAnswer | bot.py:1755-1892 | completes exactly when the verdict is correct and the store accepts the id; the store and messages of a completion are the store's completion, then the success message if the challenge has one, the completion notice and the broadcast of the next challenge, which may credit a tournament; every other reply emits nothing and keeps progress |
| Gates.SubmitByMethod | bot.py:1734-1931 | only the `answer` method with arguments can complete, and then only on a correct verdict for the joined arguments; a tournament challenge is refused with the store unchanged; photo and other methods reply without changing progress |
| Gates.SubmitCurrent | bot.py:1676-1734 | "all done" exactly when the pointer is past the last challenge; then a running penalty refuses; then a missing approved photo refuses; these refusals change nothing; past them the verification method decides |
| Gates.Submit | bot.py:1652-1931 | the not-started, ended and no-team replies change nothing and emit nothing; no reply adds, removes or reorders teams or changes the game phase |
| Gates.SubmitGuardOrder | bot.py:1654-1680 | the guards fire in the source's order: not started, ended, no team, all challenges done, the last judged on the team as the unlock check left it |
| Gates.SubmitPenaltyAndPhotoGates | bot.py:1670-1732 | any unlock broadcast comes first, exactly when it is due; on the team as the unlock check left it, a running penalty refuses and then a missing photo refuses; these refusals and "all done" change nothing beyond the unlock check |
| Gates.SubmitCompletesOnlyCorrectAnswers | bot.py:1670-1931 | a completion happens only in a started, unended game, for the current challenge of the team as the unlock check left it, unlocked, with its photo approved, verified by `answer`, with arguments whose joined text the verdict finds correct |
| Gates.UnlockCheckKeepsGuards | bot.py:1670-1734 | the unlock check never changes the team's approved photos or checklist progress; it moves the team's pointer only when the team wins its current challenge's tournament at once, and then past exactly that challenge; with the pointer in place the penalty guard, the photo guard and the verdict read as before |
| Gates.TournamentNeverSubmitted | bot.py:1670-1923 | a team on a tournament challenge completes a challenge through `/submit` only after the unlock check has credited it that tournament; while it is still on that challenge and neither a penalty nor a photo blocks it, the reply is the tournament refusal |
| Gates.SubmitCompletionRecorded | bot.py:1670-1838 | a completion advances the team, as the unlock check left it, by exactly its current challenge, whose id is pointer + 1, stores the joined answer and stamps the finish time on the last one, with no other team changed in that step; the messages are any unlock broadcast, the success message if the challenge has one, the completion notice, then the next challenge's broadcast |
| Gates.CurrentCompletionRecorded | bot.py:1734-1838 | past the unlock check, a completion advances the team by exactly its current challenge, whose id is pointer + 1, storing the joined answer, and is followed by the success message, the completion notice and the next challenge's broadcast |
| Gates.SubmitRefusalKeepsProgress | bot.py:1652-1931 | a reply other than a completion makes no progress beyond a tournament the unlock check may credit to one team; a refusal that sent no message keeps every team's progress |
| Gates.SubmitEffect | bot.py:1652-1931 | a refusal credits at most one tournament to one team; a completion advances the sender's team by one challenge, with at most one tournament credit before it (the unlock check) and one after it (the next challenge's broadcast) |
| Gates.SubmitReachesAnswer | bot.py:1738-1761 | a submission that passes every guard on a text-answer challenge is judged on the space-joined arguments against the team's recorded checklist |
| Gates.CorrectAnswerCompletes | bot.py:1761-1776 | with consistent teams and ids 1, 2, ..., a correct answer to an unlocked, approved current challenge always completes it |
| Gates.CompletionKeepsTeamConsistent | game_state.py:111-122 | a completion of the current challenge keeps the team's pointer and finish time consistent, and it happens only before the team finished |
| Gates.ProgressKeptConsistent | game_state.py:111-122 | a change that keeps every team's progress keeps the store consistent and every finish time |
| Gates.AdvanceKeptConsistent | game_state.py:111-122 | moving one team past a current challenge within the list keeps the store consistent, and moves no finish time, since only an unfinished team can move |
| Gates.TournamentStepKeptConsistent | bot.py:552-577 | with challenge ids 1, 2, ..., crediting a tournament to its winner keeps the store consistent and moves no finish time |
| Gates.SubmitStepsConsistent | bot.py:1652-1931 | the unlock check's credit, the completion and the next broadcast's credit together keep the store consistent and every finish time |
| Gates.SubmitKeepsOrder | bot.py:1652-1931 | `/submit` keeps the key order in step with the teams |
| Gates.SubmitPreservesConsistency | bot.py:1652-1931 | with challenge ids 1, 2, ..., `/submit` keeps every team's completions equal to 1..pointer and every finish time present exactly when all challenges are done |
| Gates.SubmitNeverMovesFinishTime | bot.py:1652-1931 | on a consistent store with challenge ids 1, 2, ..., `/submit` never changes a finish time once set |
| Media.AnyIn | bot.py:121 | the scan holds exactly when one of the strings occurs in the text |
| Media.AnyEndsWith | bot.py:125 | the scan holds exactly when the text ends with one of the strings |
| Media.ValidateImageUrl | bot.py:101-134 | only `https://` URLs are accepted |
| Media.ValidateImageUrlMeaning | bot.py:101-134 | a URL is accepted exactly when it starts with `https://` and its lower-cased form mentions a trusted host or an image extension anywhere; the test for a trailing extension adds nothing |
| Media.PlainHttpRejected | bot.py:111-113 | an `http://` URL is refused whatever it contains |

## Left out

- Telegram I/O: message texts, Markdown, inline keyboards, emoji, images, and the admin's and team's broadcast fan-out. Broadcasts are modelled only as the events `/submit` emits.
- Persistence: `load_state`, `save_state` and the JSON file. The save after each store change has no effect on the modelled state.
- The clock. One `now` stands for each handler's calls to `datetime.now()`. The check inside `check_and_broadcast_unlocked_challenge` and the penalty guard of `/submit` read the clock separately, which the model collapses into one instant.
- Concurrency: the model runs each handler atomically. The handlers do yield inside a check-then-act: `check_and_broadcast_unlocked_challenge` tests the broadcast record (bot.py:470), awaits the broadcast (bot.py:472) and only then records it (bot.py:477). But the application is built without concurrent updates (bot.py:3522-3524) and has no job queue, so the Telegram library processes one update at a time and no other handler runs in between.
- Penalty computation, hint records and checklist storage live in parts of `game_state.py` not part of this model (`get_challenge_unlock_time`, `use_hint`, `get_used_hints`, `update_checklist_item`, `is_checklist_complete`). They are inputs: `unlockAt`, and the `usedHints` and `checklist` fields.
- The tournament bracket (`create_tournament`, its rounds and rankings, `/tournamentwin`), photo approval, location checks and the pass command: not part of this core. The bracket is the input `Tournaments`; `autoWinner` stands for `create_tournament` followed by `rankings[0]` when the new tournament is already complete.
- The admin's notices about a new tournament (bot.py:579-621) are message texts and are not modelled.
- Gates.Submit: does not return the updated set of tournaments; the unlock check's tournament is passed on to the broadcast after a completion, and nothing later in the handler reads it.
- `send_success_message_if_configured`, `broadcast_current_challenge` and `broadcast_challenge_completion`: only their occurrence and arguments are modelled, as the events `SuccessMessage`, `ChallengeBroadcast`, `PhotoNotice` and `CompletionBroadcast`; the per-member fan-out, its de-duplication and failed sends are not. The success message sent after a photo approval (bot.py:2693) belongs to photo approval, which is not part of this core.
- `context.user_data` and `context.bot_data`: the "waiting for answer" and pending photo entries are not stored. The model returns the `AnswerPrompt` and `PhotoAwaited` outcomes instead.
- Text.Lower: ASCII only; Python's Unicode case mapping is not modelled.
- Text.Strip: ASCII whitespace only.
- Text.ParseInt: ignores surrounding ASCII whitespace, then accepts an optional sign and ASCII digits. Python's `int()` also accepts Unicode whitespace and non-ASCII digits, which the model refuses. It also accepts underscores between digits, which the callback's fields cannot hold because they come from a split on `_`.
- Challenges.RequiresPhotoVerification: an explicit `requires_photo_verification` setting is returned as its truthiness, not as the value itself (a null or a string, say); every caller uses the result only as a condition.
- Challenges.ExpectedAnswerFormat: a `verification.method` that is present but null is treated as an unlisted method and gives `unknown`, as in the source. A `verification` that is itself null makes the source raise `AttributeError`, which is not modelled.
- Teams.GetTeamByUserUnique: stated for real user ids only. The placeholder id 0 of admin-created teams can be in several teams, and the lookup then returns the first in insertion order, as `GetTeamByUser` states.
- Gates.CompletionNotice: the photo-needed check indexes the challenge list at the new pointer. The source raises `IndexError` when ids are not contiguous and that index is past the end; the model treats that case as "no photo needed".
- Gates.HintCallback: models the evidently intended lower bound (see Findings) through RevealHint, so it refuses the negative indices that bot.py:1560 lets through. The `IndexError` that the as-written code raises for an index below `-len(hints)` after recording it is not modelled; the written guard is kept in `HintIndexAcceptedAsWritten`.
- Gates.RevealHint: refuses a negative index (`idx < 0`), which bot.py:1560 accepts; this is the corrected guard of the Findings table.
- Gates.HintCallbackKeepsHintsInRange: holds only for the corrected guard. As written, bot.py:1560 passes index -1 on to `use_hint`, so an out-of-range index can be recorded.
- Gates.HintCallback: the hint image lookup after the reveal is not modelled.
- `validate_image_path` (filesystem access) and `get_format_mismatch_message` and `get_challenge_instructions` (message texts) are not modelled.
- Gates.Submit: promises an unchanged store only for the not-started, ended and no-team replies. The "all done", penalty and photo refusals come after the unlock check, whose broadcast can credit a tournament; `SubmitPenaltyAndPhotoGates` states that they change nothing beyond it.
- Gates.SubmitRefusalKeepsProgress: a refusal keeps every team's progress only when it sent no message; a refusal after an unlock broadcast can carry one tournament credit.
- Gates.SubmitEffect: a completion is one step of the sender's team between at most two tournament credits, not a single step, because both broadcasts in `/submit` can complete a tournament challenge.
- Gates.SubmitPreservesConsistency: holds only for challenge ids 1, 2, .... With other ids, a finished team is eligible for a new tournament and can be credited a challenge whose id is one past its pointer, which breaks the link between pointer and completions.
- Gates.SubmitNeverMovesFinishTime: holds only for challenge ids 1, 2, ..., for the same reason: that credit stamps a finished team's finish time again.
- Gates.Eligible: states which teams are eligible, not their dictionary order; the order only matters to the bracket, which is the input `autoWinner`.
- Leaderboard.GetLeaderboard: finish times are compared as numbers; the source compares ISO-8601 strings, which order the same way for the fixed format it writes.
- `reset_game` also clears an unused `challenges` attribute of the store, which the model does not have.
- The `created_at` time of a team is a parameter of `CreateTeam`, not read from a clock.

## Findings

| source | as written | input that shows it | evidently intended | confidence | as-written member | corrected member |
|---|---|---|---|---|---|---|
| bot.py:1560 | the hint callback checks only `hint_index >= len(hints)`, so a negative index passes, and Python's negative indexing reveals a hint counted from the end | button data `hint_yes_<current id>_-1` on a challenge with hints `["first", "last"]` and none used: "last" is revealed and passed to `use_hint` with index -1, after which index 1 passes the check and reveals it again (`NegativeHintIndexExample`) | only indices `0 <= hint_index < len(hints)` are accepted, so each hint is revealed and recorded once under its own index | not executed | Gates.NegativeHintIndexAcceptedAsWritten | Gates.RevealHint |

=== FILE: challenges.dfy ===
/**
 * Challenge configuration as the bot reads it, and the configuration-only
 * decisions of `bot.py`: photo verification, expected answer format, admin.
 */
module Challenges {
  import opened Wrappers

  /** The `type` field. Any type name not listed here is `Unlisted`. */
  datatype Kind =
    | PhotoKind | Riddle | Code | Qr | MultiChoice | Scavenger
    | TeamActivity | Decryption | TournamentKind | TextKind | LocationKind | Unlisted

  /**
   * The `verification.method` field (`verifyBy` below). Any other method
   * name, and a method that is present but null, is `UnlistedMethod`: every
   * test of the method compares it with these names, which neither matches.
   */
  datatype Method = PhotoMethod | AnswerMethod | TournamentMethod | LocationMethod | AutoMethod | UnlistedMethod

  /**
   * One challenge. `None` stands for a key that is absent from the
   * configuration; `answer` defaults to the empty string, an absent
   * `acceptable_answers` list is the empty list, and an absent or null
   * `success_message` is the empty string. A present
   * `requires_photo_verification` is held as its truthiness (null and
   * `false` are false, a non-empty string is true), which is all its
   * callers test.
   */
  datatype Challenge = Challenge(
    id: int,
    name: string,
    kind: Option<Kind>,
    verifyBy: Option<Method>,
    answer: string,
    acceptable: seq<string>,
    checklist: Option<seq<string>>,
    hints: seq<string>,
    requiresPhoto: Option<bool>,
    successMessage: string)

  /** Ids run 1, 2, 3, ... in configuration order. */
  ghost predicate ContiguousIds(cs: seq<Challenge>) {
    forall i :: 0 <= i < |cs| ==> cs[i].id == i + 1
  }

  /** Challenge types whose answer is itself a photo (bot.py:32). */
  predicate PhotoBased(kind: Option<Kind>) {
    kind.Some? && kind.value in {MultiChoice, TeamActivity, PhotoKind, Scavenger}
  }

  /**
   * `requires_photo_verification`: the first challenge is exempt; then an
   * explicit per-challenge flag decides; then photo-based types are exempt;
   * otherwise the global flag decides.
   */
  function RequiresPhotoVerification(c: Challenge, index: nat, globalFlag: bool): (r: bool)
    ensures r <==> index != 0 && (c.requiresPhoto == Some(true) ||
                                  (c.requiresPhoto.None? && !PhotoBased(c.kind) && globalFlag))
  {
    if index == 0 then false
    else if c.requiresPhoto.Some? then c.requiresPhoto.value
    else if PhotoBased(c.kind) then false
    else globalFlag
  }

  /**
   * The global flag matters only for a challenge after the first that has no
   * flag of its own and whose type is not photo-based.
   */
  lemma GlobalFlagScope(c: Challenge, index: nat)
    ensures RequiresPhotoVerification(c, index, true) != RequiresPhotoVerification(c, index, false)
            <==> index != 0 && c.requiresPhoto.None? && !PhotoBased(c.kind)
  {
  }

  datatype AnswerFormat = PhotoFormat | TextFormat | UnknownFormat

  /** `get_expected_answer_format`: a missing method counts as `photo`. */
  function ExpectedAnswerFormat(c: Challenge): (r: AnswerFormat)
    ensures r == PhotoFormat <==> c.verifyBy.None? || c.verifyBy == Some(PhotoMethod)
    ensures r == TextFormat <==> c.verifyBy == Some(AnswerMethod)
  {
    match c.verifyBy
    case None => PhotoFormat
    case Some(PhotoMethod) => PhotoFormat
    case Some(AnswerMethod) => TextFormat
    case Some(_) => UnknownFormat
  }

  /** The `admin` or `admins` configuration value: one id, or a list of ids. */
  datatype AdminSetting = AdminId(id: int) | AdminList(ids: seq<int>)

  /** Python truthiness of the value: a non-zero id or a non-empty list. */
  predicate Truthy(a: AdminSetting) {
    match a
    case AdminId(id) => id != 0
    case AdminList(ids) => |ids| > 0
  }

  /**
   * The admin id chosen at start-up: the `admin` value when it is truthy,
   * else `admins` (an empty list when absent); from a list only the first id
   * is kept.
   */
  function ResolveAdmin(admin: Option<AdminSetting>, admins: Option<AdminSetting>): (r: Option<int>)
    ensures admin.Some? && Truthy(admin.value) && admin.value.AdminId? ==> r == Some(admin.value.id)
    ensures admin.Some? && Truthy(admin.value) && admin.value.AdminList? ==> r == Some(admin.value.ids[0])
    ensures !(admin.Some? && Truthy(admin.value)) && admins.None? ==> r.None?
    ensures !(admin.Some? && Truthy(admin.value)) && admins.Some? ==>
              r == (match admins.value
                    case AdminId(id) => Some(id)
                    case AdminList(ids) => if |ids| > 0 then Some(ids[0]) else None)
  {
    var chosen := if admin.Some? && Truthy(admin.value) then admin.value else admins.GetOr(AdminList([]));
    match chosen
    case AdminList(ids) => if |ids| > 0 then Some(ids[0]) else None
    case AdminId(id) => Some(id)
  }

  /** `is_admin`: only the resolved admin id is an admin; with none, nobody is. */
  function IsAdmin(adminId: Option<int>, uid: int): (r: bool)
    ensures r <==> adminId == Some(uid)
  {
    adminId.Some? && uid == adminId.value
  }

  /** With a list of admins, only its first entry is recognised. */
  lemma OnlyFirstListedAdmin(ids: seq<int>, uid: int)
    ensures IsAdmin(ResolveAdmin(None, Some(AdminList(ids))), uid) <==> |ids| > 0 && uid == ids[0]
  {
  }
}

=== FILE: gates.dfy ===
/**
 * The progression gates of `bot.py`, lifted out of the async handlers: the
 * one-shot unlock broadcast, the hint confirmation callback, the broadcast
 * of a team's current challenge, and the `/submit` guard chain with the
 * events it emits.
 *
 * Penalty unlock times come from a collaborator of the store that is not
 * part of this model; they are the input `unlockAt`, mapping a challenge id
 * to the unlock time the collaborator reports for the team, if any. The
 * tournaments are another such collaborator, the input `Tournaments`.
 */
module Gates {
  import opened Wrappers
  import opened Text
  import opened Teams
  import opened Challenges
  import opened Verification

  /**
   * The team a handler acts for: the store's lookup, with an empty team name
   * treated as no team, as Python's truthiness test on the name does.
   */
  function TeamOf(g: GameState, uid: int): (r: Option<string>)
    ensures r.Some? <==> GetTeamByUser(g, uid).Some? && GetTeamByUser(g, uid).value != ""
    ensures r.Some? ==> r == GetTeamByUser(g, uid) && r.value in g.teams && HasMember(g.teams[r.value], uid)
  {
    match GetTeamByUser(g, uid)
    case Some(name) => if name == "" then None else Some(name)
    case None => None
  }

  // ---------------------------------------------------------------------------
  // Unlock broadcast
  // ---------------------------------------------------------------------------

  /** `announced` is the id of the challenge broadcast by this check, if any. */
  datatype UnlockCheck = UnlockCheck(announced: Option<int>, team: Team)

  /** The unlock broadcast for the team's current challenge is due now. */
  predicate UnlockDue(t: Team, cs: seq<Challenge>, unlockAt: int -> Option<nat>, now: nat) {
    && 0 < t.currentIndex < |cs|
    && unlockAt(cs[t.currentIndex].id).Some?
    && now >= unlockAt(cs[t.currentIndex].id).value
    && cs[t.currentIndex].id !in t.unlockBroadcasts
  }

  /**
   * `check_and_broadcast_unlocked_challenge`: broadcasts the current challenge
   * when its penalty has expired and it has not been broadcast before, and
   * records that it has.
   */
  function CheckUnlock(t: Team, cs: seq<Challenge>, unlockAt: int -> Option<nat>, now: nat): (r: UnlockCheck)
    ensures r.announced.Some? <==> UnlockDue(t, cs, unlockAt, now)
    ensures r.announced.Some? ==>
      && r.announced.value == cs[t.currentIndex].id
      && r.team == t.(unlockBroadcasts := t.unlockBroadcasts + {r.announced.value})
    ensures r.announced.None? ==> r.team == t
  {
    if t.currentIndex >= |cs| then UnlockCheck(None, t)
    else
      var cid := cs[t.currentIndex].id;
      if t.currentIndex == 0 then UnlockCheck(None, t)
      else
        match unlockAt(cid)
        case None => UnlockCheck(None, t)
        case Some(at) =>
          if now >= at && cid !in t.unlockBroadcasts
          then UnlockCheck(Some(cid), t.(unlockBroadcasts := t.unlockBroadcasts + {cid}))
          else UnlockCheck(None, t)
  }

  /** The number of broadcasts made by checks at the times `nows`, one after another. */
  function BroadcastsOver(t: Team, cs: seq<Challenge>, unlockAt: int -> Option<nat>, nows: seq<nat>): nat
    decreases |nows|
  {
    if |nows| == 0 then 0
    else
      var r := CheckUnlock(t, cs, unlockAt, nows[0]);
      (if r.announced.Some? then 1 else 0) + BroadcastsOver(r.team, cs, unlockAt, nows[1..])
  }

  /** Once the current challenge is recorded as broadcast, no later check broadcasts again. */
  lemma {:induction false} NoBroadcastAfterRecorded(t: Team, cs: seq<Challenge>, unlockAt: int -> Option<nat>, nows: seq<nat>)
    requires t.currentIndex < |cs| && cs[t.currentIndex].id in t.unlockBroadcasts
    ensures BroadcastsOver(t, cs, unlockAt, nows) == 0
    decreases |nows|
  {
    if |nows| > 0 {
      NoBroadcastAfterRecorded(t, cs, unlockAt, nows[1..]);
    }
  }

  /**
   * However many times the check runs, and at whatever times, it broadcasts a
   * team's current challenge at most once.
   */
  lemma {:induction false} BroadcastAtMostOnce(t: Team, cs: seq<Challenge>, unlockAt: int -> Option<nat>, nows: seq<nat>)
    ensures BroadcastsOver(t, cs, unlockAt, nows) <= 1
    decreases |nows|
  {
    if |nows| > 0 {
      var r := CheckUnlock(t, cs, unlockAt, nows[0]);
      if r.announced.Some? {
        NoBroadcastAfterRecorded(r.team, cs, unlockAt, nows[1..]);
      } else {
        BroadcastAtMostOnce(r.team, cs, unlockAt, nows[1..]);
      }
    }
  }

  // ---------------------------------------------------------------------------
  // Hint confirmation callback
  // ---------------------------------------------------------------------------

  datatype HintOutcome =
    | HintNoTeam
    | HintCancelled
    | HintInvalidRequest
    | HintParseError          // `int()` raises on a non-numeric id or index
    | HintNoCurrentChallenge  // the challenge list is indexed past its end
    | HintWrongChallenge
    | HintOutOfRange
    | HintAlreadyUsed
    | HintRevealed(cid: int, index: int, text: string)

  datatype HintResult = HintResult(state: GameState, outcome: HintOutcome)

  /** The hint indices already used by the team on challenge `cid`. */
  function UsedHints(t: Team, cid: int): set<int> {
    if cid in t.usedHints then t.usedHints[cid] else {}
  }

  /** The callback data of the confirmation button `/hint` offers. */
  function HintButtonData(cid: int, index: int): string {
    "hint_yes_" + IntToString(cid) + "_" + IntToString(index)
  }

  /** Python's `seq[index]`: negative indices count from the end; out of range is `None`. */
  function PyIndex<T>(s: seq<T>, index: int): Option<T> {
    if 0 <= index < |s| then Some(s[index])
    else if -|s| <= index < 0 then Some(s[|s| + index])
    else None
  }

  /** The index test as the source writes it: only an upper bound. */
  predicate HintIndexAcceptedAsWritten(hints: seq<string>, used: set<int>, index: int) {
    !(index >= |hints|) && index !in used
  }

  /** The index test with the lower bound the source evidently intends. */
  predicate HintIndexAccepted(hints: seq<string>, used: set<int>, index: int) {
    0 <= index < |hints| && index !in used
  }

  /**
   * As written, every negative index down to `-|hints|` that is not yet in
   * the used set passes the test, and Python's indexing then reveals a hint
   * counted from the end; the intended test refuses all of them.
   */
  lemma NegativeHintIndexAcceptedAsWritten(hints: seq<string>, used: set<int>, index: int)
    requires -|hints| <= index < 0 && index !in used
    ensures HintIndexAcceptedAsWritten(hints, used, index)
    ensures PyIndex(hints, index) == Some(hints[|hints| + index])
    ensures !HintIndexAccepted(hints, used, index)
  {
  }

  /**
   * The smallest instance: with two hints and none used, index -1 reveals
   * the last hint, and once -1 is in the used set the same hint is still
   * available under its own index 1.
   */
  lemma NegativeHintIndexExample()
    ensures HintIndexAcceptedAsWritten(["first", "last"], {}, -1)
    ensures PyIndex(["first", "last"], -1) == Some("last")
    ensures HintIndexAcceptedAsWritten(["first", "last"], {-1}, 1)
    ensures !HintIndexAccepted(["first", "last"], {}, -1)
  {
  }

  /** The corrected test differs from the written one only on negative indices. */
  lemma HintIndexCorrectionOnlyNegative(hints: seq<string>, used: set<int>, index: int)
    ensures HintIndexAccepted(hints, used, index) <==> index >= 0 && HintIndexAcceptedAsWritten(hints, used, index)
  {
  }

  /**
   * The part of `hint_callback_handler` after the data was parsed into the
   * challenge id `cid` and hint index `idx`: the checks against the team's
   * current challenge, then recording the hint.
   */
  function RevealHint(g: GameState, name: string, cs: seq<Challenge>, cid: int, idx: int): (r: HintResult)
    requires name in g.teams
    ensures !r.outcome.HintRevealed? ==> r.state == g
    ensures r.outcome.HintRevealed? ==>
      var t := g.teams[name];
      && r.outcome.cid == cid && r.outcome.index == idx
      && t.currentIndex < |cs| && cs[t.currentIndex].id == cid
      && HintIndexAccepted(cs[t.currentIndex].hints, UsedHints(t, cid), idx)
      && r.outcome.text == cs[t.currentIndex].hints[idx]
      && name in r.state.teams
      && UsedHints(r.state.teams[name], cid) == UsedHints(t, cid) + {idx}
      && SameProgress(t, r.state.teams[name])
      && OthersUnchanged(g, r.state, name)
    ensures var t := g.teams[name];
      t.currentIndex < |cs| && cs[t.currentIndex].id == cid
      && HintIndexAccepted(cs[t.currentIndex].hints, UsedHints(t, cid), idx) ==>
        r.outcome == HintRevealed(cid, idx, cs[t.currentIndex].hints[idx])
  {
    var t := g.teams[name];
    if t.currentIndex >= |cs| then HintResult(g, HintNoCurrentChallenge)
    else
      var c := cs[t.currentIndex];
      var used := UsedHints(t, cid);
      if c.id != cid then HintResult(g, HintWrongChallenge)
      else if idx < 0 || idx >= |c.hints| then HintResult(g, HintOutOfRange)
      else if idx in used then HintResult(g, HintAlreadyUsed)
      else
        var t' := t.(usedHints := t.usedHints[cid := used + {idx}]);
        HintResult(g.(teams := g.teams[name := t']), HintRevealed(cid, idx, c.hints[idx]))
  }

  /** `hint_callback_handler`, up to recording the hint. */
  function HintCallback(g: GameState, cs: seq<Challenge>, uid: int, data: string): (r: HintResult)
    ensures !r.outcome.HintRevealed? ==> r.state == g
    ensures r.outcome.HintRevealed? ==> TeamOf(g, uid).Some?
    ensures r.outcome.HintRevealed? ==>
      var name := TeamOf(g, uid).value;
      var t := g.teams[name];
      var cid, idx := r.outcome.cid, r.outcome.index;
      && t.currentIndex < |cs| && cs[t.currentIndex].id == cid
      && 0 <= idx < |cs[t.currentIndex].hints| && idx !in UsedHints(t, cid)
      && r.outcome.text == cs[t.currentIndex].hints[idx]
      && name in r.state.teams
      && UsedHints(r.state.teams[name], cid) == UsedHints(t, cid) + {idx}
      && (forall k :: k != cid ==> UsedHints(r.state.teams[name], k) == UsedHints(t, k))
      && SameProgress(t, r.state.teams[name])
      && OthersUnchanged(g, r.state, name)
  {
    var team := TeamOf(g, uid);
    if team.None? then HintResult(g, HintNoTeam)
    else if data == "hint_no" then HintResult(g, HintCancelled)
    else
      var parts := Split(data, '_');
      if |parts| != 4 || parts[0] != "hint" || parts[1] != "yes" then HintResult(g, HintInvalidRequest)
      else
        var cid, idx := ParseInt(parts[2]), ParseInt(parts[3]);
        if cid.None? || idx.None? then HintResult(g, HintParseError)
        else RevealHint(g, team.value, cs, cid.value, idx.value)
  }

  /** The confirmation button's data splits on underscores into its four fields. */
  lemma HintButtonDataSplits(cid: int, index: int)
    ensures Split(HintButtonData(cid, index), '_') == ["hint", "yes", IntToString(cid), IntToString(index)]
  {
    var parts := ["hint", "yes", IntToString(cid), IntToString(index)];
    assert HintButtonData(cid, index) == Join(parts, '_') by {
      assert Join(parts[3..], '_') == IntToString(index);
      assert Join(parts[2..], '_') == IntToString(cid) + "_" + IntToString(index);
      assert Join(parts[1..], '_') == "yes" + "_" + (IntToString(cid) + "_" + IntToString(index));
    }
    SplitJoin(parts, '_');
  }

  /**
   * The button `/hint` offers for the current challenge round-trips: pressing
   * it for an unused, in-range index reveals exactly that hint.
   */
  lemma HintButtonAccepted(g: GameState, cs: seq<Challenge>, uid: int, index: int)
    requires TeamOf(g, uid).Some?
    requires var t := g.teams[TeamOf(g, uid).value];
      t.currentIndex < |cs| && HintIndexAccepted(cs[t.currentIndex].hints, UsedHints(t, cs[t.currentIndex].id), index)
    ensures var t := g.teams[TeamOf(g, uid).value];
      var c := cs[t.currentIndex];
      HintCallback(g, cs, uid, HintButtonData(c.id, index)).outcome == HintRevealed(c.id, index, c.hints[index])
  {
    var t := g.teams[TeamOf(g, uid).value];
    var c := cs[t.currentIndex];
    var data := HintButtonData(c.id, index);
    HintButtonDataParses(c.id, index);
    assert data != "hint_no" by {
      assert |data| != |"hint_no"|;
    }
  }

  /** The confirmation button's data reads back as its challenge id and hint index. */
  lemma HintButtonDataParses(cid: int, index: int)
    ensures var parts := Split(HintButtonData(cid, index), '_');
      && |parts| == 4 && parts[0] == "hint" && parts[1] == "yes"
      && ParseInt(parts[2]) == Some(cid) && ParseInt(parts[3]) == Some(index)
  {
    HintButtonDataSplits(cid, index);
    ParseIntToString(cid);
    ParseIntToString(index);
  }

  /** Every recorded hint index names a hint of its challenge. */
  ghost predicate HintsInRange(t: Team, cs: seq<Challenge>) {
    forall i, k :: 0 <= i < |cs| && k in UsedHints(t, cs[i].id) ==> 0 <= k < |cs[i].hints|
  }

  /**
   * With ids unique in the configuration, the callback only records indices
   * of existing hints, so a team never has more hints used on a challenge
   * than the challenge has.
   */
  lemma HintCallbackKeepsHintsInRange(g: GameState, cs: seq<Challenge>, uid: int, data: string)
    requires ContiguousIds(cs)
    requires forall n :: n in g.teams ==> HintsInRange(g.teams[n], cs)
    ensures forall n :: n in HintCallback(g, cs, uid, data).state.teams ==>
              HintsInRange(HintCallback(g, cs, uid, data).state.teams[n], cs)
  {
    var r := HintCallback(g, cs, uid, data);
    if r.outcome.HintRevealed? {
      var name := TeamOf(g, uid).value;
      var t, t' := g.teams[name], r.state.teams[name];
      forall i, k | 0 <= i < |cs| && k in UsedHints(t', cs[i].id) ensures 0 <= k < |cs[i].hints| {
        if cs[i].id == r.outcome.cid {
          assert i == t.currentIndex;
        } else {
          assert UsedHints(t', cs[i].id) == UsedHints(t, cs[i].id);
        }
      }
    }
  }

  // ---------------------------------------------------------------------------
  // Broadcasting a team's current challenge
  // ---------------------------------------------------------------------------

  /**
   * The tournament part of the store, which is not part of this model: the
   * ids of the challenges that already have a tournament, and, for a
   * tournament just created for challenge `cid` among the teams `eligible`,
   * the team it ranks first when it is complete as soon as it is created (a
   * single eligible team wins by default), or `None`.
   */
  datatype Tournaments = Tournaments(existing: set<int>, autoWinner: (int, seq<string>) -> Option<string>)

  /** Messages the handlers send beyond their reply to the sender. */
  datatype Event =
    | ChallengeBroadcast(cid: int, except: Option<int>)  // a team's current challenge, to its members but `except`
    | PhotoNotice(cid: int, except: Option<int>)         // sent instead while the team photo is not approved
    | SuccessMessage(text: string)                       // the challenge's own message, to the submitter
    | CompletionBroadcast(cid: int, penaltyUntil: Option<nat>, photoNeeded: bool)

  /** The store, the tournaments and the messages after a broadcast. */
  datatype Broadcast = Broadcast(state: GameState, tour: Tournaments, events: seq<Event>)

  /** The member a broadcast skips: Python's truthiness test skips nobody for user id 0. */
  function ExcludeOf(uid: int): (r: Option<int>)
    ensures r.Some? <==> uid != 0
    ensures r.Some? ==> r.value == uid
  {
    if uid == 0 then None else Some(uid)
  }

  /** Two stores hold the same team names in the same order and the same game phase. */
  predicate SameShape(g: GameState, g': GameState) {
    g'.teams.Keys == g.teams.Keys && g'.order == g.order && g'.started == g.started && g'.ended == g.ended
  }

  /** The teams differ at most in their progress and their stored submissions. */
  predicate OnlyProgressDiffers(t: Team, t': Team) {
    t'.(completed := t.completed, currentIndex := t.currentIndex, submissions := t.submissions, finishTime := t.finishTime) == t
  }

  /** `g'` holds the same teams as `g`, each with the same progress. */
  ghost predicate KeepsProgress(g: GameState, g': GameState) {
    g'.teams.Keys == g.teams.Keys && forall n :: n in g.teams ==> SameProgress(g.teams[n], g'.teams[n])
  }

  /**
   * `g'` holds the same teams as `g`; team `name` moved past its current
   * challenge, one of `total`, and every other team kept its progress.
   */
  ghost predicate AdvancesOne(g: GameState, g': GameState, name: string, total: nat, now: nat) {
    && name in g.teams && g'.teams.Keys == g.teams.Keys
    && (forall n :: n in g.teams && n != name ==> SameProgress(g.teams[n], g'.teams[n]))
    && var t, t' := g.teams[name], g'.teams[name];
    && t'.completed == t.completed + [t.currentIndex + 1] && t'.currentIndex == t.currentIndex + 1
    && (|t'.completed| >= total ==> t'.finishTime == Some(now))
    && (|t'.completed| < total ==> t'.finishTime == t.finishTime)
  }

  /** `g'` is `g` with the tournament challenge `cs[k]` credited to team `w`, and no other progress. */
  ghost predicate TournamentWin(g: GameState, g': GameState, w: string, k: int, cs: seq<Challenge>, now: nat) {
    && 0 <= k < |cs| && cs[k].verifyBy == Some(TournamentMethod)
    && w in g.teams && cs[k].id == g.teams[w].currentIndex + 1
    && AdvancesOne(g, g', w, |cs|, now)
  }

  /** `g'` is `g` with no progress made, or with one tournament challenge credited to one team. */
  ghost predicate TournamentStep(g: GameState, g': GameState, cs: seq<Challenge>, now: nat) {
    KeepsProgress(g, g') || exists w, k :: TournamentWin(g, g', w, k, cs, now)
  }

  /** The teams among `names`, in that order, whose pointer is at `index` or past it. */
  function Eligible(g: GameState, names: seq<string>, index: nat): (r: seq<string>)
    ensures forall n :: n in r <==> n in names && n in g.teams && g.teams[n].currentIndex >= index
    ensures |r| <= |names|
  {
    if |names| == 0 then []
    else
      var rest := Eligible(g, names[1..], index);
      assert forall n :: n in names <==> n == names[0] || n in names[1..];
      if names[0] in g.teams && g.teams[names[0]].currentIndex >= index then [names[0]] + rest else rest
  }

  /**
   * Broadcasting team `name`'s current challenge creates that challenge's
   * tournament: the challenge is shown (no photo is pending), is verified by
   * tournament, has no tournament yet, and some team has reached it.
   */
  predicate CreatesTournament(g: GameState, name: string, cs: seq<Challenge>, photoGlobal: bool, tour: Tournaments)
    requires name in g.teams
  {
    var t := g.teams[name];
    && t.currentIndex < |cs| && !PhotoPending(t, cs, photoGlobal)
    && cs[t.currentIndex].verifyBy == Some(TournamentMethod)
    && cs[t.currentIndex].id !in tour.existing
    && |Eligible(g, g.order, t.currentIndex)| > 0
  }

  /** The team a tournament created by this broadcast declares the winner at once, if any. */
  function AutoWinner(g: GameState, name: string, cs: seq<Challenge>, photoGlobal: bool, tour: Tournaments): (w: Option<string>)
    requires name in g.teams
    ensures w.Some? ==> CreatesTournament(g, name, cs, photoGlobal, tour)
  {
    if CreatesTournament(g, name, cs, photoGlobal, tour)
    then tour.autoWinner(cs[g.teams[name].currentIndex].id, Eligible(g, g.order, g.teams[name].currentIndex))
    else None
  }

  /** An accepted completion moves its team on by one and keeps every other team's progress. */
  lemma CompletionAdvancesOne(g: GameState, name: string, cid: int, total: nat, submission: Option<Submission>, now: nat)
    requires CompleteChallenge(g, name, cid, total, submission, now).ok
    ensures AdvancesOne(g, CompleteChallenge(g, name, cid, total, submission, now).state, name, total, now)
  {
    var g' := CompleteChallenge(g, name, cid, total, submission, now).state;
    assert g'.teams.Keys == g.teams.Keys;
  }

  /**
   * Crediting the tournament challenge `cs[k]` to any team, whether or not
   * the store accepts it, is a tournament step that changes only progress.
   */
  lemma AutoWinIsStep(g: GameState, w: string, k: int, cs: seq<Challenge>, now: nat)
    requires 0 <= k < |cs| && cs[k].verifyBy == Some(TournamentMethod)
    ensures var g' := CompleteChallenge(g, w, cs[k].id, |cs|, None, now).state;
      && SameShape(g, g') && TournamentStep(g, g', cs, now)
      && forall n :: n in g.teams ==> OnlyProgressDiffers(g.teams[n], g'.teams[n])
  {
    var u := CompleteChallenge(g, w, cs[k].id, |cs|, None, now);
    if u.ok {
      CompletionAdvancesOne(g, w, cs[k].id, |cs|, None, now);
      assert TournamentWin(g, u.state, w, k, cs, now);
    }
  }

  /**
   * `broadcast_current_challenge`: the team's current challenge, or the
   * request for a team photo while one is pending, and nothing once the team
   * is done. Broadcasting a tournament challenge creates its tournament when
   * it has none and some team has reached it; when that tournament is
   * complete at once, the store completes the challenge for its winner, with
   * no submission.
   */
  function BroadcastCurrent(g: GameState, name: string, cs: seq<Challenge>, photoGlobal: bool, tour: Tournaments,
                            except: Option<int>, now: nat): (r: Broadcast)
    requires name in g.teams
    ensures SameShape(g, r.state) && TournamentStep(g, r.state, cs, now)
    ensures forall n :: n in g.teams ==> OnlyProgressDiffers(g.teams[n], r.state.teams[n])
    ensures var t := g.teams[name];
      && (t.currentIndex >= |cs| ==> r.events == [])
      && (t.currentIndex < |cs| ==>
            r.events == [if PhotoPending(t, cs, photoGlobal) then PhotoNotice(cs[t.currentIndex].id, except)
                         else ChallengeBroadcast(cs[t.currentIndex].id, except)])
    ensures r.tour == if CreatesTournament(g, name, cs, photoGlobal, tour)
                      then tour.(existing := tour.existing + {cs[g.teams[name].currentIndex].id}) else tour
    ensures AutoWinner(g, name, cs, photoGlobal, tour).None? ==> r.state == g
    ensures AutoWinner(g, name, cs, photoGlobal, tour).Some? ==>
      r.state == CompleteChallenge(g, AutoWinner(g, name, cs, photoGlobal, tour).value,
                                   cs[g.teams[name].currentIndex].id, |cs|, None, now).state
  {
    var t := g.teams[name];
    if t.currentIndex >= |cs| then Broadcast(g, tour, [])
    else
      var c := cs[t.currentIndex];
      if PhotoPending(t, cs, photoGlobal) then Broadcast(g, tour, [PhotoNotice(c.id, except)])
      else if !CreatesTournament(g, name, cs, photoGlobal, tour) then Broadcast(g, tour, [ChallengeBroadcast(c.id, except)])
      else
        var tour' := tour.(existing := tour.existing + {c.id});
        match tour.autoWinner(c.id, Eligible(g, g.order, t.currentIndex))
        case None => Broadcast(g, tour', [ChallengeBroadcast(c.id, except)])
        case Some(w) =>
          AutoWinIsStep(g, w, t.currentIndex, cs, now);
          Broadcast(CompleteChallenge(g, w, c.id, |cs|, None, now).state, tour', [ChallengeBroadcast(c.id, except)])
  }

  /**
   * A broadcast moves the team it is made for only when that team is its
   * tournament's winner, and then past exactly the broadcast challenge.
   */
  lemma BroadcastMovesOnlyWinner(g: GameState, name: string, cs: seq<Challenge>, photoGlobal: bool, tour: Tournaments,
                                 except: Option<int>, now: nat)
    requires name in g.teams
    ensures var t, t' := g.teams[name], BroadcastCurrent(g, name, cs, photoGlobal, tour, except, now).state.teams[name];
      || SameProgress(t, t')
      || (&& AutoWinner(g, name, cs, photoGlobal, tour) == Some(name)
          && t'.currentIndex == t.currentIndex + 1 && t'.completed == t.completed + [cs[t.currentIndex].id])
  {
    var w := AutoWinner(g, name, cs, photoGlobal, tour);
    if w.Some? && w.value != name {
      var t := g.teams[name];
      var u := CompleteChallenge(g, w.value, cs[t.currentIndex].id, |cs|, None, now);
      assert u.state.teams[name] == t;
    }
  }

  // ---------------------------------------------------------------------------
  // Unlock broadcast on the store
  // ---------------------------------------------------------------------------

  /**
   * `check_and_broadcast_unlocked_challenge` on the store: when the unlock
   * broadcast is due, the team's current challenge is broadcast to all its
   * members, which may credit a tournament to its winner, and the team then
   * records the challenge as broadcast.
   */
  function UnlockCheckAt(g: GameState, name: string, cs: seq<Challenge>, unlockAt: int -> Option<nat>,
                         photoGlobal: bool, tour: Tournaments, now: nat): (r: Broadcast)
    requires name in g.teams
    ensures name in r.state.teams && SameShape(g, r.state) && TournamentStep(g, r.state, cs, now)
    ensures !UnlockDue(g.teams[name], cs, unlockAt, now) ==> r == Broadcast(g, tour, [])
    ensures UnlockDue(g.teams[name], cs, unlockAt, now) ==>
      var b := BroadcastCurrent(g, name, cs, photoGlobal, tour, None, now);
      && r.events == b.events && r.tour == b.tour
      && KeepsProgress(b.state, r.state) && OthersUnchanged(b.state, r.state, name)
    ensures var t, t' := g.teams[name], r.state.teams[name];
      && t'.unlockBroadcasts == CheckUnlock(t, cs, unlockAt, now).team.unlockBroadcasts
      && t'.photoVerified == t.photoVerified && t'.checklist == t.checklist
  {
    var t := g.teams[name];
    if !UnlockDue(t, cs, unlockAt, now) then Broadcast(g, tour, [])
    else
      var b := BroadcastCurrent(g, name, cs, photoGlobal, tour, None, now);
      var g1 := Recorded(b.state, name, cs[t.currentIndex].id);
      RecordedKeepsStep(g, b.state, name, cs[t.currentIndex].id, cs, now);
      Broadcast(g1, b.tour, b.events)
  }

  /** The store with challenge `cid` recorded as broadcast for team `name`. */
  function Recorded(g: GameState, name: string, cid: int): (g': GameState)
    requires name in g.teams
    ensures name in g'.teams && SameShape(g, g') && OthersUnchanged(g, g', name)
    ensures g'.teams[name] == g.teams[name].(unlockBroadcasts := g.teams[name].unlockBroadcasts + {cid})
  {
    WithTeam(g, name, g.teams[name].(unlockBroadcasts := g.teams[name].unlockBroadcasts + {cid}))
  }

  /** Recording a broadcast after a tournament step keeps it a tournament step. */
  lemma RecordedKeepsStep(g: GameState, g1: GameState, name: string, cid: int, cs: seq<Challenge>, now: nat)
    requires name in g1.teams && TournamentStep(g, g1, cs, now)
    ensures KeepsProgress(g1, Recorded(g1, name, cid)) && TournamentStep(g, Recorded(g1, name, cid), cs, now)
  {
    KeepThenStep(g, g1, Recorded(g1, name, cid), cs, now);
  }

  /** A tournament step followed by a change that keeps progress is a tournament step. */
  lemma KeepThenStep(g: GameState, g1: GameState, g2: GameState, cs: seq<Challenge>, now: nat)
    requires TournamentStep(g, g1, cs, now) && KeepsProgress(g1, g2)
    ensures TournamentStep(g, g2, cs, now)
  {
    if !KeepsProgress(g, g1) {
      var w, k :| TournamentWin(g, g1, w, k, cs, now);
      assert TournamentWin(g, g2, w, k, cs, now);
    }
  }

  /** A change that keeps progress followed by a tournament step is a tournament step. */
  lemma KeepThenStepBefore(g: GameState, g1: GameState, g2: GameState, cs: seq<Challenge>, now: nat)
    requires KeepsProgress(g, g1) && TournamentStep(g1, g2, cs, now)
    ensures TournamentStep(g, g2, cs, now)
  {
    if !KeepsProgress(g1, g2) {
      var w, k :| TournamentWin(g1, g2, w, k, cs, now);
      assert TournamentWin(g, g2, w, k, cs, now);
    }
  }

  /**
   * What the guards of `/submit` read of the sender's team after the unlock
   * check: the approved photos and checklist progress are unchanged, and the
   * pointer moved only if the broadcast credited the team with the
   * tournament of its current challenge; with the pointer in place, the
   * penalty and photo guards and the verdict are as before.
   */
  lemma UnlockCheckKeepsGuards(g: GameState, name: string, cs: seq<Challenge>, unlockAt: int -> Option<nat>,
                               photoGlobal: bool, tour: Tournaments, args: seq<string>, now: nat)
    requires name in g.teams
    ensures var t, t1 := g.teams[name], UnlockCheckAt(g, name, cs, unlockAt, photoGlobal, tour, now).state.teams[name];
      && t1.photoVerified == t.photoVerified && t1.checklist == t.checklist
      && (|| SameProgress(t, t1)
          || (&& UnlockDue(t, cs, unlockAt, now) && AutoWinner(g, name, cs, photoGlobal, tour) == Some(name)
              && t1.currentIndex == t.currentIndex + 1 && t1.completed == t.completed + [cs[t.currentIndex].id]))
      && (t1.currentIndex == t.currentIndex && t.currentIndex < |cs| ==>
            && Locked(t1, cs, unlockAt, now) == Locked(t, cs, unlockAt, now)
            && PhotoPending(t1, cs, photoGlobal) == PhotoPending(t, cs, photoGlobal)
            && Judge(t1, cs[t.currentIndex], args) == Judge(t, cs[t.currentIndex], args))
  {
    if UnlockDue(g.teams[name], cs, unlockAt, now) {
      BroadcastMovesOnlyWinner(g, name, cs, photoGlobal, tour, None, now);
    }
  }

  // ---------------------------------------------------------------------------
  // /submit
  // ---------------------------------------------------------------------------

  /** The reply the submitter receives. */
  datatype SubmitOutcome =
    | NotStarted
    | GameEnded
    | NotInTeam
    | AllCompleted
    | PenaltyLocked(until: nat)
    | PhotoVerificationRequired(cid: int)
    | AnswerPrompt(cid: int)
    | Completed(cid: int)
    | CompletionFailed
    | ChecklistPartial(matched: seq<string>)
    | Incorrect
    | PhotoAwaited(cid: int)
    | TournamentRejected
    | ManualReview(cid: int)

  datatype SubmitResult = SubmitResult(state: GameState, outcome: SubmitOutcome, events: seq<Event>)

  /** Replies given before the current challenge is looked at. */
  predicate EarlyRejection(o: SubmitOutcome) {
    o.NotStarted? || o.GameEnded? || o.NotInTeam? || o.AllCompleted? || o.PenaltyLocked?
  }

  /** The store with team `name` replaced by `t`. */
  function WithTeam(g: GameState, name: string, t: Team): (g': GameState)
    requires name in g.teams
    ensures name in g'.teams && g'.teams[name] == t
    ensures OthersUnchanged(g, g', name) && SameShape(g, g')
  {
    g.(teams := g.teams[name := t])
  }

  /** The team after recording the items an answer matched on a checklist challenge. */
  function RecordChecklist(t: Team, c: Challenge, v: Verdict): (t': Team)
    ensures SameProgress(t, t') && t'.members == t.members && t'.usedHints == t.usedHints
  {
    if IsChecklist(c) && |v.matched| > 0
    then t.(checklist := t.checklist[c.id := Record(ChecklistProgress(t, c.id), v.matched)])
    else t
  }

  /** The checklist items the team has recorded on challenge `cid`. */
  function ChecklistProgress(t: Team, cid: int): set<string> {
    if cid in t.checklist then t.checklist[cid] else {}
  }

  /** The penalty on the team's current challenge has not yet expired. */
  predicate Locked(t: Team, cs: seq<Challenge>, unlockAt: int -> Option<nat>, now: nat)
    requires t.currentIndex < |cs|
  {
    t.currentIndex > 0 && unlockAt(cs[t.currentIndex].id).Some? && now < unlockAt(cs[t.currentIndex].id).value
  }

  /** The current challenge needs an approved team photo that the team does not have yet. */
  predicate PhotoPending(t: Team, cs: seq<Challenge>, photoGlobal: bool)
    requires t.currentIndex < |cs|
  {
    RequiresPhotoVerification(cs[t.currentIndex], t.currentIndex, photoGlobal) && cs[t.currentIndex].id !in t.photoVerified
  }

  /**
   * The completion notice for challenge `cid`, given the team as completion
   * left it: unless the team has finished, the next challenge's unlock time
   * and whether that challenge still needs an approved photo.
   */
  function CompletionNotice(t: Team, cs: seq<Challenge>, cid: int, unlockAt: int -> Option<nat>,
                            photoGlobal: bool): (e: Event)
    ensures e.CompletionBroadcast? && e.cid == cid
    ensures t.finishTime.Some? ==> e == CompletionBroadcast(cid, None, false)
    ensures t.finishTime.None? ==> e.penaltyUntil == unlockAt(cid + 1)
    ensures e.photoNeeded <==>
      t.finishTime.None? && t.currentIndex < |cs| && cid + 1 <= |cs| && cid + 1 !in t.photoVerified
      && RequiresPhotoVerification(cs[t.currentIndex], t.currentIndex, photoGlobal)
  {
    if t.finishTime.Some? then CompletionBroadcast(cid, None, false)
    else
      var photoNeeded := cid + 1 <= |cs| && t.currentIndex < |cs|
                         && RequiresPhotoVerification(cs[t.currentIndex], t.currentIndex, photoGlobal)
                         && cid + 1 !in t.photoVerified;
      CompletionBroadcast(cid, unlockAt(cid + 1), photoNeeded)
  }

  /**
   * The broadcast after challenge `cid` was completed: when the team has not
   * finished and no penalty delays its next challenge, that challenge (or
   * the photo request) goes to every member but the submitter.
   */
  function FollowUp(g: GameState, name: string, cs: seq<Challenge>, cid: int, unlockAt: int -> Option<nat>,
                    photoGlobal: bool, tour: Tournaments, uid: int, now: nat): (r: Broadcast)
    requires name in g.teams
    ensures SameShape(g, r.state) && TournamentStep(g, r.state, cs, now)
    ensures var t := g.teams[name];
      && (r.events != [] <==> t.finishTime.None? && unlockAt(cid + 1).None? && t.currentIndex < |cs|)
      && (r.events != [] ==>
            r.events == [if PhotoPending(t, cs, photoGlobal) then PhotoNotice(cs[t.currentIndex].id, ExcludeOf(uid))
                         else ChallengeBroadcast(cs[t.currentIndex].id, ExcludeOf(uid))])
    ensures g.teams[name].finishTime.Some? || unlockAt(cid + 1).Some? ==> r == Broadcast(g, tour, [])
    ensures g.teams[name].finishTime.None? && unlockAt(cid + 1).None? ==>
      r == BroadcastCurrent(g, name, cs, photoGlobal, tour, ExcludeOf(uid), now)
  {
    if g.teams[name].finishTime.None? && unlockAt(cid + 1).None?
    then BroadcastCurrent(g, name, cs, photoGlobal, tour, ExcludeOf(uid), now)
    else Broadcast(g, tour, [])
  }

  /** `send_success_message_if_configured`: the challenge's message, when it has a non-empty one. */
  function SuccessEvents(c: Challenge): (es: seq<Event>)
    ensures es == [] <==> c.successMessage == ""
    ensures es != [] ==> es == [SuccessMessage(c.successMessage)]
  {
    if c.successMessage != "" then [SuccessMessage(c.successMessage)] else []
  }

  /**
   * The store once the items an answer matched are recorded and the store
   * has completed challenge `c`, with the answer as its submission.
   */
  function AnswerCompleted(g: GameState, name: string, cs: seq<Challenge>, c: Challenge, uid: int, answer: string,
                           v: Verdict, now: nat): (r: Update)
    requires name in g.teams
    ensures r.ok <==> c.id !in g.teams[name].completed && c.id == g.teams[name].currentIndex + 1
    ensures name in r.state.teams && OthersUnchanged(g, r.state, name) && SameShape(g, r.state)
    ensures var t, t' := g.teams[name], r.state.teams[name];
      && t'.photoVerified == t.photoVerified && t'.members == t.members
      && (!r.ok ==> SameProgress(t, t'))
      && (r.ok ==>
            && t'.completed == t.completed + [c.id]
            && t'.currentIndex == t.currentIndex + 1
            && (|t'.completed| >= |cs| ==> t'.finishTime == Some(now))
            && (|t'.completed| < |cs| ==> t'.finishTime == t.finishTime)
            && c.id in t'.submissions && t'.submissions[c.id] == Submission(answer, now, uid, c.checklist.Some?))
  {
    var g2 := WithTeam(g, name, RecordChecklist(g.teams[name], c, v));
    var u := CompleteChallenge(g2, name, c.id, |cs|, Some(Submission(answer, now, uid, c.checklist.Some?)), now);
    assert u.state.teams.Keys == g.teams.Keys;
    u
  }

  /**
   * The text-answer branch of `/submit` for challenge `c` once the arguments
   * were joined into `answer` and judged with verdict `v`: record the matched
   * checklist items, and complete the challenge when the answer is correct,
   * followed by the announcements.
   */
  function SubmitAnswer(g: GameState, name: string, cs: seq<Challenge>, c: Challenge, unlockAt: int -> Option<nat>,
                        photoGlobal: bool, tour: Tournaments, uid: int, answer: string, v: Verdict, now: nat): (r: SubmitResult)
    requires name in g.teams
    ensures r.outcome.Completed? || r.outcome.CompletionFailed? || r.outcome.ChecklistPartial? || r.outcome.Incorrect?
    ensures SameShape(g, r.state)
    ensures !r.outcome.Completed? ==>
      && r.events == [] && name in r.state.teams && OthersUnchanged(g, r.state, name)
      && SameProgress(g.teams[name], r.state.teams[name])
    ensures r.outcome.Completed? <==>
      v.correct && c.id !in g.teams[name].completed && c.id == g.teams[name].currentIndex + 1
    ensures r.outcome.Completed? ==>
      var a := AnswerCompleted(g, name, cs, c, uid, answer, v, now);
      var f := FollowUp(a.state, name, cs, c.id, unlockAt, photoGlobal, tour, uid, now);
      && r.outcome.cid == c.id && a.ok
      && r.state == f.state
      && r.events == SuccessEvents(c) + ([CompletionNotice(a.state.teams[name], cs, c.id, unlockAt, photoGlobal)] + f.events)
  {
    if v.correct then
      var a := AnswerCompleted(g, name, cs, c, uid, answer, v, now);
      if a.ok then
        var f := FollowUp(a.state, name, cs, c.id, unlockAt, photoGlobal, tour, uid, now);
        SubmitResult(f.state, Completed(c.id),
                     SuccessEvents(c) + ([CompletionNotice(a.state.teams[name], cs, c.id, unlockAt, photoGlobal)] + f.events))
      else SubmitResult(a.state, CompletionFailed, [])
    else
      var g2 := WithTeam(g, name, RecordChecklist(g.teams[name], c, v));
      if v.partial then SubmitResult(g2, ChecklistPartial(v.matched), []) else SubmitResult(g2, Incorrect, [])
  }

  /** The verdict on a non-empty argument list for the team's current challenge `c`. */
  function Judge(t: Team, c: Challenge, args: seq<string>): Verdict {
    VerifyAnswer(c, Join(args, ' '), Some(ChecklistProgress(t, c.id)))
  }

  /** Dispatch on the current challenge's verification method, photo by default. */
  function SubmitByMethod(g: GameState, name: string, cs: seq<Challenge>, c: Challenge, photoGlobal: bool,
                          unlockAt: int -> Option<nat>, tour: Tournaments, uid: int, args: seq<string>, now: nat): (r: SubmitResult)
    requires name in g.teams
    ensures !EarlyRejection(r.outcome) && !r.outcome.PhotoVerificationRequired?
    ensures SameShape(g, r.state)
    ensures !r.outcome.Completed? ==>
      && r.events == [] && name in r.state.teams && OthersUnchanged(g, r.state, name)
      && SameProgress(g.teams[name], r.state.teams[name])
    ensures c.verifyBy == Some(TournamentMethod) ==> r == SubmitResult(g, TournamentRejected, [])
    ensures r.outcome.Completed? ==>
      c.verifyBy == Some(AnswerMethod) && |args| > 0 && Judge(g.teams[name], c, args).correct
    ensures c.verifyBy == Some(AnswerMethod) && |args| > 0 ==>
      r == SubmitAnswer(g, name, cs, c, unlockAt, photoGlobal, tour, uid, Join(args, ' '), Judge(g.teams[name], c, args), now)
  {
    match c.verifyBy.GetOr(PhotoMethod)
    case AnswerMethod =>
      if |args| == 0 then SubmitResult(g, AnswerPrompt(c.id), [])
      else
        var r := SubmitAnswer(g, name, cs, c, unlockAt, photoGlobal, tour, uid, Join(args, ' '), Judge(g.teams[name], c, args), now);
        r
    case PhotoMethod => SubmitResult(g, PhotoAwaited(c.id), [])
    case TournamentMethod => SubmitResult(g, TournamentRejected, [])
    case _ => SubmitResult(g, ManualReview(c.id), [])
  }

  /** The guards on the team's current challenge, after the unlock check. */
  function SubmitCurrent(g: GameState, name: string, cs: seq<Challenge>, photoGlobal: bool,
                         unlockAt: int -> Option<nat>, tour: Tournaments, uid: int, args: seq<string>, now: nat): (r: SubmitResult)
    requires name in g.teams
    ensures r.outcome == AllCompleted <==> g.teams[name].currentIndex >= |cs|
    ensures !r.outcome.NotStarted? && !r.outcome.GameEnded? && !r.outcome.NotInTeam?
    ensures g.teams[name].currentIndex < |cs| ==>
      && (r.outcome.PenaltyLocked? <==> Locked(g.teams[name], cs, unlockAt, now))
      && (r.outcome.PhotoVerificationRequired? <==>
            !Locked(g.teams[name], cs, unlockAt, now) && PhotoPending(g.teams[name], cs, photoGlobal))
    ensures EarlyRejection(r.outcome) || r.outcome.PhotoVerificationRequired? ==> r.state == g && r.events == []
    ensures SameShape(g, r.state)
    ensures !r.outcome.Completed? ==>
      && r.events == [] && name in r.state.teams && OthersUnchanged(g, r.state, name)
      && SameProgress(g.teams[name], r.state.teams[name])
    ensures r.outcome.Completed? ==>
      var t := g.teams[name];
      && t.currentIndex < |cs| && !Locked(t, cs, unlockAt, now) && !PhotoPending(t, cs, photoGlobal)
    ensures var t := g.teams[name];
      t.currentIndex < |cs| && !Locked(t, cs, unlockAt, now) && !PhotoPending(t, cs, photoGlobal) ==>
        r == SubmitByMethod(g, name, cs, cs[t.currentIndex], photoGlobal, unlockAt, tour, uid, args, now)
  {
    var t := g.teams[name];
    if t.currentIndex >= |cs| then SubmitResult(g, AllCompleted, [])
    else if Locked(t, cs, unlockAt, now) then SubmitResult(g, PenaltyLocked(unlockAt(cs[t.currentIndex].id).value), [])
    else if PhotoPending(t, cs, photoGlobal) then SubmitResult(g, PhotoVerificationRequired(cs[t.currentIndex].id), [])
    else SubmitByMethod(g, name, cs, cs[t.currentIndex], photoGlobal, unlockAt, tour, uid, args, now)
  }

  /**
   * `submit_command`: the game and team guards, the unlock check, then the
   * guards on the current challenge, read from the team as the check left it.
   */
  function Submit(g: GameState, cs: seq<Challenge>, photoGlobal: bool, unlockAt: int -> Option<nat>, tour: Tournaments,
                  uid: int, args: seq<string>, now: nat): (r: SubmitResult)
    ensures r.outcome.NotStarted? || r.outcome.GameEnded? || r.outcome.NotInTeam? ==> r.state == g && r.events == []
    ensures SameShape(g, r.state)
  {
    if !g.started then SubmitResult(g, NotStarted, [])
    else if g.ended then SubmitResult(g, GameEnded, [])
    else match TeamOf(g, uid)
      case None => SubmitResult(g, NotInTeam, [])
      case Some(name) =>
        var u := UnlockCheckAt(g, name, cs, unlockAt, photoGlobal, tour, now);
        var r := SubmitCurrent(u.state, name, cs, photoGlobal, unlockAt, u.tour, uid, args, now);
        r.(events := u.events + r.events)
  }

  /** Past the game and team guards, `/submit` is the unlock check followed by the current-challenge guards. */
  lemma SubmitUnfolds(g: GameState, cs: seq<Challenge>, photoGlobal: bool, unlockAt: int -> Option<nat>, tour: Tournaments,
                      uid: int, args: seq<string>, now: nat)
    requires g.started && !g.ended && TeamOf(g, uid).Some?
    ensures var name := TeamOf(g, uid).value;
      var u := UnlockCheckAt(g, name, cs, unlockAt, photoGlobal, tour, now);
      var r1 := SubmitCurrent(u.state, name, cs, photoGlobal, unlockAt, u.tour, uid, args, now);
      Submit(g, cs, photoGlobal, unlockAt, tour, uid, args, now) == r1.(events := u.events + r1.events)
  {
  }

  /**
   * The guards run in the source's order: game not started, game over, no
   * team, all challenges done, the last read from the team as the unlock
   * check left it; none of them reads the message.
   */
  lemma SubmitGuardOrder(g: GameState, cs: seq<Challenge>, photoGlobal: bool, unlockAt: int -> Option<nat>, tour: Tournaments,
                         uid: int, args: seq<string>, now: nat)
    ensures var r := Submit(g, cs, photoGlobal, unlockAt, tour, uid, args, now);
      && (r.outcome == NotStarted <==> !g.started)
      && (r.outcome == GameEnded <==> g.started && g.ended)
      && (r.outcome == NotInTeam <==> g.started && !g.ended && TeamOf(g, uid).None?)
      && (r.outcome == AllCompleted <==>
            && g.started && !g.ended && TeamOf(g, uid).Some?
            && var name := TeamOf(g, uid).value;
            && UnlockCheckAt(g, name, cs, unlockAt, photoGlobal, tour, now).state.teams[name].currentIndex >= |cs|)
  {
  }

  /**
   * For a team with a current challenge after the unlock check: any unlock
   * broadcast comes first, exactly when it is due; then a running penalty
   * blocks the submission, and then a missing approved photo does. These
   * refusals, and "all done", change nothing beyond the unlock check.
   */
  lemma SubmitPenaltyAndPhotoGates(g: GameState, cs: seq<Challenge>, photoGlobal: bool, unlockAt: int -> Option<nat>,
                                   tour: Tournaments, uid: int, args: seq<string>, now: nat)
    requires g.started && !g.ended && TeamOf(g, uid).Some?
    ensures var r := Submit(g, cs, photoGlobal, unlockAt, tour, uid, args, now);
      var name := TeamOf(g, uid).value;
      var t := g.teams[name];
      var u := UnlockCheckAt(g, name, cs, unlockAt, photoGlobal, tour, now);
      var t1 := u.state.teams[name];
      && (t1.currentIndex < |cs| ==>
            && (r.outcome.PenaltyLocked? <==> Locked(t1, cs, unlockAt, now))
            && (r.outcome.PhotoVerificationRequired? <==> !Locked(t1, cs, unlockAt, now) && PhotoPending(t1, cs, photoGlobal)))
      && (u.events != [] <==> UnlockDue(t, cs, unlockAt, now))
      && |u.events| <= |r.events| && r.events[..|u.events|] == u.events
      && (r.outcome.AllCompleted? || r.outcome.PenaltyLocked? || r.outcome.PhotoVerificationRequired? ==>
            r.state == u.state && r.events == u.events)
  {
    var name := TeamOf(g, uid).value;
    var u := UnlockCheckAt(g, name, cs, unlockAt, photoGlobal, tour, now);
    var r1 := SubmitCurrent(u.state, name, cs, photoGlobal, unlockAt, u.tour, uid, args, now);
    SubmitUnfolds(g, cs, photoGlobal, unlockAt, tour, uid, args, now);
    UnlockEventsWhenDue(g, name, cs, unlockAt, photoGlobal, tour, now);
    assert (u.events + r1.events)[..|u.events|] == u.events;
  }

  /** The unlock check sends a message exactly when the unlock broadcast is due. */
  lemma UnlockEventsWhenDue(g: GameState, name: string, cs: seq<Challenge>, unlockAt: int -> Option<nat>,
                            photoGlobal: bool, tour: Tournaments, now: nat)
    requires name in g.teams
    ensures UnlockCheckAt(g, name, cs, unlockAt, photoGlobal, tour, now).events != [] <==> UnlockDue(g.teams[name], cs, unlockAt, now)
  {
    if UnlockDue(g.teams[name], cs, unlockAt, now) {
      var b := BroadcastCurrent(g, name, cs, photoGlobal, tour, None, now);
      assert b.events != [];
    }
  }

  /**
   * Only a correct text answer completes a challenge as the reply to
   * `/submit`: the team's current challenge, as the unlock check left it,
   * unlocked, with its photo approved and verified by answer.
   */
  lemma SubmitCompletesOnlyCorrectAnswers(g: GameState, cs: seq<Challenge>, photoGlobal: bool, unlockAt: int -> Option<nat>,
                                          tour: Tournaments, uid: int, args: seq<string>, now: nat)
    ensures var r := Submit(g, cs, photoGlobal, unlockAt, tour, uid, args, now);
      r.outcome.Completed? ==>
        && g.started && !g.ended && TeamOf(g, uid).Some?
        && var name := TeamOf(g, uid).value;
        && var t1 := UnlockCheckAt(g, name, cs, unlockAt, photoGlobal, tour, now).state.teams[name];
        && t1.currentIndex < |cs|
        && var c := cs[t1.currentIndex];
        && r.outcome.cid == c.id
        && !Locked(t1, cs, unlockAt, now) && !PhotoPending(t1, cs, photoGlobal)
        && c.verifyBy == Some(AnswerMethod) && |args| > 0
        && Judge(t1, c, args).correct
  {
    var r := Submit(g, cs, photoGlobal, unlockAt, tour, uid, args, now);
    if r.outcome.Completed? {
      var name := TeamOf(g, uid).value;
      SubmitUnfolds(g, cs, photoGlobal, unlockAt, tour, uid, args, now);
      var u := UnlockCheckAt(g, name, cs, unlockAt, photoGlobal, tour, now);
      var t1 := u.state.teams[name];
      var c := cs[t1.currentIndex];
      var r2 := SubmitByMethod(u.state, name, cs, c, photoGlobal, unlockAt, u.tour, uid, args, now);
      assert r2.outcome == r.outcome;
      if c.verifyBy == Some(AnswerMethod) && |args| > 0 {
        var r3 := SubmitAnswer(u.state, name, cs, c, unlockAt, photoGlobal, u.tour, uid, Join(args, ' '), Judge(t1, c, args), now);
        assert r3.outcome == r.outcome;
      }
    }
  }

  /**
   * A team on a tournament challenge never completes it by submitting: the
   * reply is a completion only when the unlock check has just credited the
   * team with that tournament, and while the team is still on it and neither
   * a penalty nor a photo blocks it, the submission is refused.
   */
  lemma TournamentNeverSubmitted(g: GameState, cs: seq<Challenge>, photoGlobal: bool, unlockAt: int -> Option<nat>,
                                 tour: Tournaments, uid: int, args: seq<string>, now: nat)
    requires TeamOf(g, uid).Some? && g.teams[TeamOf(g, uid).value].currentIndex < |cs|
    requires cs[g.teams[TeamOf(g, uid).value].currentIndex].verifyBy == Some(TournamentMethod)
    ensures var r := Submit(g, cs, photoGlobal, unlockAt, tour, uid, args, now);
      var name := TeamOf(g, uid).value;
      var t := g.teams[name];
      var t1 := UnlockCheckAt(g, name, cs, unlockAt, photoGlobal, tour, now).state.teams[name];
      && (r.outcome.Completed? ==> UnlockDue(t, cs, unlockAt, now) && AutoWinner(g, name, cs, photoGlobal, tour) == Some(name))
      && ((&& g.started && !g.ended && t1.currentIndex == t.currentIndex
           && !Locked(t, cs, unlockAt, now) && !PhotoPending(t, cs, photoGlobal)) ==> r.outcome == TournamentRejected)
  {
    var name := TeamOf(g, uid).value;
    var r := Submit(g, cs, photoGlobal, unlockAt, tour, uid, args, now);
    UnlockCheckKeepsGuards(g, name, cs, unlockAt, photoGlobal, tour, args, now);
    SubmitCompletesOnlyCorrectAnswers(g, cs, photoGlobal, unlockAt, tour, uid, args, now);
    if g.started && !g.ended {
      SubmitUnfolds(g, cs, photoGlobal, unlockAt, tour, uid, args, now);
    }
  }

  /**
   * `t'` is `t` advanced past its current challenge `cid`, with the submission
   * of `answer` stored under that id.
   */
  ghost predicate Advanced(t: Team, t': Team, cs: seq<Challenge>, cid: int, answer: string, uid: int, now: nat) {
    && t.currentIndex < |cs|
    && cid == cs[t.currentIndex].id
    && cid == t.currentIndex + 1
    && t'.completed == t.completed + [cid]
    && t'.currentIndex == t.currentIndex + 1
    && (|t'.completed| >= |cs| ==> t'.finishTime == Some(now))
    && (|t'.completed| < |cs| ==> t'.finishTime == t.finishTime)
    && cid in t'.submissions
    && t'.submissions[cid] == Submission(answer, now, uid, cs[t.currentIndex].checklist.Some?)
  }

  /** The completion lemma below, for the guards on the current challenge alone. */
  lemma CurrentCompletionRecorded(g: GameState, name: string, cs: seq<Challenge>, photoGlobal: bool,
                                  unlockAt: int -> Option<nat>, tour: Tournaments, uid: int, args: seq<string>, now: nat)
    requires name in g.teams
    ensures var r := SubmitCurrent(g, name, cs, photoGlobal, unlockAt, tour, uid, args, now);
      r.outcome.Completed? ==>
        && var t := g.teams[name];
        && t.currentIndex < |cs|
        && var c := cs[t.currentIndex];
        && var a := AnswerCompleted(g, name, cs, c, uid, Join(args, ' '), Judge(t, c, args), now);
        && a.ok
        && Advanced(t, a.state.teams[name], cs, r.outcome.cid, Join(args, ' '), uid, now)
        && OthersUnchanged(g, a.state, name)
        && var f := FollowUp(a.state, name, cs, c.id, unlockAt, photoGlobal, tour, uid, now);
        && r.state == f.state
        && r.events == SuccessEvents(c) + ([CompletionNotice(a.state.teams[name], cs, c.id, unlockAt, photoGlobal)] + f.events)
  {
    var r := SubmitCurrent(g, name, cs, photoGlobal, unlockAt, tour, uid, args, now);
    if r.outcome.Completed? {
      var t := g.teams[name];
      var c := cs[t.currentIndex];
      var r2 := SubmitAnswer(g, name, cs, c, unlockAt, photoGlobal, tour, uid, Join(args, ' '), Judge(t, c, args), now);
      assert r == r2;
    }
  }

  /**
   * A completion advances the team, as the unlock check left it, by exactly
   * its current challenge, whose id is pointer + 1, and stores the joined
   * answer; it is announced by any unlock broadcast first, then the
   * challenge's own success message when it has one, then the completion
   * notice, then the broadcast of the next challenge when nothing delays it.
   */
  lemma SubmitCompletionRecorded(g: GameState, cs: seq<Challenge>, photoGlobal: bool, unlockAt: int -> Option<nat>,
                                 tour: Tournaments, uid: int, args: seq<string>, now: nat)
    ensures var r := Submit(g, cs, photoGlobal, unlockAt, tour, uid, args, now);
      r.outcome.Completed? ==>
        && g.started && !g.ended && TeamOf(g, uid).Some?
        && var name := TeamOf(g, uid).value;
        && var u := UnlockCheckAt(g, name, cs, unlockAt, photoGlobal, tour, now);
        && var t1 := u.state.teams[name];
        && t1.currentIndex < |cs|
        && var c := cs[t1.currentIndex];
        && var a := AnswerCompleted(u.state, name, cs, c, uid, Join(args, ' '), Judge(t1, c, args), now);
        && a.ok
        && Advanced(t1, a.state.teams[name], cs, r.outcome.cid, Join(args, ' '), uid, now)
        && OthersUnchanged(u.state, a.state, name)
        && var f := FollowUp(a.state, name, cs, c.id, unlockAt, photoGlobal, u.tour, uid, now);
        && r.state == f.state
        && r.events == u.events + (SuccessEvents(c) + ([CompletionNotice(a.state.teams[name], cs, c.id, unlockAt, photoGlobal)] + f.events))
  {
    var r := Submit(g, cs, photoGlobal, unlockAt, tour, uid, args, now);
    if r.outcome.Completed? {
      var name := TeamOf(g, uid).value;
      var u := UnlockCheckAt(g, name, cs, unlockAt, photoGlobal, tour, now);
      SubmitUnfolds(g, cs, photoGlobal, unlockAt, tour, uid, args, now);
      CurrentCompletionRecorded(u.state, name, cs, photoGlobal, unlockAt, u.tour, uid, args, now);
    }
  }

  /**
   * Every reply other than a completion makes no progress beyond a
   * tournament the unlock check may credit to one team; a refusal that sent
   * no broadcast leaves every team's progress as it was.
   */
  lemma SubmitRefusalKeepsProgress(g: GameState, cs: seq<Challenge>, photoGlobal: bool, unlockAt: int -> Option<nat>,
                                   tour: Tournaments, uid: int, args: seq<string>, now: nat)
    ensures var r := Submit(g, cs, photoGlobal, unlockAt, tour, uid, args, now);
      && (!r.outcome.Completed? ==> TournamentStep(g, r.state, cs, now))
      && (!r.outcome.Completed? && r.events == [] ==> KeepsProgress(g, r.state))
  {
    var r := Submit(g, cs, photoGlobal, unlockAt, tour, uid, args, now);
    if !r.outcome.Completed? && g.started && !g.ended && TeamOf(g, uid).Some? {
      var name := TeamOf(g, uid).value;
      var u := UnlockCheckAt(g, name, cs, unlockAt, photoGlobal, tour, now);
      SubmitUnfolds(g, cs, photoGlobal, unlockAt, tour, uid, args, now);
      var r1 := SubmitCurrent(u.state, name, cs, photoGlobal, unlockAt, u.tour, uid, args, now);
      assert KeepsProgress(u.state, r.state) by {
        forall n | n in u.state.teams ensures SameProgress(u.state.teams[n], r.state.teams[n]) {
          if n != name {
            assert r.state.teams[n] == u.state.teams[n];
          }
        }
      }
      KeepThenStep(g, u.state, r.state, cs, now);
      if r.events == [] {
        assert u.state == g;
      }
    }
  }

  /**
   * `/submit` goes through at most three changes of progress: a tournament
   * the unlock check may credit, the completion of the sender's current
   * challenge, and a tournament the broadcast of the next challenge may credit.
   */
  ghost predicate SubmitSteps(g: GameState, g': GameState, name: string, cs: seq<Challenge>, now: nat) {
    exists g1, g2 :: && TournamentStep(g, g1, cs, now)
                     && AdvancesOne(g1, g2, name, |cs|, now) && g1.teams[name].currentIndex < |cs|
                     && TournamentStep(g2, g', cs, now)
  }

  /**
   * The effect of `/submit` on progress: a refusal credits at most one
   * tournament; a completion advances the sender's team by one challenge
   * between at most two tournament credits.
   */
  lemma SubmitEffect(g: GameState, cs: seq<Challenge>, photoGlobal: bool, unlockAt: int -> Option<nat>,
                     tour: Tournaments, uid: int, args: seq<string>, now: nat)
    ensures var r := Submit(g, cs, photoGlobal, unlockAt, tour, uid, args, now);
      && (!r.outcome.Completed? ==> TournamentStep(g, r.state, cs, now))
      && (r.outcome.Completed? ==> TeamOf(g, uid).Some? && SubmitSteps(g, r.state, TeamOf(g, uid).value, cs, now))
  {
    SubmitRefusalKeepsProgress(g, cs, photoGlobal, unlockAt, tour, uid, args, now);
    SubmitCompletionRecorded(g, cs, photoGlobal, unlockAt, tour, uid, args, now);
    var r := Submit(g, cs, photoGlobal, unlockAt, tour, uid, args, now);
    if r.outcome.Completed? {
      var name := TeamOf(g, uid).value;
      var u := UnlockCheckAt(g, name, cs, unlockAt, photoGlobal, tour, now);
      var t1 := u.state.teams[name];
      var c := cs[t1.currentIndex];
      var a := AnswerCompleted(u.state, name, cs, c, uid, Join(args, ' '), Judge(t1, c, args), now);
      AdvancedAdvancesOne(u.state, a.state, name, cs, r.outcome.cid, Join(args, ' '), uid, now);
      var f := FollowUp(a.state, name, cs, c.id, unlockAt, photoGlobal, u.tour, uid, now);
      assert TournamentStep(a.state, r.state, cs, now);
    }
  }

  /** A store in which one team advanced and no other team changed advances that team by one. */
  lemma AdvancedAdvancesOne(g: GameState, g': GameState, name: string, cs: seq<Challenge>, cid: int,
                            answer: string, uid: int, now: nat)
    requires name in g.teams && name in g'.teams && SameShape(g, g') && OthersUnchanged(g, g', name)
    requires Advanced(g.teams[name], g'.teams[name], cs, cid, answer, uid, now)
    ensures AdvancesOne(g, g', name, |cs|, now) && g.teams[name].currentIndex < |cs|
  {
  }

  /**
   * A submission that passes every guard on a text-answer challenge is judged
   * on the space-joined arguments, against the team's recorded checklist.
   */
  lemma SubmitReachesAnswer(g: GameState, cs: seq<Challenge>, photoGlobal: bool, unlockAt: int -> Option<nat>,
                            tour: Tournaments, uid: int, args: seq<string>, now: nat)
    requires g.started && !g.ended && TeamOf(g, uid).Some?
    requires var t := g.teams[TeamOf(g, uid).value];
      && t.currentIndex < |cs|
      && !Locked(t, cs, unlockAt, now) && !PhotoPending(t, cs, photoGlobal)
      && cs[t.currentIndex].verifyBy == Some(AnswerMethod) && |args| > 0
    ensures var name := TeamOf(g, uid).value;
      var t := g.teams[name];
      var c := cs[t.currentIndex];
      var u := UnlockCheckAt(g, name, cs, unlockAt, photoGlobal, tour, now);
      var r := Submit(g, cs, photoGlobal, unlockAt, tour, uid, args, now);
      var r2 := SubmitAnswer(u.state, name, cs, c, unlockAt, photoGlobal, u.tour, uid, Join(args, ' '), Judge(t, c, args), now);
      r.outcome == r2.outcome && r.state == r2.state
  {
    var name := TeamOf(g, uid).value;
    var t := g.teams[name];
    var u := UnlockCheckAt(g, name, cs, unlockAt, photoGlobal, tour, now);
    var t1 := u.state.teams[name];
    var c := cs[t.currentIndex];
    UnlockCheckKeepsGuards(g, name, cs, unlockAt, photoGlobal, tour, args, now);
    SubmitUnfolds(g, cs, photoGlobal, unlockAt, tour, uid, args, now);
    assert SameProgress(t, t1);
    var r1 := SubmitCurrent(u.state, name, cs, photoGlobal, unlockAt, u.tour, uid, args, now);
    assert r1 == SubmitAnswer(u.state, name, cs, c, unlockAt, photoGlobal, u.tour, uid, Join(args, ' '), Judge(t1, c, args), now);
  }

  /**
   * On a store whose teams' pointers match their completions and whose
   * challenge ids are 1, 2, ..., a correct answer to an unlocked, verified
   * current challenge always completes it: the store's refusal is unreachable.
   */
  lemma CorrectAnswerCompletes(g: GameState, cs: seq<Challenge>, photoGlobal: bool, unlockAt: int -> Option<nat>,
                               tour: Tournaments, uid: int, args: seq<string>, now: nat)
    requires g.started && !g.ended && TeamOf(g, uid).Some?
    requires AllProgressed(g) && ContiguousIds(cs)
    requires var t := g.teams[TeamOf(g, uid).value];
      && t.currentIndex < |cs|
      && !Locked(t, cs, unlockAt, now) && !PhotoPending(t, cs, photoGlobal)
      && cs[t.currentIndex].verifyBy == Some(AnswerMethod) && |args| > 0
      && Judge(t, cs[t.currentIndex], args).correct
    ensures var t := g.teams[TeamOf(g, uid).value];
      Submit(g, cs, photoGlobal, unlockAt, tour, uid, args, now).outcome == Completed(cs[t.currentIndex].id)
  {
    SubmitReachesAnswer(g, cs, photoGlobal, unlockAt, tour, uid, args, now);
    UnlockCheckKeepsGuards(g, TeamOf(g, uid).value, cs, unlockAt, photoGlobal, tour, args, now);
    var name := TeamOf(g, uid).value;
    var t := g.teams[name];
    var c := cs[t.currentIndex];
    assert Progressed(t);
    assert c.id !in t.completed by {
      forall i | 0 <= i < |t.completed| ensures t.completed[i] != c.id {
        assert t.completed[i] == i + 1;
      }
    }
  }

  // ---------------------------------------------------------------------------
  // Consistency of progress across /submit
  // ---------------------------------------------------------------------------

  /** A team's progress is consistent with a challenge list of `total` challenges. */
  ghost predicate ConsistentTeams(g: GameState, total: nat) {
    forall n :: n in g.teams ==> Progressed(g.teams[n]) && FinishConsistent(g.teams[n], total)
  }

  /** Every finish time set in `g` is still there, unchanged, in `g'`. */
  ghost predicate FinishTimesKept(g: GameState, g': GameState) {
    forall n :: n in g.teams && g.teams[n].finishTime.Some? ==>
      n in g'.teams && g'.teams[n].finishTime == g.teams[n].finishTime
  }

  /** One completion of the current challenge keeps a team's progress consistent. */
  lemma CompletionKeepsTeamConsistent(t: Team, t': Team, total: nat, now: nat)
    requires Progressed(t) && FinishConsistent(t, total) && t.currentIndex < total
    requires t'.completed == t.completed + [t.currentIndex + 1] && t'.currentIndex == t.currentIndex + 1
    requires |t'.completed| >= total ==> t'.finishTime == Some(now)
    requires |t'.completed| < total ==> t'.finishTime == t.finishTime
    ensures Progressed(t') && FinishConsistent(t', total) && t.finishTime.None?
  {
  }

  /** A change that keeps every team's progress keeps the store consistent and every finish time. */
  lemma ProgressKeptConsistent(g: GameState, g': GameState, total: nat)
    requires ConsistentTeams(g, total) && KeepsProgress(g, g')
    ensures ConsistentTeams(g', total) && FinishTimesKept(g, g')
  {
    forall n | n in g'.teams ensures Progressed(g'.teams[n]) && FinishConsistent(g'.teams[n], total) {
      assert SameProgress(g.teams[n], g'.teams[n]);
    }
    forall n | n in g.teams && g.teams[n].finishTime.Some?
      ensures n in g'.teams && g'.teams[n].finishTime == g.teams[n].finishTime
    {
      assert SameProgress(g.teams[n], g'.teams[n]);
    }
  }

  /**
   * A change that moves one team past a current challenge within the list
   * keeps the store consistent, and happens only to a team without a finish
   * time, so no finish time moves.
   */
  lemma AdvanceKeptConsistent(g: GameState, g': GameState, name: string, total: nat, now: nat)
    requires ConsistentTeams(g, total) && AdvancesOne(g, g', name, total, now) && g.teams[name].currentIndex < total
    ensures ConsistentTeams(g', total) && FinishTimesKept(g, g')
  {
    CompletionKeepsTeamConsistent(g.teams[name], g'.teams[name], total, now);
    forall n | n in g'.teams ensures Progressed(g'.teams[n]) && FinishConsistent(g'.teams[n], total) {
      if n != name {
        assert SameProgress(g.teams[n], g'.teams[n]);
      }
    }
    forall n | n in g.teams && g.teams[n].finishTime.Some?
      ensures n in g'.teams && g'.teams[n].finishTime == g.teams[n].finishTime
    {
      if n != name {
        assert SameProgress(g.teams[n], g'.teams[n]);
      }
    }
  }

  /**
   * With challenge ids 1, 2, ..., a tournament credit goes only to a team
   * that is on the tournament challenge, so it keeps the store consistent
   * and moves no finish time.
   */
  lemma TournamentStepKeptConsistent(g: GameState, g': GameState, cs: seq<Challenge>, now: nat)
    requires ConsistentTeams(g, |cs|) && ContiguousIds(cs) && TournamentStep(g, g', cs, now)
    ensures ConsistentTeams(g', |cs|) && FinishTimesKept(g, g')
  {
    if KeepsProgress(g, g') {
      ProgressKeptConsistent(g, g', |cs|);
    } else {
      var w, k :| TournamentWin(g, g', w, k, cs, now);
      AdvanceKeptConsistent(g, g', w, |cs|, now);
    }
  }

  lemma FinishTimesKeptTrans(g1: GameState, g2: GameState, g3: GameState)
    requires FinishTimesKept(g1, g2) && FinishTimesKept(g2, g3)
    ensures FinishTimesKept(g1, g3)
  {
  }

  /** The changes `/submit` makes to progress keep the store consistent and move no finish time. */
  lemma SubmitStepsConsistent(g: GameState, g': GameState, name: string, cs: seq<Challenge>, now: nat)
    requires ConsistentTeams(g, |cs|) && ContiguousIds(cs) && SubmitSteps(g, g', name, cs, now)
    ensures ConsistentTeams(g', |cs|) && FinishTimesKept(g, g')
  {
    var g1, g2 :| && TournamentStep(g, g1, cs, now)
                  && AdvancesOne(g1, g2, name, |cs|, now) && g1.teams[name].currentIndex < |cs|
                  && TournamentStep(g2, g', cs, now);
    TournamentStepKeptConsistent(g, g1, cs, now);
    AdvanceKeptConsistent(g1, g2, name, |cs|, now);
    TournamentStepKeptConsistent(g2, g', cs, now);
    FinishTimesKeptTrans(g, g1, g2);
    FinishTimesKeptTrans(g, g2, g');
  }

  /** `/submit` never adds, removes or reorders teams. */
  lemma SubmitKeepsOrder(g: GameState, cs: seq<Challenge>, photoGlobal: bool, unlockAt: int -> Option<nat>,
                         tour: Tournaments, uid: int, args: seq<string>, now: nat)
    requires WellOrdered(g)
    ensures WellOrdered(Submit(g, cs, photoGlobal, unlockAt, tour, uid, args, now).state)
  {
  }

  /**
   * With challenge ids 1, 2, ..., `/submit` keeps every pointer matching its
   * team's completions and every finish time consistent with the number of
   * challenges.
   */
  lemma SubmitPreservesConsistency(g: GameState, cs: seq<Challenge>, photoGlobal: bool, unlockAt: int -> Option<nat>,
                                   tour: Tournaments, uid: int, args: seq<string>, now: nat)
    requires ConsistentTeams(g, |cs|) && ContiguousIds(cs)
    ensures ConsistentTeams(Submit(g, cs, photoGlobal, unlockAt, tour, uid, args, now).state, |cs|)
  {
    var r := Submit(g, cs, photoGlobal, unlockAt, tour, uid, args, now);
    SubmitEffect(g, cs, photoGlobal, unlockAt, tour, uid, args, now);
    if r.outcome.Completed? {
      SubmitStepsConsistent(g, r.state, TeamOf(g, uid).value, cs, now);
    } else {
      TournamentStepKeptConsistent(g, r.state, cs, now);
    }
  }

  /** On a consistent store with ids 1, 2, ..., `/submit` never moves a finish time once it is set. */
  lemma SubmitNeverMovesFinishTime(g: GameState, cs: seq<Challenge>, photoGlobal: bool, unlockAt: int -> Option<nat>,
                                   tour: Tournaments, uid: int, args: seq<string>, now: nat)
    requires ConsistentTeams(g, |cs|) && ContiguousIds(cs)
    ensures FinishTimesKept(g, Submit(g, cs, photoGlobal, unlockAt, tour, uid, args, now).state)
  {
    var r := Submit(g, cs, photoGlobal, unlockAt, tour, uid, args, now);
    SubmitEffect(g, cs, photoGlobal, unlockAt, tour, uid, args, now);
    if r.outcome.Completed? {
      SubmitStepsConsistent(g, r.state, TeamOf(g, uid).value, cs, now);
    } else {
      TournamentStepKeptConsistent(g, r.state, cs, now);
    }
  }
}

=== FILE: leaderboard.dfy ===
/**
 * `get_leaderboard`: the teams sorted by Python's stable `sorted` under the
 * key `(0, finish_time)` for finished teams and `(1, -completed)` for the
 * rest, ties keeping dictionary insertion order.
 */
module Leaderboard {
  import opened Wrappers
  import opened Teams

  /** One leaderboard row: team name, completed count, finish time. */
  datatype Entry = Entry(name: string, completedCount: nat, finishTime: Option<nat>)

  /** First component of the sort key: finished teams come first. */
  function Rank(e: Entry): nat {
    if e.finishTime.Some? then 0 else 1
  }

  /** Second component of the sort key: earlier finish, or more completions, is smaller. */
  function Score(e: Entry): int {
    if e.finishTime.Some? then e.finishTime.value else -(e.completedCount as int)
  }

  predicate KeyLe(a: Entry, b: Entry) {
    Rank(a) < Rank(b) || (Rank(a) == Rank(b) && Score(a) <= Score(b))
  }

  predicate Sorted(l: seq<Entry>) {
    forall i, j :: 0 <= i < j < |l| ==> KeyLe(l[i], l[j])
  }

  /** Appending an entry no smaller than every entry keeps a list sorted. */
  lemma SortedAppend(l: seq<Entry>, y: Entry)
    requires Sorted(l) && forall e :: e in l ==> KeyLe(e, y)
    ensures Sorted(l + [y])
  {
    var r := l + [y];
    forall i, j | 0 <= i < j < |r| ensures KeyLe(r[i], r[j]) {
      assert r[i] == l[i];
      if j == |l| {
        assert l[i] in l;
      } else {
        assert r[j] == l[j];
      }
    }
  }

  /** Every element of a permutation of `l` plus `x` is bounded when those are. */
  lemma BoundedPermutation(r: seq<Entry>, l: seq<Entry>, x: Entry, y: Entry)
    requires multiset(r) == multiset(l) + multiset{x}
    requires KeyLe(x, y) && forall e :: e in l ==> KeyLe(e, y)
    ensures forall e :: e in r ==> KeyLe(e, y)
  {
    forall e | e in r ensures KeyLe(e, y) {
      assert e in multiset(r);
      if e != x {
        assert e in multiset(l);
      }
    }
  }

  /** Inserts `x` after every entry whose key is not greater, which keeps the sort stable. */
  function Insert(x: Entry, l: seq<Entry>): (r: seq<Entry>)
    requires Sorted(l)
    ensures Sorted(r)
    ensures multiset(r) == multiset(l) + multiset{x}
    decreases |l|
  {
    if |l| == 0 then [x]
    else if KeyLe(l[|l| - 1], x) then
      SortedAppendAll(l, x);
      l + [x]
    else
      var init, last := l[..|l| - 1], l[|l| - 1];
      assert l == init + [last];
      SortedPrefix(l, init, last);
      var r' := Insert(x, init);
      BoundedPermutation(r', init, x, last);
      SortedAppend(r', last);
      r' + [last]
  }

  /** Every entry of a sorted list is at most its last, and so at most anything above the last. */
  lemma SortedAppendAll(l: seq<Entry>, y: Entry)
    requires Sorted(l) && |l| > 0 && KeyLe(l[|l| - 1], y)
    ensures Sorted(l + [y])
  {
    forall e | e in l ensures KeyLe(e, y) {
      var k :| 0 <= k < |l| && l[k] == e;
      if k < |l| - 1 {
        assert KeyLe(l[k], l[|l| - 1]);
      }
    }
    SortedAppend(l, y);
  }

  /** Dropping the last entry of a sorted list keeps it sorted, and bounded by that entry. */
  lemma SortedPrefix(l: seq<Entry>, init: seq<Entry>, last: Entry)
    requires Sorted(l) && l == init + [last]
    ensures Sorted(init)
    ensures forall e :: e in init ==> KeyLe(e, last)
  {
    forall e | e in init ensures KeyLe(e, last) {
      var k :| 0 <= k < |init| && init[k] == e;
      assert l[k] == e && l[|init|] == last;
    }
    forall i, j | 0 <= i < j < |init| ensures KeyLe(init[i], init[j]) {
      assert init[i] == l[i] && init[j] == l[j];
    }
  }

  /** Insertion sort, taking the entries in their given order. */
  function SortEntries(s: seq<Entry>): (r: seq<Entry>)
    ensures Sorted(r)
    ensures multiset(r) == multiset(s)
    ensures |r| == |s|
    decreases |s|
  {
    if |s| == 0 then []
    else
      assert s == s[..|s| - 1] + [s[|s| - 1]];
      var r := Insert(s[|s| - 1], SortEntries(s[..|s| - 1]));
      assert |r| == |multiset(r)|;
      r
  }

  function EntryFor(t: Team, name: string): Entry {
    Entry(name, |t.completed|, t.finishTime)
  }

  /** The rows in dictionary order, before sorting. */
  function Entries(teams: map<string, Team>, order: seq<string>): (r: seq<Entry>)
    ensures forall e :: e in r ==> e.name in teams && e == EntryFor(teams[e.name], e.name)
    ensures forall n :: n in order && n in teams ==> EntryFor(teams[n], n) in r
    ensures (forall n :: n in order ==> n in teams) ==> |r| == |order|
  {
    if |order| == 0 then []
    else
      var rest := Entries(teams, order[1..]);
      if order[0] in teams then [EntryFor(teams[order[0]], order[0])] + rest else rest
  }

  /**
   * The leaderboard lists every team once; finished teams come before
   * unfinished ones, finished teams by ascending finish time, unfinished teams
   * by descending number of completed challenges.
   */
  function GetLeaderboard(g: GameState): (r: seq<Entry>)
    ensures forall e :: e in r ==> e.name in g.teams && e == EntryFor(g.teams[e.name], e.name)
    ensures WellOrdered(g) ==> |r| == |g.order| && forall n :: n in g.teams ==> EntryFor(g.teams[n], n) in r
    ensures forall i, j :: 0 <= i < j < |r| && r[j].finishTime.Some? ==> r[i].finishTime.Some?
    ensures forall i, j :: 0 <= i < j < |r| && r[i].finishTime.Some? && r[j].finishTime.Some? ==>
              r[i].finishTime.value <= r[j].finishTime.value
    ensures forall i, j :: 0 <= i < j < |r| && r[i].finishTime.None? && r[j].finishTime.None? ==>
              r[i].completedCount >= r[j].completedCount
  {
    var s := Entries(g.teams, g.order);
    var r := SortEntries(s);
    SameElements(r, s);
    SortedOrder(r);
    r
  }

  lemma SameElements(r: seq<Entry>, s: seq<Entry>)
    requires multiset(r) == multiset(s)
    ensures forall e :: e in r <==> e in s
  {
    forall e ensures e in r <==> e in s {
      assert e in r <==> e in multiset(r);
      assert e in s <==> e in multiset(s);
    }
  }

  /** What the sort key means for a sorted leaderboard. */
  lemma SortedOrder(r: seq<Entry>)
    requires Sorted(r)
    ensures forall i, j :: 0 <= i < j < |r| && r[j].finishTime.Some? ==> r[i].finishTime.Some?
    ensures forall i, j :: 0 <= i < j < |r| && r[i].finishTime.Some? && r[j].finishTime.Some? ==>
              r[i].finishTime.value <= r[j].finishTime.value
    ensures forall i, j :: 0 <= i < j < |r| && r[i].finishTime.None? && r[j].finishTime.None? ==>
              r[i].completedCount >= r[j].completedCount
  {
  }

  // ---------------------------------------------------------------------------
  // Stability
  // ---------------------------------------------------------------------------

  predicate HasKey(e: Entry, rank: nat, score: int) {
    Rank(e) == rank && Score(e) == score
  }

  /** The entries with sort key `(rank, score)`, in their order. */
  function WithKey(l: seq<Entry>, rank: nat, score: int): seq<Entry> {
    if |l| == 0 then []
    else (if HasKey(l[0], rank, score) then [l[0]] else []) + WithKey(l[1..], rank, score)
  }

  lemma {:induction false} WithKeyAppend(a: seq<Entry>, b: seq<Entry>, rank: nat, score: int)
    ensures WithKey(a + b, rank, score) == WithKey(a, rank, score) + WithKey(b, rank, score)
    decreases |a|
  {
    if |a| > 0 {
      assert (a + b)[1..] == a[1..] + b;
      WithKeyAppend(a[1..], b, rank, score);
    } else {
      assert a + b == b;
    }
  }

  lemma {:induction false} InsertStable(x: Entry, l: seq<Entry>, rank: nat, score: int)
    requires Sorted(l)
    ensures WithKey(Insert(x, l), rank, score) ==
            WithKey(l, rank, score) + (if HasKey(x, rank, score) then [x] else [])
    decreases |l|
  {
    if |l| == 0 {
    } else if KeyLe(l[|l| - 1], x) {
      WithKeyAppend(l, [x], rank, score);
    } else {
      var init, last := l[..|l| - 1], l[|l| - 1];
      assert l == init + [last];
      SortedPrefix(l, init, last);
      assert Insert(x, l) == Insert(x, init) + [last];
      InsertStable(x, init, rank, score);
      WithKeyAppend(Insert(x, init), [last], rank, score);
      WithKeyAppend(init, [last], rank, score);
      assert HasKey(x, rank, score) ==> !HasKey(last, rank, score);
    }
  }

  /**
   * The sort is stable: for every key, the entries with that key appear in
   * the same relative order as in the input.
   */
  lemma {:induction false} SortEntriesStable(s: seq<Entry>, rank: nat, score: int)
    ensures WithKey(SortEntries(s), rank, score) == WithKey(s, rank, score)
    decreases |s|
  {
    if |s| > 0 {
      var init, last := s[..|s| - 1], s[|s| - 1];
      assert s == init + [last];
      assert SortEntries(s) == Insert(last, SortEntries(init));
      SortEntriesStable(init, rank, score);
      InsertStable(last, SortEntries(init), rank, score);
      WithKeyAppend(init, [last], rank, score);
    }
  }

  /** Teams with equal keys keep their dictionary order on the leaderboard. */
  lemma LeaderboardTiesKeepOrder(g: GameState, rank: nat, score: int)
    ensures WithKey(GetLeaderboard(g), rank, score) == WithKey(Entries(g.teams, g.order), rank, score)
  {
    SortEntriesStable(Entries(g.teams, g.order), rank, score);
  }
}

=== FILE: media.dfy ===
/**
 * The image URL check of `bot.py` (`validate_image_url`), which decides
 * whether a challenge image given by URL may be sent.
 */
module Media {
  import opened Text

  /** The extensions that mark a URL as an image. */
  const ImageExtensions: seq<string> := [".jpg", ".jpeg", ".png", ".gif", ".webp"]

  /** Hosts whose URLs are accepted without an image extension. */
  const TrustedDomains: seq<string> := ["imgur.com", "i.imgur.com", "example.com"]

  predicate StartsWith(s: string, prefix: string) {
    |prefix| <= |s| && s[..|prefix|] == prefix
  }

  predicate EndsWith(s: string, suffix: string) {
    |suffix| <= |s| && s[|s| - |suffix|..] == suffix
  }

  /** Some string of `needles` occurs in `s`. */
  ghost predicate ContainsSome(s: string, needles: seq<string>) {
    exists i :: 0 <= i < |needles| && OccursIn(needles[i], s)
  }

  /** `any(n in s for n in needles)`, scanning the needles in order. */
  function AnyIn(needles: seq<string>, s: string): (r: bool)
    ensures r <==> ContainsSome(s, needles)
  {
    if |needles| == 0 then false
    else
      AnyInSplit(needles, s);
      Contains(s, needles[0]) || AnyIn(needles[1..], s)
  }

  lemma AnyInSplit(needles: seq<string>, s: string)
    requires |needles| > 0
    ensures ContainsSome(s, needles) <==> Contains(s, needles[0]) || ContainsSome(s, needles[1..])
  {
    ContainsMeansOccurs(s, needles[0]);
    if ContainsSome(s, needles[1..]) {
      var k :| 0 <= k < |needles[1..]| && OccursIn(needles[1..][k], s);
      assert needles[1..][k] == needles[k + 1];
    }
    if ContainsSome(s, needles) && !OccursIn(needles[0], s) {
      var k :| 0 <= k < |needles| && OccursIn(needles[k], s);
      assert needles[1..][k - 1] == needles[k];
    }
  }

  /** `any(s.endswith(n) for n in needles)`. */
  function AnyEndsWith(needles: seq<string>, s: string): (r: bool)
    ensures r <==> exists i :: 0 <= i < |needles| && EndsWith(s, needles[i])
  {
    if |needles| == 0 then false
    else
      assert forall i :: 1 <= i < |needles| ==> needles[i] == needles[1..][i - 1];
      EndsWith(s, needles[0]) || AnyEndsWith(needles[1..], s)
  }

  /**
   * `validate_image_url`: only `https://` URLs, and of those the ones that
   * mention a trusted host, end in an image extension, or carry one anywhere
   * (before a query string, say).
   */
  function ValidateImageUrl(url: string): (r: bool)
    ensures r ==> StartsWith(url, "https://")
  {
    if !StartsWith(url, "https://") then false
    else
      var low := Lower(url);
      if AnyIn(TrustedDomains, low) then true
      else if !AnyEndsWith(ImageExtensions, low) then AnyIn(ImageExtensions, low)
      else true
  }

  /** A string that ends with `suffix` contains it. */
  lemma EndsWithOccurs(s: string, suffix: string)
    requires EndsWith(s, suffix)
    ensures OccursIn(suffix, s)
  {
    assert SliceAt(s, |s| - |suffix|, suffix);
  }

  /**
   * The extension test at the end is subsumed by the one anywhere in the URL:
   * a URL is accepted exactly when it is an `https://` URL whose lower-cased
   * form mentions a trusted host or an image extension somewhere.
   */
  lemma ValidateImageUrlMeaning(url: string)
    ensures ValidateImageUrl(url) <==>
      StartsWith(url, "https://")
      && (ContainsSome(Lower(url), TrustedDomains) || ContainsSome(Lower(url), ImageExtensions))
  {
    var low := Lower(url);
    if AnyEndsWith(ImageExtensions, low) {
      var i :| 0 <= i < |ImageExtensions| && EndsWith(low, ImageExtensions[i]);
      EndsWithOccurs(low, ImageExtensions[i]);
    }
  }

  /** Whatever a URL mentions, a scheme other than `https://` is refused. */
  lemma PlainHttpRejected(rest: string)
    ensures !ValidateImageUrl("http://" + rest)
  {
    var url := "http://" + rest;
    assert |url| >= 8 ==> url[4] == ':' && url[..8][4] == ':';
  }
}

=== FILE: store_invariants.dfy ===
/**
 * The store's invariants hold in every state reachable from an empty store
 * through its operations: the key order enumerates the teams, every team's
 * pointer equals its completions (which are 1, 2, ..., pointer), and no user
 * is placed in two teams by joining or being added.
 */
module StoreInvariants {
  import opened Wrappers
  import opened Teams

  /** One call into the store, with its arguments. */
  datatype StoreOp =
    | Create(name: string, captainId: int, captainName: string, now: nat)
    | Join(name: string, uid: int, uname: string)
    | AddMember(name: string, uid: int, uname: string, maxSize: int)
    | RemoveMember(name: string, uid: int)
    | Complete(name: string, cid: int, total: nat, submission: Option<Submission>, now: nat)
    | Edit(name: string, newName: Option<string>, newCaptainId: Option<int>, newCaptainName: Option<string>)
    | Drop(name: string)
    | Reset
    | Start
    | End

  function Apply(g: GameState, op: StoreOp): GameState {
    match op
    case Create(name, cid, cname, now) => CreateTeam(g, name, cid, cname, now).state
    case Join(name, uid, uname) => JoinTeam(g, name, uid, uname).state
    case AddMember(name, uid, uname, maxSize) => AddMemberToTeam(g, name, uid, uname, maxSize).state
    case RemoveMember(name, uid) => RemoveMemberFromTeam(g, name, uid).state
    case Complete(name, cid, total, sub, now) => CompleteChallenge(g, name, cid, total, sub, now).state
    case Edit(name, newName, ncid, ncname) => UpdateTeam(g, name, newName, ncid, ncname).state
    case Drop(name) => RemoveTeam(g, name).state
    case Reset => ResetGame(g)
    case Start => StartGame(g)
    case End => EndGame(g)
  }

  ghost predicate ValidStore(g: GameState) {
    WellOrdered(g) && AllProgressed(g)
  }

  lemma CreateKeepsValid(g: GameState, name: string, cid: int, cname: string, now: nat)
    requires ValidStore(g)
    ensures ValidStore(CreateTeam(g, name, cid, cname, now).state)
  {
  }

  lemma JoinKeepsValid(g: GameState, name: string, uid: int, uname: string)
    requires ValidStore(g)
    ensures ValidStore(JoinTeam(g, name, uid, uname).state)
  {
  }

  lemma AddMemberKeepsValid(g: GameState, name: string, uid: int, uname: string, maxSize: int)
    requires ValidStore(g)
    ensures ValidStore(AddMemberToTeam(g, name, uid, uname, maxSize).state)
  {
  }

  lemma RemoveMemberKeepsValid(g: GameState, name: string, uid: int)
    requires ValidStore(g)
    ensures ValidStore(RemoveMemberFromTeam(g, name, uid).state)
  {
    var r := RemoveMemberFromTeam(g, name, uid);
    if r.ok {
      OneTeamChangedKeepsValid(g, r.state, name);
    }
  }

  /** Changing one team in place, without touching its progress, keeps the store valid. */
  lemma OneTeamChangedKeepsValid(g: GameState, g': GameState, name: string)
    requires ValidStore(g) && name in g.teams && name in g'.teams && g'.order == g.order
    requires OthersUnchanged(g, g', name) && SameProgress(g.teams[name], g'.teams[name])
    ensures ValidStore(g')
  {
    assert g'.teams.Keys == g.teams.Keys;
    forall n | n in g'.teams ensures Progressed(g'.teams[n]) {
      if n != name {
        assert g'.teams[n] == g.teams[n];
      }
    }
  }

  lemma EditKeepsValid(g: GameState, name: string, newName: Option<string>, ncid: Option<int>, ncname: Option<string>)
    requires ValidStore(g)
    ensures ValidStore(UpdateTeam(g, name, newName, ncid, ncname).state)
  {
  }

  lemma DropKeepsValid(g: GameState, name: string)
    requires ValidStore(g)
    ensures ValidStore(RemoveTeam(g, name).state)
  {
  }

  /** Every store operation keeps the key order and every team's progression invariant. */
  lemma ApplyPreservesValidStore(g: GameState, op: StoreOp)
    requires ValidStore(g)
    ensures ValidStore(Apply(g, op))
  {
    match op {
      case Create(name, cid, cname, now) => CreateKeepsValid(g, name, cid, cname, now);
      case Join(name, uid, uname) => JoinKeepsValid(g, name, uid, uname);
      case AddMember(name, uid, uname, maxSize) => AddMemberKeepsValid(g, name, uid, uname, maxSize);
      case RemoveMember(name, uid) => RemoveMemberKeepsValid(g, name, uid);
      case Complete(name, cid, total, sub, now) =>
        if name in g.teams {
          CompleteChallengeProgress(g, name, cid, total, sub, now);
        }
      case Edit(name, newName, ncid, ncname) => EditKeepsValid(g, name, newName, ncid, ncname);
      case Drop(name) => DropKeepsValid(g, name);
      case _ =>
    }
  }

  function Run(g: GameState, ops: seq<StoreOp>): GameState
    decreases |ops|
  {
    if |ops| == 0 then g else Run(Apply(g, ops[0]), ops[1..])
  }

  /**
   * Whatever sequence of store calls is made from an empty store, every team's
   * completed list is exactly 1, 2, ..., its challenge pointer.
   */
  lemma {:induction false} RunKeepsProgression(g: GameState, ops: seq<StoreOp>)
    requires ValidStore(g)
    ensures ValidStore(Run(g, ops))
    ensures forall n :: n in Run(g, ops).teams ==>
      var t := Run(g, ops).teams[n];
      t.currentIndex == |t.completed| && forall i :: 0 <= i < |t.completed| ==> t.completed[i] == i + 1
    decreases |ops|
  {
    if |ops| > 0 {
      ApplyPreservesValidStore(g, ops[0]);
      RunKeepsProgression(Apply(g, ops[0]), ops[1..]);
    }
  }

  lemma InitialIsValid()
    ensures ValidStore(Initial()) && UniqueMembership(Initial())
  {
  }

  // ---------------------------------------------------------------------------
  // Membership uniqueness
  // ---------------------------------------------------------------------------

  /** Appending a user who is in no team keeps every user id unique. */
  lemma {:induction false} AppendFreshMemberKeepsUnique(g: GameState, name: string, uid: int, uname: string)
    requires UniqueMembership(g) && name in g.teams && !InAnyTeam(g, uid)
    ensures UniqueMembership(g.(teams := g.teams[name := WithMember(g.teams[name], Member(uid, uname))]))
  {
    var t := g.teams[name];
    var t' := WithMember(t, Member(uid, uname));
    var g' := g.(teams := g.teams[name := t']);
    forall n1, n2, i, j |
      n1 in g'.teams && n2 in g'.teams &&
      0 <= i < |g'.teams[n1].members| && 0 <= j < |g'.teams[n2].members| &&
      g'.teams[n1].members[i].id == g'.teams[n2].members[j].id && g'.teams[n1].members[i].id != PlaceholderId
      ensures n1 == n2 && i == j
    {
      var new1 := n1 == name && i == |t.members|;
      var new2 := n2 == name && j == |t.members|;
      if !new1 && !new2 {
        assert g'.teams[n1].members[i] == g.teams[n1].members[i];
        assert g'.teams[n2].members[j] == g.teams[n2].members[j];
      }
    }
  }

  /** Removing members from one team keeps every user id unique. */
  lemma RemovalKeepsUnique(g: GameState, name: string, t': Team)
    requires UniqueMembership(g) && name in g.teams
    requires forall m :: m in t'.members ==> m in g.teams[name].members
    requires DistinctIds(t'.members)
    ensures UniqueMembership(g.(teams := g.teams[name := t']))
  {
    var g' := g.(teams := g.teams[name := t']);
    forall n1, n2, i, j |
      n1 in g'.teams && n2 in g'.teams &&
      0 <= i < |g'.teams[n1].members| && 0 <= j < |g'.teams[n2].members| &&
      g'.teams[n1].members[i].id == g'.teams[n2].members[j].id && g'.teams[n1].members[i].id != PlaceholderId
      ensures n1 == n2 && i == j
    {
      var m1, m2 := g'.teams[n1].members[i], g'.teams[n2].members[j];
      var i1 :| 0 <= i1 < |g.teams[n1].members| && g.teams[n1].members[i1] == m1 by {
        if n1 == name { assert m1 in g.teams[name].members; } else { assert g.teams[n1].members[i] == m1; }
      }
      var j1 :| 0 <= j1 < |g.teams[n2].members| && g.teams[n2].members[j1] == m2 by {
        if n2 == name { assert m2 in g.teams[name].members; } else { assert g.teams[n2].members[j] == m2; }
      }
      assert n1 == n2;
    }
  }

  /** No id other than the placeholder appears twice among `ms`. */
  predicate DistinctIds(ms: seq<Member>) {
    forall i, j :: 0 <= i < j < |ms| && ms[i].id != PlaceholderId ==> ms[i].id != ms[j].id
  }

  /** Prepending a member whose id is not among the rest keeps ids distinct. */
  lemma ConsDistinct(x: Member, rest: seq<Member>)
    requires DistinctIds(rest) && (x.id != PlaceholderId ==> forall m :: m in rest ==> m.id != x.id)
    ensures DistinctIds([x] + rest)
  {
    var r := [x] + rest;
    forall i, j | 0 <= i < j < |r| && r[i].id != PlaceholderId ensures r[i].id != r[j].id {
      assert r[j] == rest[j - 1];
      if i == 0 {
        assert rest[j - 1] in rest;
      } else {
        assert r[i] == rest[i - 1];
      }
    }
  }

  lemma {:induction false} WithoutIdDistinct(ms: seq<Member>, uid: int)
    requires DistinctIds(ms)
    ensures DistinctIds(WithoutId(ms, uid))
    decreases |ms|
  {
    if |ms| > 0 {
      assert DistinctIds(ms[1..]) by {
        forall i, j | 0 <= i < j < |ms[1..]| && ms[1..][i].id != PlaceholderId ensures ms[1..][i].id != ms[1..][j].id {
          assert ms[1..][i] == ms[i + 1] && ms[1..][j] == ms[j + 1];
        }
      }
      WithoutIdDistinct(ms[1..], uid);
      var rest := WithoutId(ms[1..], uid);
      if ms[0].id != uid && ms[0].id != PlaceholderId {
        forall m | m in rest ensures m.id != ms[0].id {
          var k :| 0 <= k < |ms[1..]| && ms[1..][k] == m;
          assert ms[k + 1] == m;
        }
        ConsDistinct(ms[0], rest);
      }
    }
  }

  /**
   * Creating a team keeps membership unique when its captain is in no team
   * yet, as `/createteam` checks, or is the placeholder captain, which
   * `/addteam` gives every team it creates without any check.
   */
  lemma CreatePreservesUniqueMembership(g: GameState, name: string, cid: int, cname: string, now: nat)
    requires UniqueMembership(g) && (cid == PlaceholderId || !InAnyTeam(g, cid))
    ensures UniqueMembership(CreateTeam(g, name, cid, cname, now).state)
  {
    var g' := CreateTeam(g, name, cid, cname, now).state;
    if name !in g.teams {
      forall n1, n2, i, j |
        n1 in g'.teams && n2 in g'.teams &&
        0 <= i < |g'.teams[n1].members| && 0 <= j < |g'.teams[n2].members| &&
        g'.teams[n1].members[i].id == g'.teams[n2].members[j].id && g'.teams[n1].members[i].id != PlaceholderId
        ensures n1 == n2 && i == j
      {
        if n1 == name && n2 != name {
          assert g'.teams[n2] == g.teams[n2];
          assert HasMember(g.teams[n2], cid);
        } else if n1 != name && n2 != name {
          assert g'.teams[n1] == g.teams[n1];
          assert g'.teams[n2] == g.teams[n2];
        }
      }
    }
  }

  lemma RemoveMemberPreservesUniqueMembership(g: GameState, name: string, uid: int)
    requires UniqueMembership(g)
    ensures UniqueMembership(RemoveMemberFromTeam(g, name, uid).state)
  {
    var r := RemoveMemberFromTeam(g, name, uid);
    if r.ok {
      var ms := g.teams[name].members;
      assert DistinctIds(ms);
      WithoutIdDistinct(ms, uid);
      assert r.state.teams[name].members == WithoutId(ms, uid);
      RemovalKeepsUnique(g, name, r.state.teams[name]);
      assert r.state == g.(teams := g.teams[name := r.state.teams[name]]);
    }
  }

  /** Replacing a team by one with the same members keeps membership unique. */
  lemma SameMembersKeepUnique(teams: map<string, Team>, name: string, t1: Team, g: GameState)
    requires UniqueMembership(g) && name in g.teams && t1.members == g.teams[name].members
    requires teams == g.teams[name := t1]
    ensures UniqueMembership(g.(teams := teams))
  {
    var g' := g.(teams := teams);
    forall n1, n2, i, j |
      n1 in g'.teams && n2 in g'.teams &&
      0 <= i < |g'.teams[n1].members| && 0 <= j < |g'.teams[n2].members| &&
      g'.teams[n1].members[i].id == g'.teams[n2].members[j].id && g'.teams[n1].members[i].id != PlaceholderId
      ensures n1 == n2 && i == j
    {
      assert g'.teams[n1].members == g.teams[n1].members;
      assert g'.teams[n2].members == g.teams[n2].members;
    }
  }

  /** Moving a team to a fresh name, with the same members, keeps membership unique. */
  lemma RenameKeepsUnique(teams: map<string, Team>, name: string, nn: string, t1: Team, g: GameState)
    requires UniqueMembership(g) && name in g.teams && nn !in g.teams && t1.members == g.teams[name].members
    requires teams == (g.teams - {name})[nn := t1]
    ensures UniqueMembership(g.(teams := teams))
  {
    var g' := g.(teams := teams);
    forall n1, n2, i, j |
      n1 in g'.teams && n2 in g'.teams &&
      0 <= i < |g'.teams[n1].members| && 0 <= j < |g'.teams[n2].members| &&
      g'.teams[n1].members[i].id == g'.teams[n2].members[j].id && g'.teams[n1].members[i].id != PlaceholderId
      ensures n1 == n2 && i == j
    {
      var o1 := if n1 == nn then name else n1;
      var o2 := if n2 == nn then name else n2;
      assert g'.teams[n1].members == g.teams[o1].members;
      assert g'.teams[n2].members == g.teams[o2].members;
    }
  }

  lemma UpdateTeamPreservesUniqueMembership(g: GameState, name: string, newName: Option<string>,
                                            ncid: Option<int>, ncname: Option<string>)
    requires UniqueMembership(g)
    ensures UniqueMembership(UpdateTeam(g, name, newName, ncid, ncname).state)
  {
    var r := UpdateTeam(g, name, newName, ncid, ncname);
    if name in g.teams {
      var t1 := WithCaptain(g.teams[name], ncid, ncname);
      if Renames(name, newName) && r.ok {
        assert r.state.teams == (g.teams - {name})[newName.value := t1];
        RenameKeepsUnique(r.state.teams, name, newName.value, t1, g);
        assert r.state == g.(teams := r.state.teams, order := r.state.order);
      } else {
        assert r.state.teams == g.teams[name := t1];
        SameMembersKeepUnique(r.state.teams, name, t1, g);
        assert r.state == g.(teams := r.state.teams, order := r.state.order);
      }
    }
  }

  lemma JoinPreservesUniqueMembership(g: GameState, name: string, uid: int, uname: string)
    requires UniqueMembership(g)
    ensures UniqueMembership(JoinTeam(g, name, uid, uname).state)
  {
    if name in g.teams && !InAnyTeam(g, uid) {
      AppendFreshMemberKeepsUnique(g, name, uid, uname);
      assert JoinTeam(g, name, uid, uname).state == g.(teams := g.teams[name := WithMember(g.teams[name], Member(uid, uname))]);
    }
  }

  lemma AddMemberPreservesUniqueMembership(g: GameState, name: string, uid: int, uname: string, maxSize: int)
    requires UniqueMembership(g)
    ensures UniqueMembership(AddMemberToTeam(g, name, uid, uname, maxSize).state)
  {
    if name in g.teams && !InAnyTeam(g, uid) && |g.teams[name].members| < maxSize {
      AppendFreshMemberKeepsUnique(g, name, uid, uname);
      assert AddMemberToTeam(g, name, uid, uname, maxSize).state ==
             g.(teams := g.teams[name := WithMember(g.teams[name], Member(uid, uname))]);
    }
  }

  lemma CompletePreservesUniqueMembership(g: GameState, name: string, cid: int, total: nat, sub: Option<Submission>, now: nat)
    requires UniqueMembership(g)
    ensures UniqueMembership(CompleteChallenge(g, name, cid, total, sub, now).state)
  {
    var r := CompleteChallenge(g, name, cid, total, sub, now);
    if r.ok {
      assert r.state.teams == g.teams[name := r.state.teams[name]];
    }
  }

  lemma DropPreservesUniqueMembership(g: GameState, name: string)
    requires UniqueMembership(g)
    ensures UniqueMembership(RemoveTeam(g, name).state)
  {
  }

  /**
   * Joining, adding and removing members, completing, renaming, dropping and
   * resetting never place a user in two teams; creating a team keeps that
   * when its captain is in no team yet, which `/createteam` checks, or is the
   * placeholder captain `/addteam` uses.
   */
  lemma ApplyPreservesUniqueMembership(g: GameState, op: StoreOp)
    requires UniqueMembership(g)
    requires op.Create? ==> op.captainId == PlaceholderId || !InAnyTeam(g, op.captainId)
    ensures UniqueMembership(Apply(g, op))
  {
    match op {
      case Create(name, cid, cname, now) => CreatePreservesUniqueMembership(g, name, cid, cname, now);
      case Join(name, uid, uname) => JoinPreservesUniqueMembership(g, name, uid, uname);
      case AddMember(name, uid, uname, maxSize) => AddMemberPreservesUniqueMembership(g, name, uid, uname, maxSize);
      case RemoveMember(name, uid) => RemoveMemberPreservesUniqueMembership(g, name, uid);
      case Complete(name, cid, total, sub, now) => CompletePreservesUniqueMembership(g, name, cid, total, sub, now);
      case Edit(name, newName, ncid, ncname) => UpdateTeamPreservesUniqueMembership(g, name, newName, ncid, ncname);
      case Drop(name) => DropPreservesUniqueMembership(g, name);
      case Reset =>
      case Start =>
      case End =>
    }
  }
}

=== FILE: teams.dfy ===
/**
 * The team progression store of `game_state.py`: a dictionary from team name
 * to team record, plus the game's started/ended flags.
 *
 * Python dictionaries remember insertion order, and two operations depend on
 * it (looking a user's team up, and the tie order of the leaderboard), so the
 * store keeps the key order next to the map.
 */
module Teams {
  import opened Wrappers

  datatype Member = Member(id: int, name: string)

  /** What the bot stores about an accepted answer. */
  datatype Submission = Submission(answer: string, timestamp: nat, submittedBy: int, checklistCompleted: bool)

  /**
   * One team record. The last four fields are kept by collaborators of the
   * store that are not part of this model (photo verification, unlock
   * broadcasts, checklist progress, hint usage); they are plain inputs here.
   */
  datatype Team = Team(
    captainId: int,
    captainName: string,
    members: seq<Member>,
    currentIndex: nat,
    completed: seq<int>,
    finishTime: Option<nat>,
    createdAt: nat,
    submissions: map<int, Submission>,
    photoVerified: set<int>,
    unlockBroadcasts: set<int>,
    checklist: map<int, set<string>>,
    usedHints: map<int, set<int>>)

  /** `order` lists the keys of `teams` in insertion order. */
  datatype GameState = GameState(teams: map<string, Team>, order: seq<string>, started: bool, ended: bool)

  /** A store operation's new state and its boolean answer. */
  datatype Update = Update(state: GameState, ok: bool)

  function Initial(): GameState {
    GameState(map[], [], false, false)
  }

  // ---------------------------------------------------------------------------
  // Invariants
  // ---------------------------------------------------------------------------

  /** `order` enumerates the keys of `teams`, each exactly once. */
  ghost predicate WellOrdered(g: GameState) {
    && (forall i, j :: 0 <= i < j < |g.order| ==> g.order[i] != g.order[j])
    && (forall n :: n in g.teams <==> n in g.order)
  }

  /** The challenge pointer equals the number of completions, which are exactly 1, 2, ..., pointer. */
  ghost predicate Progressed(t: Team) {
    && t.currentIndex == |t.completed|
    && forall i :: 0 <= i < |t.completed| ==> t.completed[i] == i + 1
  }

  ghost predicate AllProgressed(g: GameState) {
    forall n :: n in g.teams ==> Progressed(g.teams[n])
  }

  /** A finish time is present exactly when `total` challenges have been completed. */
  ghost predicate FinishConsistent(t: Team, total: nat) {
    t.finishTime.Some? <==> |t.completed| >= total
  }

  predicate HasMember(t: Team, uid: int) {
    exists i :: 0 <= i < |t.members| && t.members[i].id == uid
  }

  predicate InAnyTeam(g: GameState, uid: int) {
    exists n :: n in g.teams && HasMember(g.teams[n], uid)
  }

  /**
   * The id the `/addteam` command gives the captain of a team the admin
   * creates; it stands for no Telegram user, whose ids are positive.
   */
  const PlaceholderId := 0

  /**
   * No user id appears twice, neither within one team nor across two teams.
   * The placeholder captain of admin-created teams is exempt: every such
   * team holds it.
   */
  ghost predicate UniqueMembership(g: GameState) {
    forall n1, n2, i, j ::
      n1 in g.teams && n2 in g.teams &&
      0 <= i < |g.teams[n1].members| && 0 <= j < |g.teams[n2].members| &&
      g.teams[n1].members[i].id == g.teams[n2].members[j].id && g.teams[n1].members[i].id != PlaceholderId
      ==> n1 == n2 && i == j
  }

  /** Every team other than `name` is as it was. */
  ghost predicate OthersUnchanged(g: GameState, g': GameState, name: string) {
    forall n :: n != name ==> (n in g'.teams <==> n in g.teams) && (n in g.teams ==> g'.teams[n] == g.teams[n])
  }

  /** Progress fields agree. */
  predicate SameProgress(t: Team, t': Team) {
    t'.currentIndex == t.currentIndex && t'.completed == t.completed && t'.finishTime == t.finishTime
  }

  // ---------------------------------------------------------------------------
  // Team creation and membership
  // ---------------------------------------------------------------------------

  function NewTeam(captainId: int, captainName: string, now: nat): Team {
    Team(captainId, captainName, [Member(captainId, captainName)], 0, [], None, now,
         map[], {}, {}, map[], map[])
  }

  /** `create_team`: refuses a taken name; otherwise the captain is the only member and nothing is completed. */
  function CreateTeam(g: GameState, name: string, captainId: int, captainName: string, now: nat): (r: Update)
    ensures r.ok <==> name !in g.teams
    ensures !r.ok ==> r.state == g
    ensures r.ok ==> name in r.state.teams && r.state.order == g.order + [name]
    ensures r.ok ==> var t := r.state.teams[name];
      && t.members == [Member(captainId, captainName)] && t.captainId == captainId
      && t.currentIndex == 0 && t.completed == [] && t.finishTime.None?
      && Progressed(t)
    ensures OthersUnchanged(g, r.state, name)
    ensures r.state.started == g.started && r.state.ended == g.ended
    ensures WellOrdered(g) ==> WellOrdered(r.state)
  {
    if name in g.teams then Update(g, false)
    else Update(g.(teams := g.teams[name := NewTeam(captainId, captainName, now)], order := g.order + [name]), true)
  }

  /** `t` with `m` appended to its members. */
  function WithMember(t: Team, m: Member): (t': Team)
    ensures t'.members == t.members + [m]
    ensures SameProgress(t, t') && t'.captainId == t.captainId
  {
    t.(members := t.members + [m])
  }

  /** `join_team`: refuses a missing team and a user who is already in any team. */
  function JoinTeam(g: GameState, name: string, uid: int, uname: string): (r: Update)
    ensures r.ok <==> name in g.teams && !InAnyTeam(g, uid)
    ensures !r.ok ==> r.state == g
    ensures r.ok ==> name in r.state.teams && r.state.teams[name] == WithMember(g.teams[name], Member(uid, uname))
    ensures OthersUnchanged(g, r.state, name)
    ensures r.state.order == g.order && r.state.started == g.started && r.state.ended == g.ended
  {
    if name !in g.teams || InAnyTeam(g, uid) then Update(g, false)
    else Update(g.(teams := g.teams[name := WithMember(g.teams[name], Member(uid, uname))]), true)
  }

  /** `add_member_to_team`: like joining, but also refuses a team that has `maxSize` members or more. */
  function AddMemberToTeam(g: GameState, name: string, uid: int, uname: string, maxSize: int): (r: Update)
    ensures r.ok <==> name in g.teams && !InAnyTeam(g, uid) && |g.teams[name].members| < maxSize
    ensures !r.ok ==> r.state == g
    ensures r.ok ==> name in r.state.teams && r.state.teams[name] == WithMember(g.teams[name], Member(uid, uname))
    ensures r.ok ==> |r.state.teams[name].members| <= maxSize
    ensures OthersUnchanged(g, r.state, name)
    ensures r.state.order == g.order && r.state.started == g.started && r.state.ended == g.ended
  {
    if name !in g.teams || InAnyTeam(g, uid) || |g.teams[name].members| >= maxSize then Update(g, false)
    else Update(g.(teams := g.teams[name := WithMember(g.teams[name], Member(uid, uname))]), true)
  }

  /** `m` is the first entry of `ms` whose id is not `uid`. */
  ghost predicate FirstOther(ms: seq<Member>, uid: int, m: Member) {
    exists k :: 0 <= k < |ms| && ms[k] == m && m.id != uid && forall j :: 0 <= j < k ==> ms[j].id == uid
  }

  /** The members whose id is not `uid`, in their original order. */
  function WithoutId(ms: seq<Member>, uid: int): (r: seq<Member>)
    ensures forall m :: m in r <==> m in ms && m.id != uid
    ensures |r| <= |ms|
    ensures (forall i :: 0 <= i < |ms| ==> ms[i].id != uid) ==> r == ms
    ensures |r| > 0 ==> FirstOther(ms, uid, r[0])
  {
    if |ms| == 0 then []
    else
      var rest := WithoutId(ms[1..], uid);
      if ms[0].id == uid then
        WithoutIdSkip(ms, uid, rest);
        rest
      else
        WithoutIdKeep(ms, uid, rest);
        [ms[0]] + rest
  }

  /** The properties of `WithoutId` hold for the tail's result when the head has id `uid`. */
  lemma WithoutIdSkip(ms: seq<Member>, uid: int, rest: seq<Member>)
    requires |ms| > 0 && ms[0].id == uid
    requires forall m :: m in rest <==> m in ms[1..] && m.id != uid
    requires |rest| <= |ms[1..]|
    requires |rest| > 0 ==> FirstOther(ms[1..], uid, rest[0])
    ensures forall m :: m in rest <==> m in ms && m.id != uid
    ensures |rest| <= |ms|
    ensures !(forall i :: 0 <= i < |ms| ==> ms[i].id != uid)
    ensures |rest| > 0 ==> FirstOther(ms, uid, rest[0])
  {
    assert ms == [ms[0]] + ms[1..];
    FirstOtherSkip(ms, uid, rest);
  }

  /** The properties of `WithoutId` hold for the head followed by the tail's result when the head is kept. */
  lemma WithoutIdKeep(ms: seq<Member>, uid: int, rest: seq<Member>)
    requires |ms| > 0 && ms[0].id != uid
    requires forall m :: m in rest <==> m in ms[1..] && m.id != uid
    requires |rest| <= |ms[1..]|
    requires (forall i :: 0 <= i < |ms[1..]| ==> ms[1..][i].id != uid) ==> rest == ms[1..]
    ensures forall m :: m in [ms[0]] + rest <==> m in ms && m.id != uid
    ensures |[ms[0]] + rest| <= |ms|
    ensures (forall i :: 0 <= i < |ms| ==> ms[i].id != uid) ==> [ms[0]] + rest == ms
    ensures FirstOther(ms, uid, ms[0])
  {
    assert ms == [ms[0]] + ms[1..];
    if forall i :: 0 <= i < |ms| ==> ms[i].id != uid {
      assert forall i :: 0 <= i < |ms[1..]| ==> ms[1..][i] == ms[i + 1];
    }
  }

  /** Skipping a leading entry with id `uid` keeps the first other entry of the tail first. */
  lemma FirstOtherSkip(ms: seq<Member>, uid: int, rest: seq<Member>)
    requires |ms| > 0 && ms[0].id == uid && (|rest| > 0 ==> FirstOther(ms[1..], uid, rest[0]))
    ensures |rest| > 0 ==> FirstOther(ms, uid, rest[0])
  {
    if |rest| > 0 {
      var k :| 0 <= k < |ms[1..]| && ms[1..][k] == rest[0] && rest[0].id != uid
               && forall j :: 0 <= j < k ==> ms[1..][j].id == uid;
      forall j | 0 <= j < k + 1 ensures ms[j].id == uid {
        if j > 0 { assert ms[j] == ms[1..][j - 1]; }
      }
      assert ms[k + 1] == rest[0];
    }
  }

  /**
   * `idx` lists, in increasing order and each once, exactly the positions of
   * `ms` whose member id is not `uid`.
   */
  ghost predicate KeptPositions(idx: seq<nat>, ms: seq<Member>, uid: int) {
    && (forall i, j :: 0 <= i < j < |idx| ==> idx[i] < idx[j])
    && (forall i :: 0 <= i < |idx| ==> idx[i] < |ms|)
    && (forall k :: 0 <= k < |ms| ==> (ms[k].id != uid <==> k in idx))
  }

  /** `r` picks the entries of `ms` at the positions `idx`, in that order. */
  ghost predicate PicksAt(r: seq<Member>, ms: seq<Member>, idx: seq<nat>) {
    |r| == |idx| && forall i :: 0 <= i < |idx| ==> idx[i] < |ms| && r[i] == ms[idx[i]]
  }

  /**
   * Removing an id keeps every other entry, once each and in the original
   * order: the result is the subsequence of `ms` at exactly the positions
   * whose id differs from `uid`.
   */
  lemma {:induction false} WithoutIdSelects(ms: seq<Member>, uid: int)
    ensures exists idx :: KeptPositions(idx, ms, uid) && PicksAt(WithoutId(ms, uid), ms, idx)
  {
    if |ms| == 0 {
      assert KeptPositions([], ms, uid) && PicksAt([], ms, []);
    } else {
      WithoutIdSelects(ms[1..], uid);
      var idx' :| KeptPositions(idx', ms[1..], uid) && PicksAt(WithoutId(ms[1..], uid), ms[1..], idx');
      KeptPositionsCons(ms, uid, idx');
      PicksAtCons(ms, uid, idx');
    }
  }

  /** Every position moved one to the right. */
  function Shift(idx: seq<nat>): (r: seq<nat>)
    ensures |r| == |idx| && forall i :: 0 <= i < |idx| ==> r[i] == idx[i] + 1
  {
    seq(|idx|, i requires 0 <= i < |idx| => idx[i] + 1)
  }

  /** The kept positions of `ms`, given those `idx'` of its tail. */
  function ConsPositions(ms: seq<Member>, uid: int, idx': seq<nat>): seq<nat>
    requires |ms| > 0
  {
    if ms[0].id != uid then [0] + Shift(idx') else Shift(idx')
  }

  lemma KeptPositionsCons(ms: seq<Member>, uid: int, idx': seq<nat>)
    requires |ms| > 0 && KeptPositions(idx', ms[1..], uid)
    ensures KeptPositions(ConsPositions(ms, uid, idx'), ms, uid)
  {
    var sh := Shift(idx');
    var idx := ConsPositions(ms, uid, idx');
    forall k | 0 <= k < |ms| ensures ms[k].id != uid <==> k in idx {
      if k > 0 {
        assert ms[k] == ms[1..][k - 1];
        if k - 1 in idx' {
          var i :| 0 <= i < |idx'| && idx'[i] == k - 1;
          assert sh[i] == k;
        }
        if k in sh {
          var i :| 0 <= i < |sh| && sh[i] == k;
          assert idx'[i] == k - 1;
        }
      } else {
        assert forall i :: 0 <= i < |sh| ==> sh[i] != 0;
      }
    }
  }

  lemma PicksAtCons(ms: seq<Member>, uid: int, idx': seq<nat>)
    requires |ms| > 0 && PicksAt(WithoutId(ms[1..], uid), ms[1..], idx')
    ensures PicksAt(WithoutId(ms, uid), ms, ConsPositions(ms, uid, idx'))
  {
    var rest := WithoutId(ms[1..], uid);
    ShiftPicks(ms, rest, idx');
    if ms[0].id != uid {
      assert WithoutId(ms, uid) == [ms[0]] + rest;
      PicksAtPrepend(ms, rest, Shift(idx'));
    } else {
      assert WithoutId(ms, uid) == rest;
    }
  }

  /** Picking the first entry and then at `sh` is picking at position 0 followed by `sh`. */
  lemma PicksAtPrepend(ms: seq<Member>, rest: seq<Member>, sh: seq<nat>)
    requires |ms| > 0 && PicksAt(rest, ms, sh)
    ensures PicksAt([ms[0]] + rest, ms, [0] + sh)
  {
    var r, p := [ms[0]] + rest, [0] + sh;
    forall i | 0 <= i < |p| ensures p[i] < |ms| && r[i] == ms[p[i]] {
      if i > 0 {
        assert r[i] == rest[i - 1] && p[i] == sh[i - 1];
      }
    }
  }

  /** Picking from the tail at `idx'` is picking from the whole at the shifted positions. */
  lemma ShiftPicks(ms: seq<Member>, rest: seq<Member>, idx': seq<nat>)
    requires |ms| > 0 && PicksAt(rest, ms[1..], idx')
    ensures PicksAt(rest, ms, Shift(idx'))
  {
    var sh := Shift(idx');
    forall i | 0 <= i < |sh| ensures sh[i] < |ms| && rest[i] == ms[sh[i]] {
      assert ms[sh[i]] == ms[1..][idx'[i]];
    }
  }

  /**
   * `remove_member_from_team`: refuses to remove a captain who is the only
   * member; otherwise drops every entry with that id, and a removed captain is
   * replaced by the first remaining member.
   */
  function RemoveMemberFromTeam(g: GameState, name: string, uid: int): (r: Update)
    ensures r.ok <==> name in g.teams && !(g.teams[name].captainId == uid && |g.teams[name].members| == 1)
    ensures !r.ok ==> r.state == g
    ensures r.ok ==> name in r.state.teams && var t, t' := g.teams[name], r.state.teams[name];
      && !HasMember(t', uid)
      && t'.members == WithoutId(t.members, uid)
      && (forall m :: m in t'.members <==> m in t.members && m.id != uid)
      && SameProgress(t, t')
      && t'.(members := t.members, captainId := t.captainId, captainName := t.captainName) == t
      && (t.captainId == uid && |t'.members| > 0 ==>
            t'.captainId == t'.members[0].id && t'.captainName == t'.members[0].name
            && FirstOther(t.members, uid, Member(t'.captainId, t'.captainName)))
      && (t.captainId != uid || |t'.members| == 0 ==>
            t'.captainId == t.captainId && t'.captainName == t.captainName)
    ensures OthersUnchanged(g, r.state, name)
    ensures r.state.order == g.order && r.state.started == g.started && r.state.ended == g.ended
  {
    if name !in g.teams then Update(g, false)
    else
      var t := g.teams[name];
      if t.captainId == uid && |t.members| == 1 then Update(g, false)
      else
        var ms := WithoutId(t.members, uid);
        var t' := if t.captainId == uid && |ms| > 0
                  then t.(members := ms, captainId := ms[0].id, captainName := ms[0].name)
                  else t.(members := ms);
        Update(g.(teams := g.teams[name := t']), true)
  }

  // ---------------------------------------------------------------------------
  // Progression
  // ---------------------------------------------------------------------------

  /**
   * `complete_challenge`: accepts only the next challenge in sequence, and only
   * once; records the submission when one is given, and stamps the finish time
   * once `total` challenges are completed.
   */
  function CompleteChallenge(g: GameState, name: string, cid: int, total: nat,
                             submission: Option<Submission>, now: nat): (r: Update)
    ensures r.ok <==> name in g.teams && cid !in g.teams[name].completed && cid == g.teams[name].currentIndex + 1
    ensures !r.ok ==> r.state == g
    ensures r.ok ==> name in r.state.teams && var t, t' := g.teams[name], r.state.teams[name];
      && t'.completed == t.completed + [cid]
      && t'.currentIndex == t.currentIndex + 1
      && (|t'.completed| >= total ==> t'.finishTime == Some(now))
      && (|t'.completed| < total ==> t'.finishTime == t.finishTime)
      && (submission.Some? ==> cid in t'.submissions && t'.submissions[cid] == submission.value)
      && (submission.None? ==> t'.submissions == t.submissions)
      && (forall k :: k != cid ==>
            (k in t'.submissions <==> k in t.submissions) && (k in t.submissions ==> t'.submissions[k] == t.submissions[k]))
      && t'.(completed := t.completed, currentIndex := t.currentIndex,
             submissions := t.submissions, finishTime := t.finishTime) == t
      && t'.members == t.members && t'.captainId == t.captainId
    ensures OthersUnchanged(g, r.state, name)
    ensures r.state.order == g.order && r.state.started == g.started && r.state.ended == g.ended
  {
    if name !in g.teams then Update(g, false)
    else
      var t := g.teams[name];
      if cid in t.completed then Update(g, false)
      else if cid != t.currentIndex + 1 then Update(g, false)
      else
        var done := t.completed + [cid];
        var t' := t.(completed := done,
                     currentIndex := t.currentIndex + 1,
                     submissions := if submission.Some? then t.submissions[cid := submission.value] else t.submissions,
                     finishTime := if |done| >= total then Some(now) else t.finishTime);
        Update(g.(teams := g.teams[name := t']), true)
  }

  /**
   * On a team whose pointer matches its completions, the "already completed"
   * test can never be the reason for a refusal: only the next id is accepted,
   * and accepting it keeps the pointer matching the completions.
   */
  lemma CompleteChallengeProgress(g: GameState, name: string, cid: int, total: nat,
                                  submission: Option<Submission>, now: nat)
    requires name in g.teams && Progressed(g.teams[name])
    ensures var r := CompleteChallenge(g, name, cid, total, submission, now);
      && (r.ok <==> cid == |g.teams[name].completed| + 1)
      && Progressed(r.state.teams[name])
  {
  }

  /**
   * With the caller's guard that the pointer is still below `total`, a
   * completion stamps the finish time exactly when it is the last one, and a
   * finish time is never stamped twice.
   */
  lemma CompleteChallengeFinishesOnce(g: GameState, name: string, cid: int, total: nat,
                                      submission: Option<Submission>, now: nat)
    requires name in g.teams && Progressed(g.teams[name]) && FinishConsistent(g.teams[name], total)
    requires g.teams[name].currentIndex < total
    ensures g.teams[name].finishTime.None?
    ensures var r := CompleteChallenge(g, name, cid, total, submission, now);
      && FinishConsistent(r.state.teams[name], total)
      && (r.ok ==> (r.state.teams[name].finishTime.Some? <==> cid == total))
      && (r.state.teams[name].finishTime.Some? ==> r.state.teams[name].finishTime == Some(now))
  {
    CompleteChallengeProgress(g, name, cid, total, submission, now);
  }

  // ---------------------------------------------------------------------------
  // Lookup
  // ---------------------------------------------------------------------------

  /** Position in `order` of the first team that has `uid` as a member, or `|order|`. */
  function FirstTeamIndex(teams: map<string, Team>, order: seq<string>, uid: int): (k: nat)
    ensures k <= |order|
    ensures forall j :: 0 <= j < k ==> !(order[j] in teams && HasMember(teams[order[j]], uid))
    ensures k < |order| ==> order[k] in teams && HasMember(teams[order[k]], uid)
  {
    if |order| == 0 then 0
    else if order[0] in teams && HasMember(teams[order[0]], uid) then 0
    else 1 + FirstTeamIndex(teams, order[1..], uid)
  }

  /** No team listed before position `k` of the key order has `uid` as a member. */
  ghost predicate NoneBefore(g: GameState, k: int, uid: int) {
    forall j :: 0 <= j < k && j < |g.order| ==> !(g.order[j] in g.teams && HasMember(g.teams[g.order[j]], uid))
  }

  /** `get_team_by_user`: the first team, in insertion order, that has the user as a member. */
  function GetTeamByUser(g: GameState, uid: int): (r: Option<string>)
    ensures r.Some? ==> r.value in g.teams && HasMember(g.teams[r.value], uid)
    ensures r.Some? ==>
              exists k :: 0 <= k < |g.order| && g.order[k] == r.value && NoneBefore(g, k, uid)
    ensures WellOrdered(g) ==> (r.None? <==> !InAnyTeam(g, uid))
  {
    var k := FirstTeamIndex(g.teams, g.order, uid);
    if k < |g.order| then Some(g.order[k]) else None
  }

  /** When no user is in two teams, the lookup finds a real user's one team. */
  lemma GetTeamByUserUnique(g: GameState, uid: int, name: string)
    requires WellOrdered(g) && UniqueMembership(g) && uid != PlaceholderId
    requires name in g.teams && HasMember(g.teams[name], uid)
    ensures GetTeamByUser(g, uid) == Some(name)
  {
    var r := GetTeamByUser(g, uid);
    assert InAnyTeam(g, uid);
    var i :| 0 <= i < |g.teams[name].members| && g.teams[name].members[i].id == uid;
    var j :| 0 <= j < |g.teams[r.value].members| && g.teams[r.value].members[j].id == uid;
  }

  // ---------------------------------------------------------------------------
  // Renaming, removal, reset
  // ---------------------------------------------------------------------------

  /** `order` without `name`. */
  function RemoveName(order: seq<string>, name: string): (r: seq<string>)
    ensures forall x :: x in r <==> x in order && x != name
    ensures (forall i, j :: 0 <= i < j < |order| ==> order[i] != order[j]) ==>
            (forall i, j :: 0 <= i < j < |r| ==> r[i] != r[j])
  {
    if |order| == 0 then []
    else
      var rest := RemoveName(order[1..], name);
      if order[0] == name then rest
      else
        assert forall x :: x in order[1..] ==> x in order;
        assert (forall i, j :: 0 <= i < j < |order| ==> order[i] != order[j]) ==> order[0] !in order[1..];
        [order[0]] + rest
  }

  /** Whether `update_team` is asked to rename: a non-empty name different from the current one. */
  predicate Renames(name: string, newName: Option<string>) {
    newName.Some? && newName.value != "" && newName.value != name
  }

  /** The record after `update_team`'s captain step: replaced only when both id and name are given. */
  function WithCaptain(t: Team, newCaptainId: Option<int>, newCaptainName: Option<string>): (t': Team)
    ensures newCaptainId.Some? && newCaptainName.Some? ==>
            t'.captainId == newCaptainId.value && t'.captainName == newCaptainName.value
    ensures !(newCaptainId.Some? && newCaptainName.Some?) ==> t' == t
    ensures SameProgress(t, t') && t'.members == t.members
  {
    if newCaptainId.Some? && newCaptainName.Some?
    then t.(captainId := newCaptainId.value, captainName := newCaptainName.value)
    else t
  }

  /**
   * `update_team`: replaces the captain fields, then renames. The captain
   * change is made before the rename is refused for a taken name, so a
   * refused call still leaves the new captain in place.
   */
  function UpdateTeam(g: GameState, name: string, newName: Option<string>,
                      newCaptainId: Option<int>, newCaptainName: Option<string>): (r: Update)
    ensures r.ok <==> name in g.teams && !(Renames(name, newName) && newName.value in g.teams)
    ensures name !in g.teams ==> r.state == g
    ensures name in g.teams && !Renames(name, newName) ==>
      r.state.teams == g.teams[name := WithCaptain(g.teams[name], newCaptainId, newCaptainName)]
      && r.state.order == g.order
    ensures name in g.teams && Renames(name, newName) && newName.value in g.teams ==>
      && !r.ok
      && name in r.state.teams && newName.value in r.state.teams
      && r.state.teams[name] == WithCaptain(g.teams[name], newCaptainId, newCaptainName)
      && r.state.order == g.order
    ensures r.ok && Renames(name, newName) ==>
      && name !in r.state.teams && newName.value in r.state.teams
      && r.state.teams[newName.value] == WithCaptain(g.teams[name], newCaptainId, newCaptainName)
      && r.state.order == RemoveName(g.order, name) + [newName.value]
    ensures forall n :: n != name && (!Renames(name, newName) || n != newName.value) ==>
      (n in r.state.teams <==> n in g.teams) && (n in g.teams ==> r.state.teams[n] == g.teams[n])
    ensures WellOrdered(g) ==> WellOrdered(r.state)
    ensures r.state.started == g.started && r.state.ended == g.ended
  {
    if name !in g.teams then Update(g, false)
    else
      var t1 := WithCaptain(g.teams[name], newCaptainId, newCaptainName);
      var g1 := g.(teams := g.teams[name := t1]);
      if Renames(name, newName) then
        if newName.value in g.teams then Update(g1, false)
        else
          var order' := RemoveName(g.order, name) + [newName.value];
          var g2 := g1.(teams := (g.teams - {name})[newName.value := t1], order := order');
          assert WellOrdered(g) ==> WellOrdered(g2) by {
            if WellOrdered(g) {
              var rest := RemoveName(g.order, name);
              assert newName.value !in rest;
            }
          }
          Update(g2, true)
      else Update(g1, true)
  }

  /** `remove_team`: refuses a missing team; otherwise the team and its key are gone. */
  function RemoveTeam(g: GameState, name: string): (r: Update)
    ensures r.ok <==> name in g.teams
    ensures !r.ok ==> r.state == g
    ensures name !in r.state.teams
    ensures OthersUnchanged(g, r.state, name)
    ensures WellOrdered(g) ==> WellOrdered(r.state) && name !in r.state.order
    ensures r.state.started == g.started && r.state.ended == g.ended
  {
    if name !in g.teams then Update(g, false)
    else Update(g.(teams := g.teams - {name}, order := RemoveName(g.order, name)), true)
  }

  /** `reset_game`: no teams, and the game is neither started nor ended. */
  function ResetGame(g: GameState): (r: GameState)
    ensures |r.teams| == 0 && |r.order| == 0 && !r.started && !r.ended
    ensures WellOrdered(r) && AllProgressed(r) && UniqueMembership(r)
  {
    Initial()
  }

  /** `start_game`: only the started flag changes. */
  function StartGame(g: GameState): (r: GameState)
    ensures r.started && r.ended == g.ended && r.teams == g.teams && r.order == g.order
  {
    g.(started := true)
  }

  /** `end_game`: only the ended flag changes. */
  function EndGame(g: GameState): (r: GameState)
    ensures r.ended && r.started == g.started && r.teams == g.teams && r.order == g.order
  {
    g.(ended := true)
  }
}

=== FILE: text.dfy ===
/**
 * Character-level string operations the bot relies on: Python's `lower()`,
 * `strip()`, the `in` substring test, `split(sep)`, `str(n)` and `int(s)`.
 * Case folding and whitespace are ASCII only.
 */
module Text {
  import opened Wrappers

  // ---------------------------------------------------------------------------
  // Case folding
  // ---------------------------------------------------------------------------

  predicate IsUpper(c: char) { 'A' <= c <= 'Z' }

  function LowerChar(c: char): char {
    if IsUpper(c) then (c as int + 32) as char else c
  }

  /** `s.lower()` restricted to ASCII letters. */
  function Lower(s: string): string {
    seq(|s|, i requires 0 <= i < |s| => LowerChar(s[i]))
  }

  /** Lowering keeps the length, leaves no capital, and changes only capitals, each by 32. */
  lemma LowerSpec(s: string)
    ensures |Lower(s)| == |s|
    ensures forall i :: 0 <= i < |s| ==> !IsUpper(Lower(s)[i])
    ensures forall i :: 0 <= i < |s| ==>
      Lower(s)[i] == s[i] || (IsUpper(s[i]) && Lower(s)[i] as int == s[i] as int + 32)
  {
  }

  lemma LowerIdempotent(s: string)
    ensures Lower(Lower(s)) == Lower(s)
  {
  }

  lemma LowerAppend(a: string, b: string)
    ensures Lower(a + b) == Lower(a) + Lower(b)
  {
  }

  /** `r` is the slice of `s` that starts at offset `lo`. */
  predicate SliceAt(s: string, lo: int, r: string) {
    0 <= lo <= |s| - |r| && s[lo..lo + |r|] == r
  }

  // ---------------------------------------------------------------------------
  // Whitespace stripping
  // ---------------------------------------------------------------------------

  /** The ASCII characters for which Python's `str.isspace()` holds. */
  predicate IsSpace(c: char) {
    c == ' ' || 9 <= c as int <= 13 || 28 <= c as int <= 31
  }

  function TrimLeft(s: string): (r: string)
    ensures |r| <= |s| && r == s[|s| - |r|..]
    ensures forall i :: 0 <= i < |s| - |r| ==> IsSpace(s[i])
    ensures |r| > 0 ==> !IsSpace(r[0])
  {
    if |s| > 0 && IsSpace(s[0]) then TrimLeft(s[1..]) else s
  }

  function TrimRight(s: string): (r: string)
    ensures |r| <= |s| && r == s[..|r|]
    ensures forall i :: |r| <= i < |s| ==> IsSpace(s[i])
    ensures |r| > 0 ==> !IsSpace(r[|r| - 1])
  {
    if |s| > 0 && IsSpace(s[|s| - 1]) then TrimRight(s[..|s| - 1]) else s
  }

  /**
   * `s.strip()`: the longest slice of `s` that neither starts nor ends with
   * whitespace, everything cut off on both sides being whitespace.
   */
  function Strip(s: string): (r: string)
    ensures |r| <= |s|
    ensures |r| > 0 ==> !IsSpace(r[0]) && !IsSpace(r[|r| - 1])
  {
    TrimRight(TrimLeft(s))
  }

  /** Where the stripped string starts in `s`. */
  function StripStart(s: string): nat {
    |s| - |TrimLeft(s)|
  }

  /** The stripped string is a slice of `s`, and everything cut off on either side is whitespace. */
  lemma StripSpec(s: string)
    ensures SliceAt(s, StripStart(s), Strip(s))
    ensures forall i :: 0 <= i < StripStart(s) ==> IsSpace(s[i])
    ensures forall i :: StripStart(s) + |Strip(s)| <= i < |s| ==> IsSpace(s[i])
  {
    StripIsSlice(s);
    StripCutsRightSpace(s);
  }

  lemma StripIsSlice(s: string)
    ensures SliceAt(s, StripStart(s), Strip(s))
  {
    var l := TrimLeft(s);
    var r := TrimRight(l);
    var lo := |s| - |l|;
    assert Strip(s) == r && StripStart(s) == lo;
    assert s[lo..] == l;
    assert r == l[..|r|];
    SliceOfSuffix(s, lo, |r|);
  }

  lemma SliceOfSuffix(s: string, lo: nat, k: nat)
    requires lo + k <= |s|
    ensures s[lo..][..k] == s[lo..lo + k]
  {
  }

  lemma StripCutsRightSpace(s: string)
    ensures forall i :: StripStart(s) + |Strip(s)| <= i < |s| ==> IsSpace(s[i])
  {
    var l := TrimLeft(s);
    var lo := |s| - |l|;
    assert s[lo..] == l;
    forall i | lo + |TrimRight(l)| <= i < |s| ensures IsSpace(s[i]) {
      assert s[i] == l[i - lo];
    }
  }

  lemma {:induction false} TrimLeftOfSpaces(w: string, s: string)
    requires forall i :: 0 <= i < |w| ==> IsSpace(w[i])
    ensures TrimLeft(w + s) == TrimLeft(s)
    decreases |w|
  {
    if |w| > 0 {
      assert (w + s)[1..] == w[1..] + s;
      TrimLeftOfSpaces(w[1..], s);
    } else {
      assert w + s == s;
    }
  }

  lemma {:induction false} TrimRightOfSpaces(s: string, w: string)
    requires forall i :: 0 <= i < |w| ==> IsSpace(w[i])
    ensures TrimRight(s + w) == TrimRight(s)
    decreases |w|
  {
    if |w| > 0 {
      assert (s + w)[..|s + w| - 1] == s + w[..|w| - 1];
      TrimRightOfSpaces(s, w[..|w| - 1]);
    } else {
      assert s + w == s;
    }
  }

  lemma TrimRightKeepsLeft(s: string)
    requires |s| > 0 ==> !IsSpace(s[0])
    ensures var r := TrimRight(s); |r| > 0 ==> !IsSpace(r[0])
  {
  }

  lemma TrimLeftTrimmed(s: string)
    requires |s| > 0 ==> !IsSpace(s[0])
    ensures TrimLeft(s) == s
  {
  }

  lemma TrimRightTrimmed(s: string)
    requires |s| > 0 ==> !IsSpace(s[|s| - 1])
    ensures TrimRight(s) == s
  {
  }

  /** A string that neither starts nor ends with whitespace is its own strip. */
  lemma StripUnpadded(s: string)
    requires |s| > 0 ==> !IsSpace(s[0]) && !IsSpace(s[|s| - 1])
    ensures Strip(s) == s
  {
    TrimLeftTrimmed(s);
    TrimRightTrimmed(s);
  }

  /** Stripping is idempotent. */
  lemma StripIdempotent(s: string)
    ensures Strip(Strip(s)) == Strip(s)
  {
    var r := Strip(s);
    TrimLeftTrimmed(r);
    TrimRightTrimmed(r);
  }

  /** Whitespace added around a string does not survive stripping. */
  lemma StripIgnoresSurroundingSpace(w1: string, s: string, w2: string)
    requires forall i :: 0 <= i < |w1| ==> IsSpace(w1[i])
    requires forall i :: 0 <= i < |w2| ==> IsSpace(w2[i])
    ensures Strip(w1 + s + w2) == Strip(s)
  {
    assert w1 + s + w2 == w1 + (s + w2);
    TrimLeftOfSpaces(w1, s + w2);
    assert TrimLeft(w1 + s + w2) == TrimLeft(s + w2);
    TrimLeftSuffix(s, w2);
    var l := TrimLeft(s);
    if TrimLeft(s + w2) == l + w2 {
      TrimRightOfSpaces(l, w2);
      assert TrimRight(TrimLeft(w1 + s + w2)) == TrimRight(l);
    } else {
      assert TrimLeft(s + w2) == [] && l == [];
    }
  }

  /** Trimming the left of `s + w` trims inside `s` unless `s` is all space. */
  lemma {:induction false} TrimLeftSuffix(s: string, w: string)
    requires forall i :: 0 <= i < |w| ==> IsSpace(w[i])
    ensures TrimLeft(s + w) == TrimLeft(s) + w || (TrimLeft(s) == [] && TrimLeft(s + w) == [])
    decreases |s|
  {
    if |s| == 0 {
      assert s + w == w;
      TrimLeftOfSpaces(w, []);
      assert w + [] == w;
    } else if IsSpace(s[0]) {
      assert (s + w)[1..] == s[1..] + w;
      TrimLeftSuffix(s[1..], w);
    }
  }

  /** `s.lower().strip()` on ASCII text, the normalization both sides of a comparison get. */
  function Normalize(s: string): string {
    Strip(Lower(s))
  }

  /** A normalized string holds no capital and is no longer than the original. */
  lemma NormalizeSpec(s: string)
    ensures |Normalize(s)| <= |s|
    ensures forall i :: 0 <= i < |Normalize(s)| ==> !IsUpper(Normalize(s)[i])
  {
    LowerSpec(s);
    StripSpec(Lower(s));
    var lo := StripStart(Lower(s));
    forall i | 0 <= i < |Normalize(s)| ensures !IsUpper(Normalize(s)[i]) {
      assert Normalize(s)[i] == Lower(s)[lo + i];
    }
  }

  /** Normalizing ignores letter case and surrounding whitespace. */
  lemma NormalizeIgnoresCaseAndPadding(w1: string, s: string, w2: string)
    requires forall i :: 0 <= i < |w1| ==> IsSpace(w1[i])
    requires forall i :: 0 <= i < |w2| ==> IsSpace(w2[i])
    ensures Normalize(w1 + Lower(s) + w2) == Normalize(s)
  {
    LowerAppend(w1, Lower(s));
    LowerAppend(w1 + Lower(s), w2);
    LowerIdempotent(s);
    assert Lower(w1) == w1;
    assert Lower(w2) == w2;
    StripIgnoresSurroundingSpace(w1, Lower(s), w2);
  }

  // ---------------------------------------------------------------------------
  // Substring containment
  // ---------------------------------------------------------------------------

  /** Reference meaning of Python's `sub in s`: `sub` occurs at some offset. */
  ghost predicate OccursIn(sub: string, s: string) {
    exists i :: SliceAt(s, i, sub)
  }

  /** `sub in s`, scanning offsets left to right. */
  predicate Contains(s: string, sub: string)
    decreases |s|
  {
    (|sub| <= |s| && s[..|sub|] == sub) || (|s| > 0 && Contains(s[1..], sub))
  }

  /** The scan agrees with the reference meaning, in both directions. */
  lemma {:induction false} ContainsMeansOccurs(s: string, sub: string)
    ensures Contains(s, sub) <==> OccursIn(sub, s)
    decreases |s|
  {
    if |sub| <= |s| && s[..|sub|] == sub {
      assert SliceAt(s, 0, sub);
    } else if |s| > 0 {
      ContainsMeansOccurs(s[1..], sub);
      if OccursIn(sub, s[1..]) {
        var i :| SliceAt(s[1..], i, sub);
        assert SliceAt(s, i + 1, sub);
      }
      if OccursIn(sub, s) {
        var i :| SliceAt(s, i, sub);
        assert i != 0;
        assert SliceAt(s[1..], i - 1, sub);
      }
    }
  }

  /** A string occurs in any text that has it as a slice. */
  lemma ContainsSlice(a: string, sub: string, b: string)
    ensures Contains(a + sub + b, sub)
  {
    var s := a + sub + b;
    assert SliceAt(s, |a|, sub);
    ContainsMeansOccurs(s, sub);
  }

  /**
   * Stripping a piece of a longer text, and stripping the whole: the stripped
   * piece occurs in the stripped whole, since only whitespace is cut off the
   * whole and the stripped piece begins and ends with other characters.
   */
  lemma StripOfMiddleOccurs(a: string, m: string, b: string)
    ensures OccursIn(Strip(m), Strip(a + m + b))
  {
    var s := Strip(m);
    if |s| == 0 {
      assert SliceAt(Strip(a + m + b), 0, s);
    } else {
      StripIsSlice(m);
      SliceInMiddle(a, m, b, StripStart(m), s);
      SliceInsideStrip(a + m + b, |a| + StripStart(m), s);
    }
  }

  /** A slice of `m` is a slice of `a + m + b`, moved right by `|a|`. */
  lemma SliceInMiddle(a: string, m: string, b: string, lo: int, s: string)
    requires SliceAt(m, lo, s)
    ensures SliceAt(a + m + b, |a| + lo, s)
  {
    var x := a + m + b;
    assert x[|a| + lo..|a| + lo + |s|] == m[lo..lo + |s|];
  }

  /** A slice that begins and ends with non-whitespace survives stripping. */
  lemma SliceInsideStrip(x: string, p: int, s: string)
    requires SliceAt(x, p, s) && |s| > 0 && !IsSpace(s[0]) && !IsSpace(s[|s| - 1])
    ensures SliceAt(Strip(x), p - StripStart(x), s)
  {
    var w, lo := Strip(x), StripStart(x);
    StripSpec(x);
    assert x[p] == s[0] && x[p + |s| - 1] == s[|s| - 1];
    assert lo <= p && p + |s| <= lo + |w|;
    assert w[p - lo..p - lo + |s|] == x[p..p + |s|];
  }

  // ---------------------------------------------------------------------------
  // Splitting and joining
  // ---------------------------------------------------------------------------

  /** `s.split(sep)` for a one-character separator: never empty, no piece holds `sep`. */
  function Split(s: string, sep: char): (r: seq<string>)
    ensures |r| >= 1
    ensures forall i :: 0 <= i < |r| ==> sep !in r[i]
  {
    if |s| == 0 then [""]
    else
      var rest := Split(s[1..], sep);
      if s[0] == sep then [""] + rest else [[s[0]] + rest[0]] + rest[1..]
  }

  /** `sep.join(parts)`. */
  function Join(parts: seq<string>, sep: char): string
    decreases |parts|
  {
    if |parts| == 0 then ""
    else if |parts| == 1 then parts[0]
    else parts[0] + [sep] + Join(parts[1..], sep)
  }

  lemma JoinCons(p: string, rest: seq<string>, sep: char)
    requires |rest| >= 1
    ensures Join([p] + rest, sep) == p + [sep] + Join(rest, sep)
  {
    assert ([p] + rest)[1..] == rest;
  }

  /** Putting a character in front of the first piece puts it in front of the join. */
  lemma JoinExtendHead(c: char, rest: seq<string>, sep: char)
    requires |rest| >= 1
    ensures Join([[c] + rest[0]] + rest[1..], sep) == [c] + Join(rest, sep)
  {
    if |rest| > 1 {
      JoinCons([c] + rest[0], rest[1..], sep);
      JoinCons(rest[0], rest[1..], sep);
      assert [rest[0]] + rest[1..] == rest;
    }
  }

  /** Joining the pieces of a split gives back the original string. */
  lemma {:induction false} JoinSplit(s: string, sep: char)
    ensures Join(Split(s, sep), sep) == s
    decreases |s|
  {
    if |s| > 0 {
      var rest := Split(s[1..], sep);
      JoinSplit(s[1..], sep);
      if s[0] == sep {
        assert Split(s, sep) == [""] + rest;
        JoinCons("", rest, sep);
      } else {
        assert Split(s, sep) == [[s[0]] + rest[0]] + rest[1..];
        JoinExtendHead(s[0], rest, sep);
      }
      assert s == [s[0]] + s[1..];
    }
  }

  /** Splitting a join of separator-free pieces gives back the pieces. */
  lemma {:induction false} SplitJoin(parts: seq<string>, sep: char)
    requires |parts| >= 1
    requires forall i :: 0 <= i < |parts| ==> sep !in parts[i]
    ensures Split(Join(parts, sep), sep) == parts
    decreases |parts|, |parts[0]|
  {
    var p := parts[0];
    if |p| == 0 {
      if |parts| == 1 {
      } else {
        var tail := Join(parts[1..], sep);
        assert Join(parts, sep) == [sep] + tail;
        assert ([sep] + tail)[1..] == tail;
        SplitJoin(parts[1..], sep);
        assert parts == [""] + parts[1..];
      }
    } else {
      var parts' := [p[1..]] + parts[1..];
      assert parts'[1..] == parts[1..];
      assert Join(parts, sep) == [p[0]] + Join(parts', sep) by {
        if |parts| == 1 {
          assert p == [p[0]] + p[1..];
        } else {
          assert p + [sep] + Join(parts[1..], sep) == [p[0]] + (p[1..] + [sep] + Join(parts[1..], sep));
        }
      }
      assert ([p[0]] + Join(parts', sep))[1..] == Join(parts', sep);
      assert p[0] in p;
      assert forall i :: 0 <= i < |parts'| ==> sep !in parts'[i] by {
        forall i | 0 <= i < |parts'|
          ensures sep !in parts'[i]
        {
          if i == 0 {
            assert forall c :: c in p[1..] ==> c in p;
          } else {
            assert parts'[i] == parts[i];
          }
        }
      }
      SplitJoin(parts', sep);
      assert p == [p[0]] + p[1..];
      assert parts == [[p[0]] + parts'[0]] + parts'[1..];
    }
  }

  // ---------------------------------------------------------------------------
  // Decimal integers
  // ---------------------------------------------------------------------------

  predicate IsDigit(c: char) { '0' <= c <= '9' }

  predicate AllDigits(s: string) {
    forall i :: 0 <= i < |s| ==> IsDigit(s[i])
  }

  function DigitChar(d: nat): (c: char)
    requires d < 10
    ensures IsDigit(c)
  {
    ('0' as int + d) as char
  }

  function DigitValue(c: char): (d: nat)
    requires IsDigit(c)
    ensures d < 10 && DigitChar(d) == c
  {
    c as int - '0' as int
  }

  /** Value of a string of decimal digits, most significant first. */
  function DigitsValue(s: string): nat
    requires AllDigits(s)
  {
    if |s| == 0 then 0 else 10 * DigitsValue(s[..|s| - 1]) + DigitValue(s[|s| - 1])
  }

  /** `str(n)` for a natural number. */
  function NatToString(n: nat): (s: string)
    ensures |s| >= 1 && AllDigits(s)
  {
    if n < 10 then [DigitChar(n)] else NatToString(n / 10) + [DigitChar(n % 10)]
  }

  /** `str(i)`: decimal digits, preceded by `-` when negative. */
  function IntToString(i: int): (s: string)
    ensures '_' !in s
  {
    if i < 0 then "-" + NatToString(-i) else NatToString(i)
  }

  /**
   * `int(s)`: surrounding whitespace is ignored, and what remains is an
   * optional sign followed by at least one decimal digit; anything else is
   * the `ValueError` case, `None` here.
   */
  function ParseInt(s: string): Option<int> {
    ParseSigned(Strip(s))
  }

  /** An optional sign followed by at least one decimal digit, and nothing else. */
  function ParseSigned(s: string): Option<int> {
    if |s| >= 2 && s[0] == '-' && AllDigits(s[1..]) then Some(-(DigitsValue(s[1..]) as int))
    else if |s| >= 2 && s[0] == '+' && AllDigits(s[1..]) then Some(DigitsValue(s[1..]))
    else if |s| >= 1 && AllDigits(s) then Some(DigitsValue(s))
    else None
  }

  lemma {:induction false} DigitsOfNat(n: nat)
    ensures DigitsValue(NatToString(n)) == n
  {
    if n >= 10 {
      DigitsOfNat(n / 10);
      var s := NatToString(n);
      assert s[..|s| - 1] == NatToString(n / 10);
    }
  }

  /** Parsing a printed integer gives back the integer. */
  lemma ParseIntToString(i: int)
    ensures ParseInt(IntToString(i)) == Some(i)
  {
    IntToStringUnpadded(i);
    StripUnpadded(IntToString(i));
    ParseSignedToString(i);
  }

  /** A printed integer starts and ends with no whitespace. */
  lemma IntToStringUnpadded(i: int)
    ensures var s := IntToString(i); |s| > 0 && !IsSpace(s[0]) && !IsSpace(s[|s| - 1])
  {
    var s := IntToString(i);
    if i < 0 {
      var digits := NatToString(-i);
      assert s == "-" + digits;
      assert s[|s| - 1] == digits[|digits| - 1];
    }
  }

  /** The sign and digits of a printed integer read back as the integer. */
  lemma ParseSignedToString(i: int)
    ensures ParseSigned(IntToString(i)) == Some(i)
  {
    var s := IntToString(i);
    if i < 0 {
      var digits := NatToString(-i);
      assert s == "-" + digits;
      assert s[1..] == digits;
      DigitsOfNat(-i);
      assert ParseSigned(s) == Some(-(DigitsValue(digits) as int));
    } else {
      assert s == NatToString(i);
      assert IsDigit(s[0]);
      DigitsOfNat(i);
      assert ParseSigned(s) == Some(DigitsValue(s));
    }
  }

  /** Whitespace around a number does not change what `int()` makes of it. */
  lemma ParseIntIgnoresPadding(w1: string, s: string, w2: string)
    requires forall i :: 0 <= i < |w1| ==> IsSpace(w1[i])
    requires forall i :: 0 <= i < |w2| ==> IsSpace(w2[i])
    ensures ParseInt(w1 + s + w2) == ParseInt(s)
  {
    StripIgnoresSurroundingSpace(w1, s, w2);
  }
}

=== FILE: verification.dfy ===
/**
 * `verify_answer`: the text-answer check of `bot.py`, with its four modes
 * (checklist, acceptable answers, comma-separated keywords, single answer).
 * Every comparison is a case-folded, stripped substring test.
 */
module Verification {
  import opened Wrappers
  import opened Text
  import opened Challenges

  /** The result dictionary: `correct`, `partial`, `matched_items`. */
  datatype Verdict = Verdict(correct: bool, partial: bool, matched: seq<string>)

  const Rejected := Verdict(false, false, [])

  /** The source's test `expected == answer or expected in answer`. */
  predicate Matches(expected: string, answer: string)
    ensures Matches(expected, answer) <==> Contains(answer, expected)
  {
    assert |answer| <= |answer| && answer[..|answer|] == answer;
    expected == answer || Contains(answer, expected)
  }

  predicate IsChecklist(c: Challenge) {
    c.checklist.Some? && |c.checklist.value| > 0
  }

  /** The configured checklist items whose normalized form occurs in `answer`. */
  function MatchedItems(items: seq<string>, answer: string): (r: seq<string>)
    ensures forall x :: x in r <==> x in items && Contains(answer, Normalize(x))
    ensures |r| <= |items|
  {
    if |items| == 0 then []
    else (if Matches(Normalize(items[0]), answer) then [items[0]] else []) + MatchedItems(items[1..], answer)
  }

  /** Every configured item has been recorded. */
  predicate ChecklistComplete(items: seq<string>, progress: set<string>) {
    forall i :: 0 <= i < |items| ==> items[i] in progress
  }

  /** The recorded items after a submission matched `matched`. */
  function Record(progress: set<string>, matched: seq<string>): (p: set<string>)
    ensures forall x :: x in p <==> x in progress || x in matched
  {
    progress + set x | x in matched
  }

  /** The trimmed keywords of a comma-separated expected answer. */
  function Keywords(expected: string): seq<string> {
    StripAll(Split(Normalize(expected), ','))
  }

  function StripAll(parts: seq<string>): (r: seq<string>)
    ensures |r| == |parts|
    ensures forall i :: 0 <= i < |r| ==> r[i] == Strip(parts[i])
  {
    if |parts| == 0 then [] else [Strip(parts[0])] + StripAll(parts[1..])
  }

  predicate AllOccur(keywords: seq<string>, answer: string) {
    forall i :: 0 <= i < |keywords| ==> Contains(answer, keywords[i])
  }

  /** The normalized `candidate` occurs in `answer`. */
  predicate Accepts(answer: string, candidate: string) {
    Contains(answer, Normalize(candidate))
  }

  predicate AnyOccurs(candidates: seq<string>, answer: string) {
    exists i :: 0 <= i < |candidates| && Accepts(answer, candidates[i])
  }

  /** The acceptable-answers loop: true at the first entry that matches. */
  function FirstAcceptable(candidates: seq<string>, answer: string): (r: bool)
    ensures r <==> AnyOccurs(candidates, answer)
  {
    if |candidates| == 0 then false
    else
      AnyOccursSplit(candidates, answer);
      if Matches(Normalize(candidates[0]), answer) then true
      else FirstAcceptable(candidates[1..], answer)
  }

  lemma AnyOccursSplit(candidates: seq<string>, answer: string)
    requires |candidates| > 0
    ensures AnyOccurs(candidates, answer) <==>
            Accepts(answer, candidates[0]) || AnyOccurs(candidates[1..], answer)
  {
    var tail := candidates[1..];
    if AnyOccurs(tail, answer) {
      var k :| 0 <= k < |tail| && Accepts(answer, tail[k]);
      assert candidates[k + 1] == tail[k];
      assert AnyOccurs(candidates, answer);
    }
    if AnyOccurs(candidates, answer) && !Accepts(answer, candidates[0]) {
      var k :| 0 <= k < |candidates| && Accepts(answer, candidates[k]);
      assert k > 0 && tail[k - 1] == candidates[k];
      assert AnyOccurs(tail, answer);
    }
  }

  /**
   * `verify_answer(challenge, answer, team)`. `progress` is `None` when no team
   * is given, and otherwise the checklist items already recorded for the
   * team; the source records the matched items and then asks whether every
   * item is recorded.
   */
  function VerifyAnswer(c: Challenge, answer: string, progress: Option<set<string>>): (r: Verdict)
    ensures c.verifyBy != Some(AnswerMethod) ==> r == Rejected
    ensures c.verifyBy == Some(AnswerMethod) && IsChecklist(c) ==>
      var items := c.checklist.value;
      && (forall x :: x in r.matched <==> x in items && Contains(Normalize(answer), Normalize(x)))
      && (r.correct <==> progress.Some? && |r.matched| > 0 && ChecklistComplete(items, Record(progress.value, r.matched)))
      && (r.partial <==> |r.matched| > 0 && !r.correct)
    ensures c.verifyBy == Some(AnswerMethod) && !IsChecklist(c) && |c.acceptable| > 0 ==>
      && (r.correct <==> AnyOccurs(c.acceptable, Normalize(answer)))
      && !r.partial && r.matched == []
    ensures c.verifyBy == Some(AnswerMethod) && !IsChecklist(c) && |c.acceptable| == 0 && ',' in Normalize(c.answer) ==>
      && (r.correct <==> AllOccur(Keywords(c.answer), Normalize(answer)))
      && !r.partial && r.matched == []
    ensures c.verifyBy == Some(AnswerMethod) && !IsChecklist(c) && |c.acceptable| == 0 && ',' !in Normalize(c.answer) ==>
      && (r.correct <==> Contains(Normalize(answer), Normalize(c.answer)))
      && !r.partial && r.matched == []
  {
    if c.verifyBy != Some(AnswerMethod) then Rejected
    else
      var a := Normalize(answer);
      if IsChecklist(c) then
        var items := c.checklist.value;
        var matched := MatchedItems(items, a);
        if |matched| > 0 && progress.Some? then
          var complete := ChecklistComplete(items, Record(progress.value, matched));
          Verdict(complete, !complete, matched)
        else if |matched| > 0 then Verdict(false, true, matched)
        else Rejected
      else if |c.acceptable| > 0 then
        Verdict(FirstAcceptable(c.acceptable, a), false, [])
      else
        var expected := Normalize(c.answer);
        if ',' in expected then Verdict(AllOccur(Keywords(c.answer), a), false, [])
        else Verdict(Matches(expected, a), false, [])
  }

  /** The progress recorded by the bot after a verification: matched items are added only with a team. */
  function ProgressAfter(c: Challenge, answer: string, progress: set<string>): set<string> {
    var v := VerifyAnswer(c, answer, Some(progress));
    if IsChecklist(c) && |v.matched| > 0 then Record(progress, v.matched) else progress
  }

  // ---------------------------------------------------------------------------
  // Properties
  // ---------------------------------------------------------------------------

  /** Only the answer method can accept a text submission; a photo challenge asks for a photo. */
  lemma TextOnlyForAnswerMethod(c: Challenge, answer: string, progress: Option<set<string>>)
    ensures VerifyAnswer(c, answer, progress).correct ==> ExpectedAnswerFormat(c) == TextFormat
  {
  }

  /** Letter case and surrounding whitespace of the submission never change the verdict. */
  lemma VerifyIgnoresCaseAndPadding(c: Challenge, answer: string, w1: string, w2: string, progress: Option<set<string>>)
    requires forall i :: 0 <= i < |w1| ==> IsSpace(w1[i])
    requires forall i :: 0 <= i < |w2| ==> IsSpace(w2[i])
    ensures VerifyAnswer(c, w1 + Lower(answer) + w2, progress) == VerifyAnswer(c, answer, progress)
  {
    NormalizeIgnoresCaseAndPadding(w1, answer, w2);
  }

  /** The expected answer itself, in any case, is always accepted in single-answer mode. */
  lemma ExpectedAnswerAccepted(c: Challenge, progress: Option<set<string>>)
    requires c.verifyBy == Some(AnswerMethod) && !IsChecklist(c) && |c.acceptable| == 0
    requires ',' !in Normalize(c.answer)
    ensures VerifyAnswer(c, c.answer, progress).correct
  {
    var e := Normalize(c.answer);
    assert |e| <= |e| && e[..|e|] == e;
  }

  /** A non-empty acceptable-answers list makes the `answer` field irrelevant. */
  lemma AcceptableOverridesAnswer(c: Challenge, other: string, answer: string, progress: Option<set<string>>)
    requires !IsChecklist(c) && |c.acceptable| > 0
    ensures VerifyAnswer(c.(answer := other), answer, progress) == VerifyAnswer(c, answer, progress)
  {
  }

  /** An expected answer embedded anywhere in a longer submission is accepted. */
  lemma EmbeddedAnswerAccepted(c: Challenge, before: string, after: string, progress: Option<set<string>>)
    requires c.verifyBy == Some(AnswerMethod) && !IsChecklist(c) && |c.acceptable| == 0
    requires ',' !in Normalize(c.answer)
    ensures VerifyAnswer(c, before + c.answer + after, progress).correct
  {
    LowerAppend(before, c.answer);
    LowerAppend(before + c.answer, after);
    StripOfMiddleOccurs(Lower(before), Lower(c.answer), Lower(after));
    ContainsMeansOccurs(Normalize(before + c.answer + after), Normalize(c.answer));
  }

  /** Re-submitting items that are already recorded leaves the progress as it was. */
  lemma ResubmissionIsNoOp(c: Challenge, answer: string, progress: set<string>)
    requires IsChecklist(c)
    requires forall x :: x in c.checklist.value && Contains(Normalize(answer), Normalize(x)) ==> x in progress
    ensures ProgressAfter(c, answer, progress) == progress
  {
  }

  // ---------------------------------------------------------------------------
  // Checklist progress over several submissions
  // ---------------------------------------------------------------------------

  /** `x` is a checklist item of `c` that occurs in `answer`. */
  predicate ItemMatched(c: Challenge, x: string, answer: string) {
    IsChecklist(c) && x in c.checklist.value && Contains(Normalize(answer), Normalize(x))
  }

  /** One submission adds exactly the items it matches. */
  lemma ProgressAfterAddsMatches(c: Challenge, answer: string, progress: set<string>)
    requires c.verifyBy == Some(AnswerMethod)
    ensures forall x :: x in ProgressAfter(c, answer, progress) <==> x in progress || ItemMatched(c, x, answer)
  {
  }

  /** The progress after submitting `answers` one after another. */
  function ProgressOver(c: Challenge, answers: seq<string>, progress: set<string>): set<string>
    decreases |answers|
  {
    if |answers| == 0 then progress
    else ProgressOver(c, answers[1..], ProgressAfter(c, answers[0], progress))
  }

  /** `x` is matched by one of the submissions. */
  predicate MatchedBySome(c: Challenge, x: string, answers: seq<string>) {
    exists k :: 0 <= k < |answers| && ItemMatched(c, x, answers[k])
  }

  /** Some element of `s` satisfies `p`. */
  predicate SomeSatisfies(p: string -> bool, s: seq<string>) {
    exists k :: 0 <= k < |s| && p(s[k])
  }

  lemma SomeSatisfiesSplit(p: string -> bool, s: seq<string>)
    requires |s| > 0
    ensures SomeSatisfies(p, s) <==> p(s[0]) || SomeSatisfies(p, s[1..])
  {
    if SomeSatisfies(p, s[1..]) {
      var k :| 0 <= k < |s[1..]| && p(s[1..][k]);
      assert s[1..][k] == s[k + 1];
    }
    if SomeSatisfies(p, s) && !p(s[0]) {
      var k :| 0 <= k < |s| && p(s[k]);
      assert s[1..][k - 1] == s[k];
    }
  }

  lemma MatchedBySomeSplit(c: Challenge, x: string, answers: seq<string>)
    requires |answers| > 0
    ensures MatchedBySome(c, x, answers) <==> ItemMatched(c, x, answers[0]) || MatchedBySome(c, x, answers[1..])
  {
    var p := a => ItemMatched(c, x, a);
    SomeSatisfiesSplit(p, answers);
    assert MatchedBySome(c, x, answers) == SomeSatisfies(p, answers);
    assert MatchedBySome(c, x, answers[1..]) == SomeSatisfies(p, answers[1..]);
  }

  /**
   * However the items are spread over messages, and in whatever order they
   * arrive, the recorded progress is the starting progress plus exactly the
   * items some message matched.
   */
  lemma {:induction false} ProgressOverIsUnion(c: Challenge, answers: seq<string>, progress: set<string>)
    requires c.verifyBy == Some(AnswerMethod)
    ensures forall x :: x in ProgressOver(c, answers, progress) <==> x in progress || MatchedBySome(c, x, answers)
    decreases |answers|
  {
    if |answers| > 0 {
      var p1 := ProgressAfter(c, answers[0], progress);
      ProgressAfterAddsMatches(c, answers[0], progress);
      ProgressOverIsUnion(c, answers[1..], p1);
      forall x ensures x in ProgressOver(c, answers, progress) <==> x in progress || MatchedBySome(c, x, answers) {
        MatchedBySomeSplit(c, x, answers);
      }
    }
  }

  /**
   * The checklist is complete after a series of messages exactly when every
   * item not recorded at the start is matched by one of them.
   */
  lemma ChecklistCompletesByUnion(c: Challenge, answers: seq<string>, progress: set<string>)
    requires c.verifyBy == Some(AnswerMethod) && IsChecklist(c)
    ensures ChecklistComplete(c.checklist.value, ProgressOver(c, answers, progress)) <==>
            forall i :: 0 <= i < |c.checklist.value| ==>
              c.checklist.value[i] in progress || MatchedBySome(c, c.checklist.value[i], answers)
  {
    ProgressOverIsUnion(c, answers, progress);
  }

  /** The verdict of a checklist message is correct exactly when, after it, every item is recorded. */
  lemma ChecklistCorrectMeansComplete(c: Challenge, answer: string, progress: set<string>)
    requires c.verifyBy == Some(AnswerMethod) && IsChecklist(c)
    ensures VerifyAnswer(c, answer, Some(progress)).correct <==>
            |VerifyAnswer(c, answer, Some(progress)).matched| > 0 &&
            ChecklistComplete(c.checklist.value, ProgressAfter(c, answer, progress))
  {
  }
}

=== FILE: wrappers.dfy ===
/** Optional values, standing in for Python's `None`. */
module Wrappers {

  datatype Option<+T> = None | Some(value: T) {

    /** Returns the value held in Some, or `default` when None. */
    function GetOr(default: T): T {
      match this
      case Some(v) => v
      case None => default
    }
  }
}
